=== FILE: README.md ===
# Maze level generation, modelled in Dafny

This project models the procedural level generator of a small tile-based
game. A level is a grid of tile-type tags. `MazeGenerator.generate_grid`
runs a fixed recipe of raster passes over it:

1. It lines the border of a half-size grid.
2. It carves a maze by a random walk with backtracking.
3. It bridges short gaps between maze walls.
4. It trims isolated spurs.
5. It doubles the grid back to the requested size.
6. It fills about a fifth of the area with neon. The neon goes into interior blank regions, chosen by a bounded subset-sum search over their sizes.
7. It grows walls and stone floors around the maze and turns the rest to snow.
8. It scatters trees over the snow.
9. It marks walls and stone floors as blocking in a parallel collision grid.

Next to the generator the project models three smaller pieces:

- the sprite lookup for connectable tiles, which matches a 3×3 neighbourhood pattern against a fixed table with a corner-clearing fallback;
- the tile set's registration and lookup of tile and decorator records;
- the string-to-enum parsers.

Modules follow the source files:

| module | file | what it holds |
|---|---|---|
| `Outcomes` | `outcomes.dfy` | `Option`, `Result` and the failure kinds |
| `TileTypeEnums` | `tile_type_enum.dfy` | the four enums and their parsers |
| `Grids` | `grids.dfy` | the grid datatype, cell access and two-phase writes |
| `Draws` | `draws.dfy` | the random stream |
| `Shaping` | `shaping.dfy` | edge lining, type replacement, scaling, trimming, rims, collision stamping |
| `Bridging` | `bridges.dfy` | `bridge_gaps` |
| `Maze` | `maze.dfy` | `generate_maze` and its helpers |
| `Regions` | `regions.dfy` | flood-fill labelling and edge classification |
| `Selection` | `selection.dfy` | ordering and percentage selection of regions |
| `Decorations` | `decoration.dfy` | decoration scattering |
| `Tilesets` | `tileset_loader.dfy` | sprite lookup and the tile set |
| `Pipeline` | `pipeline.dfy` | `generate_grid` |

Conventions:

- A grid is a column-major `seq<seq<T>>` indexed `[x][y]`, like the source's dictionaries.
- Tiles are their `TileTypeEnum` tags. A collision grid holds booleans, where `true` is the source's 1.
- Every pass is a pure function or method of the pre-pass grid. It returns the new grid rather than mutating the caller's.
- Reading outside the grid is a `KeyError` in the source. Here it is a precondition.
- Every exception the modelled code can end with is a `Result` failure. The failure kinds and their sources:
  - `InvalidDimensions`: the `ValueError` of level/grid.py:19.
  - `InvalidParameter`: the `ValueError`s for a percentage or scale factor out of range (level/grid_generator_helper.py:173, :323, :423), and the one `randrange(1, n)` raises for `n <= 1` in the start selection (:603-604) when a grid dimension is not positive.
  - `UnrecognisedValue`: the parsers' `ValueError` (level/tile_type_enum.py:19, :29, :38, :48).
  - `NoCombination`: the `ValueError` that `min` of an empty list raises (level/grid_generator_helper.py:346). There is no explicit raise.
  - `MissingTag`: the dictionary's `KeyError` (level/tileset_loader.py:208, :211).
  - `AlreadyDefined`: the duplicate `ValueError` (level/tileset_loader.py:194, :201). Only the corrected constructor reaches it (see "## Findings").
  - `SweepsExhausted`: no counterpart in the source. It is what the fuel bound of the decoration sweeps yields.

Randomness is an explicit stream `Rng(source, next)`:

- `randrange(0, n)` is `source(next) % n`, and `next` then advances by one.
- `shuffle([1, 2, 3, 4])` is CPython's Fisher–Yates with three draws.
- The float tests `randrange(0, 100000) / 1000 <= p` become integer comparisons in thousandths.

In four places the code does something other than its names and messages suggest. The model follows the code:

- **Trimming.** `trim_edges` tests every cell, not only cells of the edge type (`level/grid_generator_helper.py:450-471`).
- **Bridge fill chance.** `fill_chance` is compared against a draw in `[0, 100)`, so it is a percentage (0.5 means half a percent) rather than a probability (`:582-583`).
- **Vertical bridges.** The validity test names the two edge flags only for horizontal runs (`:567`). A valid vertical run still meets an edge on both sides, because a scan that misses an edge, and is not flagged invalid, gathers more cells than the length bound allows (`Bridging.CandidateMeetsBothEdges`).
- **Decoration.** The decorator drops only the candidates whose draw hit, not every visited candidate (`:185-201`).

## Model

| member | source | states |
|---|---|---|
| TileTypeEnums.FirstWithValue | level/tile_type_enum.py:15-19 | the member-by-member scan finds only a member carrying the value, and finds nothing exactly when no member carries it |
| TileTypeEnums.FirstWithValueFindsMember | level/tile_type_enum.py:15-18 | when the values are pairwise distinct, scanning for a member's own value returns that member |
| TileTypeEnums.TileTypeFromValue | level/tile_type_enum.py:15-19 | a parsed tile type carries exactly the given value; a failure is `UnrecognisedValue` of that value |
| TileTypeEnums.TileFormatFromValue | level/tile_type_enum.py:25-29 | the same for tile formats |
| TileTypeEnums.DecoratorFromValue | level/tile_type_enum.py:34-38 | the same for decorators |
| TileTypeEnums.DecoratorCollisionFormatFromValue | level/tile_type_enum.py:44-48 | the same for decorator collision formats |
| TileTypeEnums.ValuesAreDistinct | level/tile_type_enum.py:3-48 | the member values of each of the four enums are pairwise distinct, so the first match is the only match |
| TileTypeEnums.TileTypeRoundTrip | level/tile_type_enum.py:3-19 | parsing a member's value gives back that member |
| TileTypeEnums.TileFormatRoundTrip | level/tile_type_enum.py:21-29 | the same round trip for tile formats |
| TileTypeEnums.DecoratorRoundTrip | level/tile_type_enum.py:31-38 | the same round trip for decorators |
| TileTypeEnums.DecoratorCollisionFormatRoundTrip | level/tile_type_enum.py:40-48 | the same round trip for decorator collision formats |
| TileTypeEnums.TileTypeRejectsUnknown | level/tile_type_enum.py:15-19 | the parser fails exactly on strings that are no member's value |
| TileTypeEnums.TileFormatRejectsUnknown | level/tile_type_enum.py:25-29 | the same for tile formats |
| TileTypeEnums.DecoratorRejectsUnknown | level/tile_type_enum.py:34-38 | the same for decorators |
| TileTypeEnums.DecoratorCollisionFormatRejectsUnknown | level/tile_type_enum.py:44-48 | the same for decorator collision formats |
| Grids.WriteAll | level/grid_generator_helper.py:251-252 | the write phase of a collect-then-write pass: listed cells hold the value, every other cell keeps its pre-pass content |
| Shaping.LineGridEdge | level/grid_generator_helper.py:407-411 | cells outside the border band of the given thickness keep their content |
| Shaping.LineGridEdgeBand | level/grid_generator_helper.py:407-411 | every cell of the band holds the new type, so any cell without it lies at least `thickness` from every edge |
| Shaping.ReplaceType | level/grid_generator_helper.py:414-418 | cells not holding the old type are untouched |
| Shaping.ReplaceTypeMovesCells | level/grid_generator_helper.py:414-418 | afterwards no cell holds the old type, and the new type's cells are its former cells plus the old type's former cells |
| Shaping.ScaleGridUp | level/grid_generator_helper.py:421-441 | fails with `InvalidParameter` exactly when the factor is below 1; otherwise both grids are `w·k` by `h·k` |
| Shaping.UpscaleCopiesBlocks | level/grid_generator_helper.py:428-439 | output cell `(x, y)` equals source cell `(x div k, y div k)` |
| Shaping.UpscaleRoundTrip | level/grid_generator_helper.py:428-431 | reading the scaled grid at `(x·k, y·k)` gives back source cell `(x, y)` |
| Shaping.UpscaleKeepsUniform | level/grid_generator_helper.py:433-439 | a grid holding one value everywhere, like the all-zero collision grid, still does after scaling |
| Shaping.CountEdges | level/grid_generator_helper.py:452-468 | the count is the number of in-grid 4-neighbours of the edge type; off-grid neighbours do not count, and it is at most 4 |
| Shaping.TrimPass | level/grid_generator_helper.py:448-474 | a cell becomes the replacement exactly when its edge count in the pre-pass grid is at most `minimum_edges`, whatever its own type; every other cell is unchanged |
| Shaping.TrimPassKeepsEdgeCount | level/grid_generator_helper.py:470-474 | when the replacement differs from the edge type, a pass never increases the number of edge-type cells |
| Shaping.TrimEdges | level/grid_generator_helper.py:444-474 | after all passes, every cell holds its old content or the replacement, and the edge-type count has not grown |
| Shaping.Neighbours8AreAdjacent8 | level/grid_generator_helper.py:219-249 | the eight probes of the rim pass are exactly the cells at Chebyshev distance 1 |
| Shaping.CollectRim | level/grid_generator_helper.py:217-249 | visiting one rim-source cell collects only rim targets, and collects every in-grid 8-neighbour that holds the type to replace |
| Shaping.AddRim | level/grid_generator_helper.py:212-252 | a cell becomes the rim type exactly when, before the call, it held the type to replace (any type when none is given) and was 8-adjacent to a cell of the rimmed type; all other cells are unchanged |
| Shaping.AddRimGrowsOneRing | level/grid_generator_helper.py:212-252 | every cell the rim pass changed lies next to a cell of the rimmed type |
| Shaping.AddTileTypesToCollisionGrid | level/grid_generator_helper.py:164-169 | a cell blocks afterwards exactly when it blocked before or its tile type is in the list |
| Bridging.GuardKeepsScanIn | level/grid_generator_helper.py:495-527 | the bounds guard keeps every probe of the scan, including both flanking rows, inside the grid |
| Bridging.ScanStep | level/grid_generator_helper.py:496-507 | one probe at distance `i` extends the run only by gap cells at `±i`, and sets a side's edge flag exactly when that side's probe hits the edge type |
| Bridging.ScanGathersGap | level/grid_generator_helper.py:487-502 | after `n` probes the run starts at the seed and holds only gap cells on the seed's line within distance `n` |
| Bridging.CandidateIsRun | level/grid_generator_helper.py:484-567 | an accepted candidate passed the guard, has 1 to `max_length` cells, starts at the seed and lies on the gap; a horizontal one also found edges on both sides |
| Bridging.CandidateMeetsBothEdges | level/grid_generator_helper.py:530-567 | a candidate accepted along either axis met the edge type on both sides, the vertical one through the length bound alone |
| Bridging.ChooseRun | level/grid_generator_helper.py:566-579 | a chosen run is one of the cell's two candidates and a valid bridge; nothing is chosen exactly when neither candidate is valid; one draw is used only when a run is chosen |
| Bridging.ChooseAmong | level/grid_generator_helper.py:569-579 | the options list holds the counted runs, horizontal first, and the draw modulo its length picks one: the run `Pick` names for that draw; an empty list draws nothing |
| Bridging.ChooseRunPicks | level/grid_generator_helper.py:569-579 | with both runs counted an even draw takes the horizontal run and an odd draw the vertical one; with one counted, that one is taken |
| Bridging.InScanOrder | level/grid_generator_helper.py:480-481 | the two nested loops visit every cell of the grid |
| Bridging.CollectAt | level/grid_generator_helper.py:482-579 | a cell adds a run exactly when it is a gap cell with a counted candidate; the run is the one its draw, the next in the stream, picks; one draw is taken per run added |
| Bridging.CollectBridges | level/grid_generator_helper.py:480-579 | the collected runs match, one for one and in scan order (columns left to right, each top to bottom), the gap cells that have a counted candidate, each run being the candidate that the `i`-th draw of the collection picks for the `i`-th such cell; every such cell starts a collected run; the stream advances by one draw per collected run |
| Bridging.FillBridges | level/grid_generator_helper.py:581-585 | the filled bridges are exactly the collected ones whose own draw, taken in order one per bridge, hits the fill chance; each is filled whole, every other cell is unchanged, and one draw per bridge is used |
| Bridging.BridgeGaps | level/grid_generator_helper.py:477-585 | the collected runs are, in scan order, one counted candidate for each gap cell that has one, the one the cell's own draw picks; only cells that held the gap type change, only to the bridge type, exactly on the filled runs; the filled runs are those whose draw after the collection draws hits, and two draws per collected run are used |
| Maze.ShuffleTriesAll | level/grid_generator_helper.py:660-662 | every direction appears in the shuffled order, so every direction is tried |
| Maze.FirstValid | level/grid_generator_helper.py:662-681 | the first direction in the order whose endpoint holds the valid type is returned, and `None` only when no listed direction's endpoint does |
| Maze.RandomValidDirection | level/grid_generator_helper.py:659-681 | a returned direction's endpoint holds the valid type; `None` means all four endpoints lack it; three draws are consumed |
| Maze.InteriorStepIn | level/grid_generator_helper.py:630-652 | from a cell at least one step from every edge, every cell of a carving step is inside the grid |
| Maze.CarveStep | level/grid_generator_helper.py:630-652 | a step writes the new type to exactly the cells of the stretch from the current cell to the endpoint and leaves every other cell alone; it moves one step along one axis to an endpoint that held the base type, records the previous cell as the endpoint's parent, and strictly reduces the base cells |
| Maze.CarveShrinksBase | level/grid_generator_helper.py:631-633 | writing a step's cells only carves, and the base-type cell count strictly drops |
| Maze.BuildPath | level/grid_generator_helper.py:623-657 | the walk writes only the new type and only on corridors of the trace, stops at a cell with no valid direction, adds parents only for former base cells, and never increases the base count |
| Maze.StepBack | level/grid_generator_helper.py:615-618 | stepping back from a dead end moves to the recorded parent, which is strictly shallower in the trace |
| Maze.Backtrack | level/grid_generator_helper.py:613-621 | the backtracking loop keeps the trace a tree rooted at the start, writes only the new type and only on corridors of the trace, and leaves every traced cell without a valid direction |
| Maze.GenerateMaze | level/grid_generator_helper.py:588-621 | the start and every traced cell were base cells and end as the new type, each parent link is one carved corridor of the step length, every traced cell ends with no valid direction, and only the new type is written, only at the start or on a corridor between a traced cell and its parent |
| Regions.FloodRegion | level/grid_generator_helper.py:271-307 | the breadth-first flood from a seed collects distinct unlabelled cells of the type, each 4-adjacent to an earlier one, and reaches every same-type neighbour of what it collects |
| Regions.GetGridRegions | level/grid_generator_helper.py:255-316 | every region holds the tile type, is non-empty, holds only cells of that type, is 4-connected from its seed and closed under same-type neighbours; regions are pairwise disjoint and cover every cell of the type |
| Regions.OnEdgeMeansOpenSide | level/grid_generator_helper.py:75-87 | a cell in the first or last row or column is exactly a cell with a 4-neighbour outside the grid |
| Regions.IsRegionTouchingEdge | level/grid_generator_helper.py:75-87 | true exactly when some position of the region lies in the first or last row or column |
| Regions.SplitByExteriorAndInteriorRegions | level/grid_generator_helper.py:394-404 | the regions are partitioned into those touching the edge and those that do not |
| Regions.SplitSide | level/grid_generator_helper.py:394-404 | an input region lies on the exterior side exactly when it touches the edge, otherwise on the interior side |
| Regions.SplitKeepsApart | level/grid_generator_helper.py:394-404 | splitting regions that share no cell gives two lists whose regions share no cell |
| Regions.ReplaceTiles | level/grid_generator_helper.py:67-69 | region cells hold the replacement and every other cell is unchanged |
| Selection.FirstLargest | level/grid_generator_helper.py:376-384 | the pick has the largest size, and no earlier region is as large (the strict `>` test) |
| Selection.OrderBySize | level/grid_generator_helper.py:370-391 | the result has the input's length and elements, with sizes non-increasing |
| Selection.OrderBySizePermutes | level/grid_generator_helper.py:370-391 | the ordering is a permutation of its input |
| Selection.OrderBySizeIsStable | level/grid_generator_helper.py:378-387 | regions of equal size keep their input order |
| Selection.Applicable | level/grid_generator_helper.py:362-368 | when filtering, a region is kept exactly when it does not touch the edge; otherwise the list is taken whole |
| Selection.OrderRegionsBySizeDescending | level/grid_generator_helper.py:361-391 | the result is a permutation of the applicable regions with non-increasing sizes; without filtering the caller's list is left empty |
| Selection.OrderIsStable | level/grid_generator_helper.py:361-391 | equal-size regions keep their input order in the result |
| Selection.ComboElements | level/grid_generator_helper.py:339 | every combination draws its elements from the size list |
| Selection.PrefixIsCombo | level/grid_generator_helper.py:339 | the first `k` sizes form a combination of size `k`, so none of the searched depths is empty |
| Selection.LastExact | level/grid_generator_helper.py:339-342 | within one depth, the exact match kept is the last combination whose sum is the goal |
| Selection.ExactSearch | level/grid_generator_helper.py:337-344 | an exact match found has the smallest depth any exact match has; nothing is found only when no combination of depth 2 to the bound sums to the goal |
| Selection.ExactSearchFindsAny | level/grid_generator_helper.py:337-344 | the search succeeds exactly when some combination of a searched depth sums to the goal |
| Selection.ClosestIsMinimal | level/grid_generator_helper.py:344-346 | the fallback is the minimum of the (distance, combination) pairs under Python's tuple order |
| Selection.ClosestIsNearest | level/grid_generator_helper.py:344-346 | no combination's sum is nearer the goal than the fallback's |
| Selection.ChooseFailsOnlyBelowTwo | level/grid_generator_helper.py:334-346 | a combination is chosen exactly when there are at least two sizes |
| Selection.ChooseIsCombination | level/grid_generator_helper.py:334-346 | the chosen sizes form a combination of 2 to 5 of the listed sizes |
| Selection.ChooseHitsGoal | level/grid_generator_helper.py:337-346 | when an exact match exists, the chosen sizes sum to the goal at the smallest such depth |
| Selection.ChooseIsNearest | level/grid_generator_helper.py:344-346 | when no exact match exists, no searched combination is nearer the goal than the chosen one |
| Selection.FirstOfSize | level/grid_generator_helper.py:349-356 | the first region with the given size is found, and none is found only when no region has it |
| Selection.RegionsForSizesPicksFirst | level/grid_generator_helper.py:348-356 | each chosen size maps to the first ordered region of that size |
| Selection.RepeatedSizeRepeatsRegion | level/grid_generator_helper.py:348-356 | sizes are matched one for one, and a repeated size yields the same region twice |
| Selection.GetRegionsGridPercentage | level/grid_generator_helper.py:319-358 | fails with `InvalidParameter` exactly for a percentage outside `[0, 100]`; otherwise fails exactly when fewer than two regions are ordered, and returns 2 to 5 regions, all from the ordered list; the caller's list comes back emptied without edge filtering, even on failure, and unchanged with it |
| Selection.PickMeetsGoal | level/grid_generator_helper.py:319-358 | the picked regions' sizes form a combination of the ordered sizes; they hit the goal at the smallest depth when that is possible, and are otherwise nearest to it |
| Decorations.Decoration.IsAdjacentToPosition | level/grid_generator_helper.py:26-43 | the eight explicit tests hold exactly at Chebyshev distance 1 |
| Decorations.Blocked | level/grid_generator_helper.py:187-191 | a candidate is rejected exactly when some placed decoration is 8-adjacent to it |
| Decorations.Sweep | level/grid_generator_helper.py:181-201 | a sweep drops exactly the candidates whose own draw, one per candidate in order, hits the placement chance; it places decorations only on dropped candidates and uses one draw per candidate |
| Decorations.SweepTagged | level/grid_generator_helper.py:193-199 | every decoration placed carries the requested kind and out-of-bounds flag |
| Decorations.SweepSpaced | level/grid_generator_helper.py:186-200 | with `leave_space`, no two decorations are 8-adjacent after the sweep |
| Decorations.SweepPlacesEveryHit | level/grid_generator_helper.py:185-201 | without `leave_space`, the dropped candidates are exactly the positions decorated |
| Decorations.RemoveFirst | level/grid_generator_helper.py:203-204 | `list.remove` takes one occurrence out when present and leaves the list alone otherwise |
| Decorations.RemoveAll | level/grid_generator_helper.py:203-204 | removing the dropped candidates leaves exactly the multiset difference |
| Decorations.SweepSettlesHits | level/grid_generator_helper.py:183-201 | every candidate a sweep drops is decorated, or lies next to a decoration (the `leave_space` rejection) |
| Decorations.SweepKeepsInvariant | level/grid_generator_helper.py:181-204 | a sweep and its removals keep every region position accounted for as either still a candidate or decorated, and keep tags and spacing |
| Decorations.SweepKeepsCoverage | level/grid_generator_helper.py:181-204 | a sweep and its removals keep every region cell that is no longer a candidate decorated or next to a decoration; without `leave_space` the candidates and the decorated cells make up the region's cells exactly |
| Decorations.Sweeps | level/grid_generator_helper.py:180-207 | the repeated sweeps end only with no candidates left or more decorations than the goal, with positions, tags and spacing kept; every cell that left the candidates is decorated or next to a decoration, and without `leave_space` candidates plus decorated cells are exactly the region's cells |
| Decorations.DecorateRegion | level/grid_generator_helper.py:171-209 | fails with `InvalidParameter` exactly for a sparsity outside `[0, 100]`; on success the decorations carry the requested tag and flag, are spaced with `leave_space`, the loop's stop test holds, and every cell that left the candidates is decorated or next to a decoration; without `leave_space` candidates plus decorated cells are exactly the region's cells, so more than `sparsity` percent of the region, or all of it, is decorated |
| Decorations.OnAppend | level/grid_generator_helper.py:149-155 | the decorations standing on a set of cells, taken from two lists the pipeline extends one after the other, are those of the first list followed by those of the second |
| Decorations.AccountedDecorations | level/grid_generator_helper.py:176-204 | over distinct region positions, the decorations lie on distinct region positions that are no longer candidates |
| Tilesets.FindSection | level/tileset_loader.py:151-153 | the first table entry whose pattern equals the surroundings is found, and none is found only when no entry matches |
| Tilesets.ClearCorners | level/tileset_loader.py:155-158 | indices 0, 2, 6 and 8 become false and every other entry is kept |
| Tilesets.GetImagePositionalsForSurroundings | level/tileset_loader.py:150-164 | an exact match returns the first matching entry's rectangle and leaves the list alone; otherwise the corners are cleared in the caller's list, and the first entry matching the cleared pattern gives the rectangle, or the default `(160, 320, 40, 40)` when none does |
| Tilesets.SpriteTableCentred | level/tileset_loader.py:63-120 | every table pattern has nine entries with the centre set |
| Tilesets.SpriteTableCells | level/tileset_loader.py:63-120 | every table rectangle is a 40 by 40 cell at offsets that are multiples of 40, and none is the default |
| Tilesets.CornerFreeIndex | level/tileset_loader.py:63-120 | each of the sixteen corner-free centred patterns is in the table |
| Tilesets.FallbackFindsCentred | level/tileset_loader.py:155-162 | with the centre set, the corner-cleared search always succeeds |
| Tilesets.UncentredMatchesNothing | level/tileset_loader.py:150-164 | without a centred nine-entry pattern, both searches fail |
| Tilesets.DefaultExactlyWhenCentreClear | level/tileset_loader.py:150-164 | the default rectangle comes back exactly when the pattern is not a centred nine-entry one |
| Tilesets.LastExtraPatternFound | level/tileset_loader.py:119 | the last table pattern is looked up exactly and returns its own rectangle `(0, 120, 40, 40)` |
| Tilesets.FallbackUsesClearedEntry | level/tileset_loader.py:150-162 | the upward arm with the top-left corner set has no entry of its own, so the lookup clears the corners and returns the plain upward arm's cell `(80, 0, 40, 40)` |
| Tilesets.PositionalsAreSheetCells | level/tileset_loader.py:150-164 | every rectangle returned is a 40 by 40 sheet cell |
| Tilesets.TileType.IsTileTypeAllowedForConnection | level/tileset_loader.py:138-139 | true exactly when the type is among the allowed connections |
| Tilesets.Rejects | level/tileset_loader.py:192-204 | the constructor raises exactly when some probe equals an earlier recorded item |
| Tilesets.RegisterContents | level/tileset_loader.py:197-204 | the registry holds exactly the registered keys, each mapped to its last definition |
| Tilesets.NewTileSet | level/tileset_loader.py:185-205 | the constructor as written: any failure is `AlreadyDefined` |
| Tilesets.NewTileSetNeverRejects | level/tileset_loader.py:192-204 | the constructor as written never raises |
| Tilesets.ObjectsNeverMatchTags | level/tileset_loader.py:193-200 | type tags compared against stored records never match |
| Tilesets.DuplicateTileAccepted | level/tileset_loader.py:192-197 | two tiles with the same type are accepted, and the later one is kept |
| Tilesets.NewTileSetChecked | level/tileset_loader.py:185-205 | the corrected constructor, recording type tags: any failure is `AlreadyDefined` |
| Tilesets.NewTileSetCheckedRejectsDuplicates | level/tileset_loader.py:192-204 | the corrected constructor fails exactly when two tiles, or two decorators, share a type |
| Tilesets.RejectsItself | level/tileset_loader.py:192-204 | checking a list against itself fails exactly on a repeat or a clash with the earlier identified items |
| Tilesets.GetTileForType | level/tileset_loader.py:207-208 | the lookup succeeds exactly for a registered tile type and otherwise fails with `MissingTag` |
| Tilesets.GetDecoratorForType | level/tileset_loader.py:210-211 | the same for decorators |
| Tilesets.TileLookupFindsLastDefinition | level/tileset_loader.py:192-208 | looking up a tile's type returns the last tile defined with that type |
| Tilesets.TileLookupMissesUndefined | level/tileset_loader.py:192-208 | the tile lookup fails exactly for types no tile defines |
| Tilesets.DecoratorLookupFindsLastDefinition | level/tileset_loader.py:199-211 | looking up a decorator's type returns the last decorator defined with that type |
| Tilesets.DecoratorLookupMissesUndefined | level/tileset_loader.py:199-211 | the decorator lookup fails exactly for types no decorator defines |
| Pipeline.NewGrids | level/grid_generator_helper.py:91-110 | the generator starts with an all-blank tile grid and an all-clear collision grid of the given size |
| Pipeline.CarveAndScale | level/grid_generator_helper.py:118-129 | the half-size grid, once lined, carved, bridged, trimmed and scaled, is back at twice the half size with a clear collision grid |
| Pipeline.FillRegions | level/grid_generator_helper.py:134-135 | exactly the cells of the picked regions become neon, and each of them was blank |
| Pipeline.PickRegionsToFill | level/grid_generator_helper.py:131-132 | 2 to 5 blank regions are picked, and the only failure is `NoCombination` |
| Pipeline.FillInterior | level/grid_generator_helper.py:131-135 | neon only replaces blank cells, and the only failure is `NoCombination` |
| Pipeline.RimAndSnow | level/grid_generator_helper.py:137-143 | no cell is left blank, and cells that were not blank are unchanged |
| Pipeline.DecorateRegions | level/grid_generator_helper.py:147-155 | every tree lies on a position of one of the regions and carries the out-of-bounds flag; when the regions share no cell, the trees on each region are more than the sparsity percentage of its cells, or cover all of them |
| Pipeline.DecoratedStep | level/grid_generator_helper.py:147-150 | appending one region's trees keeps the earlier regions' trees as they were and gives the new region exactly its own trees |
| Pipeline.DecorateSnow | level/grid_generator_helper.py:145-155 | the snow regions partition the snow cells into components that share no cell; every tree stands on a snow cell; each region touching the edge holds trees on more than 25% of its cells, each other region on more than 5%, or on all of its cells |
| Pipeline.SnowRegionDecorated | level/grid_generator_helper.py:146-155 | a snow region's trees come from the exterior pass alone when it touches the edge and from the interior pass alone otherwise, so it meets that pass's quota |
| Pipeline.GenerateGrid | level/grid_generator_helper.py:122-161 | fails with `InvalidDimensions` exactly when a dimension is not a multiple of four, and with `InvalidParameter` exactly when both are but one is not positive (the start selection's `randrange(1, n)` at `:603-604` has nothing to draw); on success the grids have the requested size, no cell is blank, a cell blocks exactly when it is a wall or a stone floor, every decoration is an out-of-bounds tree on snow, and each snow region holds its 25% or 5% quota of trees |

## Left out

- Rendering, images, animation timers, zoom and the sprite sheet itself: these are I/O. The sprite lookup returns rectangles only.
- `load_tileset` (`level/tileset_loader.py:225`) reads JSON and loads images. `TileType` and `DecoratorType` are plain records here.
- `GridRegion.add_to_collision_grid` (`level/grid_generator_helper.py:71`) cannot be called, because it lacks `self`.
- `Decoration.get_collision_objects`, the collision registry and the event registry: these are float geometry and global callback tables. `level/grid.py` beyond its dimension check is not part of this model.
- The `uuid4` decoration ids are not modelled; no property depends on them.
- The `GridGenerator.tileset` global is not modelled. In the pipeline a tile is its tag, so tileset lookups inside the passes (a `KeyError` when the tile set lacks a type) are not threaded through. `Tilesets.GetTileForType` models the lookup on its own.
- `randrange` and `shuffle` are not modelled themselves. Their draws come from the `Rng` stream, and no distribution is stated.
- Maze.GenerateMaze: requires the base type to differ from the new type. With equal types a carved cell still holds the base type, so the walk can always step back the way it came, and the source never ends.
- The start-selection retry loop of `generate_maze` (`:601-609`) loops forever on a grid with no base cell. Here it is a given start cell, which must satisfy `Pipeline.StartCell` when both dimensions are positive multiples of four.
- Maze.ShuffleTriesAll: proves every direction appears in the shuffled order, not that the order is a permutation.
- Decorations.DecorateRegion: the sweep loop is bounded by a `fuel` count.
  - The source's loop may run for an unbounded number of sweeps. Running out of fuel yields `SweepsExhausted`.
  - Its sparsity is an integer percentage, where the source allows floats.
- Decorations.Sweeps: bounded by the same `fuel` count, for the same reason.
- Pipeline.GenerateGrid: states the level's shape, the absence of blank cells, the collision rule and the decorations. It does not restate the cell contents that each pass's own contract gives. It also inherits `fuel` and `SweepsExhausted` from the decorator.
- The candidate list of `decorate_region_with_decoration_at_sparsity_percentage` is the region's own `tile_positions` list (`:177`), so the source's removals also shrink the region. Nothing reads a region after it is decorated, so the model keeps regions intact.
- Pipeline.CarveAndScale: states the shapes and the clear collision grid only. The carved content is stated by `Maze.GenerateMaze`, `Bridging.BridgeGaps`, `Shaping.TrimEdges` and `Shaping.UpscaleCopiesBlocks`.
- Pipeline.FillInterior: states that neon only replaces blank cells. Which regions get filled is stated by `Selection.PickMeetsGoal`.
- Shaping.TrimEdges: states the combined effect of all passes. `Shaping.TrimPass` gives the exact per-pass rule.
- `min(closest)` on an empty list (fewer than two ordered regions) raises `ValueError` in the source. Here it is `NoCombination`.

## Findings

| source | as written | input that shows it | evidently intended | confidence | as-written member | corrected member |
|---|---|---|---|---|---|---|
| level/tileset_loader.py:193-196 | the duplicate test looks for the new type tag in a list of stored tile records, so it never matches and the later tile silently replaces the earlier one | two tiles with the same `tile_type` | raise `ValueError` "already defined in tileset" on a repeated type | not executed | Tilesets.DuplicateTileAccepted | Tilesets.NewTileSetCheckedRejectsDuplicates |

=== FILE: bridges.dfy ===
/** `bridge_gaps` of level/grid_generator_helper.py: find short runs of
    `gap` cells spanning between `edge` cells and, by chance, fill whole
    runs with `bridge`.

    The source writes the horizontal and the vertical scan out separately;
    they differ only in which coordinate moves, so both are one `Scan` over
    an `Axis`. Candidates are collected against the unchanged grid first and
    filled afterwards. */
module Bridging {
  import opened Outcomes
  import opened Grids
  import opened Draws
  import opened TileTypeEnums
  import opened Shaping

  datatype Axis = Horizontal | Vertical

  /** The cell `i` steps from `p` along the axis (right, or down). */
  function Along(p: Pos, axis: Axis, i: int): Pos {
    match axis
    case Horizontal => Pos(p.x + i, p.y)
    case Vertical => Pos(p.x, p.y + i)
  }

  /** The cell `j` steps from `q` across the axis. */
  function Across(q: Pos, axis: Axis, j: int): Pos {
    match axis
    case Horizontal => Pos(q.x, q.y + j)
    case Vertical => Pos(q.x + j, q.y)
  }

  /** The guard in front of each scan: the run of `maxLength + 1` cells each
      way along the axis, and one cell each way across it, fit in the grid.
      The bound across the axis is `> 1` on the low side, as written. */
  predicate Guard<T>(g: Grid<T>, p: Pos, axis: Axis, maxLength: int) {
    match axis
    case Horizontal => p.x - maxLength > 0 && p.x + maxLength < g.width - 1 && p.y > 1 && p.y < g.height - 1
    case Vertical => p.y - maxLength > 0 && p.y + maxLength < g.height - 1 && p.x > 1 && p.x < g.width - 1
  }

  /** The state of one scan: the cells gathered so far, whether the edge has
      been met on the plus and on the minus side, and whether the run has
      been found invalid. */
  datatype Scan = Scan(bridge: seq<Pos>, plusFound: bool, minusFound: bool, invalid: bool)

  lemma GuardKeepsScanIn<T>(g: Grid<T>, p: Pos, axis: Axis, maxLength: int, i: int, j: int)
    requires Guard(g, p, axis, maxLength) && 1 <= i <= maxLength + 1 && -1 <= j <= 1
    ensures g.In(Across(Along(p, axis, i), axis, j)) && g.In(Across(Along(p, axis, -i), axis, j))
  {
  }

  /** Step `i` of the scan, in the source's statement order: gather the gap
      cells on each side whose edge is not yet met, then note the edges,
      then flag a cell that is neither gap nor edge, or a neighbour across
      the axis that is not gap, on a side whose edge is not yet met. */
  function ScanStep(g: TileGrid, p: Pos, axis: Axis, gap: TileTypeEnum, edge: TileTypeEnum,
                    maxLength: int, i: int, s: Scan): (r: Scan)
    requires g.Valid() && Guard(g, p, axis, maxLength) && 1 <= i <= maxLength + 1
    ensures s.bridge <= r.bridge
    ensures forall q | q in r.bridge && q !in s.bridge ::
      (q == Along(p, axis, i) || q == Along(p, axis, -i)) && g.In(q) && g.At(q) == gap
    ensures r.plusFound <==> s.plusFound || g.At(Along(p, axis, i)) == edge
    ensures r.minusFound <==> s.minusFound || g.At(Along(p, axis, -i)) == edge
  {
    GuardKeepsScanIn(g, p, axis, maxLength, i, 0);
    GuardKeepsScanIn(g, p, axis, maxLength, i, 1);
    GuardKeepsScanIn(g, p, axis, maxLength, i, -1);
    var plus, minus := Along(p, axis, i), Along(p, axis, -i);
    var bridge1 := if g.At(plus) == gap && !s.plusFound then s.bridge + [plus] else s.bridge;
    var bridge2 := if g.At(minus) == gap && !s.minusFound then bridge1 + [minus] else bridge1;
    var plusFound := s.plusFound || g.At(plus) == edge;
    var minusFound := s.minusFound || g.At(minus) == edge;
    var plusBad := (g.At(plus) != gap && g.At(plus) != edge)
                   || g.At(Across(plus, axis, 1)) != gap || g.At(Across(plus, axis, -1)) != gap;
    var minusBad := (g.At(minus) != gap && g.At(minus) != edge)
                    || g.At(Across(minus, axis, 1)) != gap || g.At(Across(minus, axis, -1)) != gap;
    Scan(bridge2, plusFound, minusFound,
         s.invalid || (plusBad && !plusFound) || (minusBad && !minusFound))
  }

  /** `range(1, maxLength + 2)` has this many steps. */
  function Steps(maxLength: int): nat {
    if maxLength >= 0 then maxLength + 1 else 0
  }

  /** The scan after steps 1 .. n. */
  function ScanUpTo(g: TileGrid, p: Pos, axis: Axis, gap: TileTypeEnum, edge: TileTypeEnum,
                    maxLength: int, n: nat): (r: Scan)
    requires g.Valid() && Guard(g, p, axis, maxLength) && n <= Steps(maxLength)
  {
    if n == 0 then Scan([p], false, false, false)
    else ScanStep(g, p, axis, gap, edge, maxLength, n, ScanUpTo(g, p, axis, gap, edge, maxLength, n - 1))
  }

  /** `p` together with cells at most `n` steps from it along the axis. */
  ghost predicate OnLine(p: Pos, axis: Axis, n: int, q: Pos) {
    exists i | -n <= i <= n :: q == Along(p, axis, i)
  }

  /** `bridge` starts at `p` and holds only `gap` cells on the axis line
      through `p`, at most `n` steps from it. */
  ghost predicate Gathered(g: TileGrid, p: Pos, axis: Axis, gap: TileTypeEnum, n: int, bridge: seq<Pos>)
    requires g.Valid()
  {
    && |bridge| >= 1 && bridge[0] == p
    && forall q | q in bridge :: g.In(q) && g.At(q) == gap && OnLine(p, axis, n, q)
  }

  /** Every cell a scan gathers is a `gap` cell on the axis line through
      `p` (when `p` itself is one), no further than the steps taken. */
  lemma {:induction false} ScanGathersGap(g: TileGrid, p: Pos, axis: Axis, gap: TileTypeEnum, edge: TileTypeEnum,
                                          maxLength: int, n: nat)
    requires g.Valid() && Guard(g, p, axis, maxLength) && n <= Steps(maxLength)
    requires g.In(p) && g.At(p) == gap
    ensures Gathered(g, p, axis, gap, n, ScanUpTo(g, p, axis, gap, edge, maxLength, n).bridge)
  {
    if n == 0 {
      assert p == Along(p, axis, 0);
    } else {
      ScanGathersGap(g, p, axis, gap, edge, maxLength, n - 1);
      ScanStepGathers(g, p, axis, gap, edge, maxLength, n);
    }
  }

  lemma ScanStepGathers(g: TileGrid, p: Pos, axis: Axis, gap: TileTypeEnum, edge: TileTypeEnum,
                        maxLength: int, n: nat)
    requires g.Valid() && Guard(g, p, axis, maxLength) && 1 <= n <= Steps(maxLength)
    requires Gathered(g, p, axis, gap, n - 1, ScanUpTo(g, p, axis, gap, edge, maxLength, n - 1).bridge)
    ensures Gathered(g, p, axis, gap, n, ScanUpTo(g, p, axis, gap, edge, maxLength, n).bridge)
  {
    var s := ScanUpTo(g, p, axis, gap, edge, maxLength, n - 1);
    var r := ScanStep(g, p, axis, gap, edge, maxLength, n, s);
    GatherStep(g, p, axis, gap, n, s.bridge, r.bridge);
  }

  /** One scan step keeps what `ScanGathersGap` states, one step further. */
  lemma GatherStep(g: TileGrid, p: Pos, axis: Axis, gap: TileTypeEnum, n: int, before: seq<Pos>, after: seq<Pos>)
    requires g.Valid() && n >= 1
    requires Gathered(g, p, axis, gap, n - 1, before)
    requires before <= after
    requires forall q | q in after && q !in before ::
      (q == Along(p, axis, n) || q == Along(p, axis, -n)) && g.In(q) && g.At(q) == gap
    ensures Gathered(g, p, axis, gap, n, after)
  {
    forall q | q in after ensures g.In(q) && g.At(q) == gap && OnLine(p, axis, n, q) {
      if q in before {
        var i :| -(n - 1) <= i <= n - 1 && q == Along(p, axis, i);
        assert -n <= i <= n;
      } else if q == Along(p, axis, n) {
        assert -n <= n <= n;
      } else {
        assert -n <= -n <= n;
      }
    }
  }

  /** The candidate run through `p` along `axis`, and whether it counts.
      Failing the guard makes the run invalid. The test for a horizontal
      run names both edge flags and the test for a vertical run leaves them
      out; the length bound makes both edges necessary either way
      (`CandidateMeetsBothEdges`). */
  function Candidate(g: TileGrid, p: Pos, axis: Axis, gap: TileTypeEnum, edge: TileTypeEnum, maxLength: int)
    : (r: (bool, seq<Pos>))
    requires g.Valid()
  {
    if !Guard(g, p, axis, maxLength) then (false, [p])
    else
      var s := ScanUpTo(g, p, axis, gap, edge, maxLength, Steps(maxLength));
      var valid := |s.bridge| <= maxLength && !s.invalid &&
                   (axis == Horizontal ==> s.plusFound && s.minusFound);
      (valid, s.bridge)
  }

  /** What a counted candidate guarantees: the guard held, the run is no
      longer than `maxLength`, every one of its cells is a `gap` cell on the
      axis line through `p` starting with `p`, and a horizontal run met an
      edge on both sides. */
  lemma CandidateIsRun(g: TileGrid, p: Pos, axis: Axis, gap: TileTypeEnum, edge: TileTypeEnum, maxLength: int)
    requires g.Valid() && g.In(p) && g.At(p) == gap
    requires Candidate(g, p, axis, gap, edge, maxLength).0
    ensures Guard(g, p, axis, maxLength)
    ensures var run := Candidate(g, p, axis, gap, edge, maxLength).1;
      && 1 <= |run| <= maxLength && run[0] == p
      && forall q | q in run :: g.In(q) && g.At(q) == gap && OnLine(p, axis, Steps(maxLength), q)
    ensures axis == Horizontal ==>
      var s := ScanUpTo(g, p, axis, gap, edge, maxLength, Steps(maxLength));
      s.plusFound && s.minusFound
  {
    ScanGathersGap(g, p, axis, gap, edge, maxLength, Steps(maxLength));
  }

  /** A scan that has missed an edge without being flagged invalid holds
      at least `n + 1` cells. */
  predicate UnmetGrows(s: Scan, n: nat) {
    !s.invalid && (!s.plusFound || !s.minusFound) ==> |s.bridge| >= n + 1
  }

  /** What one scan step does to the flags and the run: an invalid scan
      stays invalid, and a side whose edge is still unmet in a scan not
      flagged invalid was unmet before and gathered a cell. */
  predicate StepKeepsCount(s: Scan, r: Scan) {
    && (s.invalid ==> r.invalid)
    && (!r.invalid && !r.plusFound ==> !s.plusFound && |r.bridge| >= |s.bridge| + 1)
    && (!r.invalid && !r.minusFound ==> !s.minusFound && |r.bridge| >= |s.bridge| + 1)
  }

  /** Along a chain of scans each one step after the last, starting from a
      non-empty run, a scan with an unmet edge and no invalid flag has grown
      by a cell per step. */
  lemma {:induction false} UnmetCountsSteps(scans: seq<Scan>, n: nat)
    requires n < |scans| && |scans[0].bridge| >= 1
    requires forall k | 0 <= k < |scans| - 1 :: StepKeepsCount(scans[k], scans[k + 1])
    ensures UnmetGrows(scans[n], n)
    decreases n
  {
    if n > 0 {
      UnmetCountsSteps(scans, n - 1);
      assert StepKeepsCount(scans[n - 1], scans[n]);
    }
  }

  /** A full scan that misses an edge without being flagged invalid holds
      more cells than steps taken. */
  lemma UnmetEdgeLengthens(g: TileGrid, p: Pos, axis: Axis, gap: TileTypeEnum, edge: TileTypeEnum,
                           maxLength: int)
    requires g.Valid() && Guard(g, p, axis, maxLength)
    ensures UnmetGrows(ScanUpTo(g, p, axis, gap, edge, maxLength, Steps(maxLength)), Steps(maxLength))
  {
    var scans := ScanChain(g, p, axis, gap, edge, maxLength, Steps(maxLength));
    UnmetCountsSteps(scans, Steps(maxLength));
  }

  /** The scans after 0 .. n steps, each one step after the last. */
  lemma {:induction false} ScanChain(g: TileGrid, p: Pos, axis: Axis, gap: TileTypeEnum, edge: TileTypeEnum,
                                     maxLength: int, n: nat) returns (scans: seq<Scan>)
    requires g.Valid() && Guard(g, p, axis, maxLength) && n <= Steps(maxLength)
    ensures |scans| == n + 1 && scans[0] == Scan([p], false, false, false)
    ensures scans[n] == ScanUpTo(g, p, axis, gap, edge, maxLength, n)
    ensures forall k | 0 <= k < |scans| - 1 :: StepKeepsCount(scans[k], scans[k + 1])
  {
    if n == 0 {
      scans := [ScanUpTo(g, p, axis, gap, edge, maxLength, 0)];
    } else {
      var before := ScanChain(g, p, axis, gap, edge, maxLength, n - 1);
      ScanUpToUnmet(g, p, axis, gap, edge, maxLength, n);
      scans := before + [ScanUpTo(g, p, axis, gap, edge, maxLength, n)];
      assert scans[n - 1] == before[n - 1];
      forall k | 0 <= k < |scans| - 1 ensures StepKeepsCount(scans[k], scans[k + 1]) {
        if k < n - 1 {
          assert scans[k] == before[k] && scans[k + 1] == before[k + 1];
        }
      }
    }
  }

  /** Step `n` of the full scan keeps the count. */
  lemma ScanUpToUnmet(g: TileGrid, p: Pos, axis: Axis, gap: TileTypeEnum, edge: TileTypeEnum,
                      maxLength: int, n: nat)
    requires g.Valid() && Guard(g, p, axis, maxLength) && 1 <= n <= Steps(maxLength)
    ensures StepKeepsCount(ScanUpTo(g, p, axis, gap, edge, maxLength, n - 1),
                           ScanUpTo(g, p, axis, gap, edge, maxLength, n))
  {
    ScanStepUnmet(g, p, axis, gap, edge, maxLength, n, ScanUpTo(g, p, axis, gap, edge, maxLength, n - 1));
  }

  /** Step `i` of the scan keeps the count. */
  lemma ScanStepUnmet(g: TileGrid, p: Pos, axis: Axis, gap: TileTypeEnum, edge: TileTypeEnum,
                      maxLength: int, i: int, s: Scan)
    requires g.Valid() && Guard(g, p, axis, maxLength) && 1 <= i <= maxLength + 1
    ensures StepKeepsCount(s, ScanStep(g, p, axis, gap, edge, maxLength, i, s))
  {
    GuardKeepsScanIn(g, p, axis, maxLength, i, 0);
  }

  /** A counted candidate met an edge on both sides, whatever its axis:
      the vertical validity test leaves the edge flags out, but a scan that
      misses an edge without being flagged invalid gathers a cell per step,
      one more than the length bound allows. */
  lemma CandidateMeetsBothEdges(g: TileGrid, p: Pos, axis: Axis, gap: TileTypeEnum, edge: TileTypeEnum,
                                maxLength: int)
    requires g.Valid() && Candidate(g, p, axis, gap, edge, maxLength).0
    ensures Guard(g, p, axis, maxLength)
    ensures var s := ScanUpTo(g, p, axis, gap, edge, maxLength, Steps(maxLength));
      s.plusFound && s.minusFound
  {
    UnmetEdgeLengthens(g, p, axis, gap, edge, maxLength);
  }

  /** A run `bridge_gaps` may fill: the counted candidate through some gap
      cell along some axis. */
  ghost predicate IsBridge(g: TileGrid, gap: TileTypeEnum, edge: TileTypeEnum, maxLength: int, run: seq<Pos>)
    requires g.Valid()
  {
    exists p, axis | g.In(p) && g.At(p) == gap ::
      Candidate(g, p, axis, gap, edge, maxLength).0 && Candidate(g, p, axis, gap, edge, maxLength).1 == run
  }

  /** Every cell of a run `bridge_gaps` may fill held `gap`. */
  lemma BridgeIsGap(g: TileGrid, gap: TileTypeEnum, edge: TileTypeEnum, maxLength: int, run: seq<Pos>)
    requires g.Valid() && IsBridge(g, gap, edge, maxLength, run)
    ensures forall q | q in run :: g.In(q) && g.At(q) == gap
  {
    var p, axis :| g.In(p) && g.At(p) == gap && Candidate(g, p, axis, gap, edge, maxLength).0
                   && Candidate(g, p, axis, gap, edge, maxLength).1 == run;
    CandidateIsRun(g, p, axis, gap, edge, maxLength);
  }

  /** The candidate-collection phase for one cell: the runs that count
      through `p`, horizontal first, and a draw choosing one of them. Only a
      cell with a counted run draws. */
  function ChooseRun(g: TileGrid, p: Pos, gap: TileTypeEnum, edge: TileTypeEnum, maxLength: int, rng: Rng)
    : (r: (Option<seq<Pos>>, Rng))
    requires g.Valid() && g.In(p) && g.At(p) == gap
    ensures r.0.Some? ==> IsBridge(g, gap, edge, maxLength, r.0.value)
    ensures r.0.Some? ==>
      || (Candidate(g, p, Horizontal, gap, edge, maxLength).0 && r.0.value == Candidate(g, p, Horizontal, gap, edge, maxLength).1)
      || (Candidate(g, p, Vertical, gap, edge, maxLength).0 && r.0.value == Candidate(g, p, Vertical, gap, edge, maxLength).1)
    ensures r.0.None? <==> !Candidate(g, p, Horizontal, gap, edge, maxLength).0 &&
                           !Candidate(g, p, Vertical, gap, edge, maxLength).0
    ensures r.1 == if r.0.Some? then Rng(rng.source, rng.next + 1) else rng
  {
    var h := Candidate(g, p, Horizontal, gap, edge, maxLength);
    var v := Candidate(g, p, Vertical, gap, edge, maxLength);
    ChooseAmong(h, v, rng)
  }

  /** The draw of the candidate-collection phase: the options list holds
      the counted runs, horizontal first; a draw indexes it modulo its
      length, and an empty list draws nothing. */
  function ChooseAmong(h: (bool, seq<Pos>), v: (bool, seq<Pos>), rng: Rng): (r: (Option<seq<Pos>>, Rng))
    ensures r.0.Some? ==> (h.0 && r.0.value == h.1) || (v.0 && r.0.value == v.1)
    ensures r.0.None? <==> !h.0 && !v.0
    ensures r.0.Some? ==> r.0.value == Pick(h, v, rng.source(rng.next))
    ensures r.1 == if r.0.Some? then Rng(rng.source, rng.next + 1) else rng
  {
    var options := (if h.0 then [h.1] else []) + (if v.0 then [v.1] else []);
    if |options| == 0 then (None, rng)
    else
      var (choice, rng') := RandBelow(rng, |options|);
      assert h.0 && v.0 ==> options == [h.1, v.1];
      assert options[choice] == Pick(h, v, rng.source(rng.next));
      (Some(options[choice]), rng')
  }

  /** The cells of column `x` from the top down to row `height - 1`. */
  function Column(x: int, height: nat): (r: seq<Pos>)
    ensures |r| == height
    ensures forall j | 0 <= j < height :: r[j] == Pos(x, j)
  {
    if height == 0 then [] else Column(x, height - 1) + [Pos(x, height - 1)]
  }

  /** The cells in the order `bridge_gaps` visits them: the columns left to
      right, each from top to bottom. */
  function ScanOrder(width: nat, height: nat): (r: seq<Pos>)
    ensures |r| == width * height
  {
    if width == 0 then [] else ScanOrder(width - 1, height) + Column(width - 1, height)
  }

  /** Every cell of a `width` by `height` grid is visited. */
  lemma {:induction false} InScanOrder(width: nat, height: nat, p: Pos)
    requires 0 <= p.x < width && 0 <= p.y < height
    ensures p in ScanOrder(width, height)
  {
    if p.x == width - 1 {
      assert Column(width - 1, height)[p.y] == p;
    } else {
      InScanOrder(width - 1, height, p);
    }
  }

  /** A cell that contributes a run: a gap cell with a counted candidate
      along at least one axis. */
  predicate IsSeed(g: TileGrid, gap: TileTypeEnum, edge: TileTypeEnum, maxLength: int, p: Pos)
    requires g.Valid()
  {
    g.In(p) && g.At(p) == gap &&
    (Candidate(g, p, Horizontal, gap, edge, maxLength).0 || Candidate(g, p, Vertical, gap, edge, maxLength).0)
  }

  /** The seeds among `cells`, in their order. */
  function Seeds(g: TileGrid, gap: TileTypeEnum, edge: TileTypeEnum, maxLength: int, cells: seq<Pos>): (r: seq<Pos>)
    requires g.Valid()
  {
    if cells == [] then []
    else
      var last := cells[|cells| - 1];
      Seeds(g, gap, edge, maxLength, cells[..|cells| - 1]) + (if IsSeed(g, gap, edge, maxLength, last) then [last] else [])
  }

  /** `Seeds` keeps exactly the seed cells. */
  lemma {:induction false} SeedsExactly(g: TileGrid, gap: TileTypeEnum, edge: TileTypeEnum, maxLength: int, cells: seq<Pos>, p: Pos)
    requires g.Valid()
    ensures p in Seeds(g, gap, edge, maxLength, cells) <==> p in cells && IsSeed(g, gap, edge, maxLength, p)
  {
    if cells != [] {
      var init := cells[..|cells| - 1];
      SeedsExactly(g, gap, edge, maxLength, init, p);
      assert cells == init + [cells[|cells| - 1]];
    }
  }

  /** The run a draw picks from the options list `[h if counted] +
      [v if counted]` by indexing it with the draw modulo its length; at
      least one candidate is counted. */
  function Pick(h: (bool, seq<Pos>), v: (bool, seq<Pos>), draw: nat): seq<Pos> {
    if h.0 && v.0 then (if draw % 2 == 0 then h.1 else v.1)
    else if h.0 then h.1
    else v.1
  }

  /** Which run the draw picks: with both runs counted, an even draw takes
      the horizontal one and an odd draw the vertical one; with one
      counted, that one. */
  lemma ChooseRunPicks(g: TileGrid, p: Pos, gap: TileTypeEnum, edge: TileTypeEnum, maxLength: int, rng: Rng)
    requires g.Valid() && g.In(p) && g.At(p) == gap
    ensures var h, v := Candidate(g, p, Horizontal, gap, edge, maxLength), Candidate(g, p, Vertical, gap, edge, maxLength);
      var r := ChooseRun(g, p, gap, edge, maxLength, rng);
      && (h.0 && v.0 ==> r.0 == Some(if rng.source(rng.next) % 2 == 0 then h.1 else v.1))
      && (h.0 && !v.0 ==> r.0 == Some(h.1))
      && (!h.0 && v.0 ==> r.0 == Some(v.1))
      && (h.0 || v.0 ==> r.0 == Some(Pick(h, v, rng.source(rng.next))))
  {
    var h, v := Candidate(g, p, Horizontal, gap, edge, maxLength), Candidate(g, p, Vertical, gap, edge, maxLength);
    assert ChooseRun(g, p, gap, edge, maxLength, rng) == ChooseAmong(h, v, rng);
  }

  /** `found` holds, one for one and in order, the run each seed chooses:
      seed `i` is a gap cell with a counted candidate that starts its run,
      and the run is the one the `i`-th draw from `rng` picks, since only
      seeds draw. */
  predicate RunsOfSeeds(g: TileGrid, gap: TileTypeEnum, edge: TileTypeEnum, maxLength: int,
                        seeds: seq<Pos>, found: seq<seq<Pos>>, rng: Rng)
    requires g.Valid()
  {
    && |found| == |seeds|
    && forall i | 0 <= i < |found| ::
         && |found[i]| >= 1 && found[i][0] == seeds[i]
         && g.In(seeds[i]) && g.At(seeds[i]) == gap
         && (Candidate(g, seeds[i], Horizontal, gap, edge, maxLength).0 || Candidate(g, seeds[i], Vertical, gap, edge, maxLength).0)
         && found[i] == Pick(Candidate(g, seeds[i], Horizontal, gap, edge, maxLength),
                             Candidate(g, seeds[i], Vertical, gap, edge, maxLength), rng.source(rng.next + i))
  }

  /** Visiting one more cell keeps the collected runs matched to the
      seeds: a seed adds the run its draw picks, any other cell nothing. */
  lemma CollectStep(g: TileGrid, gap: TileTypeEnum, edge: TileTypeEnum, maxLength: int,
                    cells: seq<Pos>, p: Pos, rng0: Rng, found: seq<seq<Pos>>, found2: seq<seq<Pos>>)
    requires g.Valid() && g.In(p)
    requires RunsOfSeeds(g, gap, edge, maxLength, Seeds(g, gap, edge, maxLength, cells), found, rng0)
    requires IsSeed(g, gap, edge, maxLength, p) ==>
      found2 == found + [Pick(Candidate(g, p, Horizontal, gap, edge, maxLength), Candidate(g, p, Vertical, gap, edge, maxLength),
                              rng0.source(rng0.next + |found|))]
    requires !IsSeed(g, gap, edge, maxLength, p) ==> found2 == found
    ensures RunsOfSeeds(g, gap, edge, maxLength, Seeds(g, gap, edge, maxLength, cells + [p]), found2, rng0)
  {
    var seeds, seeds2 := Seeds(g, gap, edge, maxLength, cells), Seeds(g, gap, edge, maxLength, cells + [p]);
    assert (cells + [p])[..|cells|] == cells;
    if IsSeed(g, gap, edge, maxLength, p) {
      var run := found2[|found|];
      PickStarts(g, p, gap, edge, maxLength, rng0.source(rng0.next + |found|));
      assert seeds2 == seeds + [p];
      RunsOfSeedsSnoc(g, gap, edge, maxLength, seeds, found, rng0, p, run);
    } else {
      assert seeds2 == seeds;
    }
  }

  /** A new seed whose picked run comes next extends the match. */
  lemma RunsOfSeedsSnoc(g: TileGrid, gap: TileTypeEnum, edge: TileTypeEnum, maxLength: int,
                        seeds: seq<Pos>, found: seq<seq<Pos>>, rng: Rng, p: Pos, run: seq<Pos>)
    requires g.Valid() && RunsOfSeeds(g, gap, edge, maxLength, seeds, found, rng)
    requires g.In(p) && g.At(p) == gap && |run| >= 1 && run[0] == p
    requires Candidate(g, p, Horizontal, gap, edge, maxLength).0 || Candidate(g, p, Vertical, gap, edge, maxLength).0
    requires run == Pick(Candidate(g, p, Horizontal, gap, edge, maxLength), Candidate(g, p, Vertical, gap, edge, maxLength),
                         rng.source(rng.next + |found|))
    ensures RunsOfSeeds(g, gap, edge, maxLength, seeds + [p], found + [run], rng)
  {
    var seeds2, found2 := seeds + [p], found + [run];
    forall i | 0 <= i < |found| ensures found2[i] == found[i] && seeds2[i] == seeds[i] {
    }
  }

  /** The run a draw picks for a seed starts at the seed. */
  lemma PickStarts(g: TileGrid, p: Pos, gap: TileTypeEnum, edge: TileTypeEnum, maxLength: int, draw: nat)
    requires g.Valid() && g.In(p) && g.At(p) == gap
    requires Candidate(g, p, Horizontal, gap, edge, maxLength).0 || Candidate(g, p, Vertical, gap, edge, maxLength).0
    ensures var run := Pick(Candidate(g, p, Horizontal, gap, edge, maxLength), Candidate(g, p, Vertical, gap, edge, maxLength), draw);
      |run| >= 1 && run[0] == p
  {
    var h := Candidate(g, p, Horizontal, gap, edge, maxLength);
    var v := Candidate(g, p, Vertical, gap, edge, maxLength);
    if h.0 {
      CandidateIsRun(g, p, Horizontal, gap, edge, maxLength);
    }
    if v.0 {
      CandidateIsRun(g, p, Vertical, gap, edge, maxLength);
    }
  }

  /** A run matched to a seed is a bridge. */
  lemma SeedRunsAreBridges(g: TileGrid, gap: TileTypeEnum, edge: TileTypeEnum, maxLength: int,
                           seeds: seq<Pos>, found: seq<seq<Pos>>, rng: Rng)
    requires g.Valid() && RunsOfSeeds(g, gap, edge, maxLength, seeds, found, rng)
    ensures forall b | b in found :: IsBridge(g, gap, edge, maxLength, b)
  {
    forall b | b in found ensures IsBridge(g, gap, edge, maxLength, b) {
      var i :| 0 <= i < |found| && found[i] == b;
      var p := seeds[i];
      var h, v := Candidate(g, p, Horizontal, gap, edge, maxLength), Candidate(g, p, Vertical, gap, edge, maxLength);
      if h.0 && b == h.1 {
        assert g.In(p) && g.At(p) == gap && Candidate(g, p, Horizontal, gap, edge, maxLength).0;
      } else {
        assert v.0 && b == v.1;
        assert g.In(p) && g.At(p) == gap && Candidate(g, p, Vertical, gap, edge, maxLength).0;
      }
    }
  }

  /** Each seed cell of the grid starts one of the runs in `found`. */
  lemma SeedsCovered(g: TileGrid, gap: TileTypeEnum, edge: TileTypeEnum, maxLength: int, found: seq<seq<Pos>>, rng: Rng)
    requires g.Valid()
    requires RunsOfSeeds(g, gap, edge, maxLength, Seeds(g, gap, edge, maxLength, ScanOrder(g.width, g.height)), found, rng)
    ensures forall p | IsSeed(g, gap, edge, maxLength, p) :: exists i | 0 <= i < |found| :: found[i][0] == p
  {
    var seeds := Seeds(g, gap, edge, maxLength, ScanOrder(g.width, g.height));
    forall p | IsSeed(g, gap, edge, maxLength, p) ensures exists i | 0 <= i < |found| :: found[i][0] == p {
      InScanOrder(g.width, g.height, p);
      SeedsExactly(g, gap, edge, maxLength, ScanOrder(g.width, g.height), p);
      var i :| 0 <= i < |seeds| && seeds[i] == p;
      assert found[i][0] == p;
    }
  }

  /** The visit of one cell: a gap cell with a counted candidate adds the
      chosen run and takes one draw; any other cell adds nothing. */
  method CollectAt(g: TileGrid, gap: TileTypeEnum, edge: TileTypeEnum, maxLength: int,
                   ghost cells: seq<Pos>, p: Pos, found: seq<seq<Pos>>, ghost rng0: Rng, rng: Rng)
    returns (found2: seq<seq<Pos>>, rng2: Rng)
    requires g.Valid() && g.In(p)
    requires RunsOfSeeds(g, gap, edge, maxLength, Seeds(g, gap, edge, maxLength, cells), found, rng0)
    requires rng == Rng(rng0.source, rng0.next + |found|)
    ensures RunsOfSeeds(g, gap, edge, maxLength, Seeds(g, gap, edge, maxLength, cells + [p]), found2, rng0)
    ensures rng2 == Rng(rng.source, rng.next + |found2| - |found|)
  {
    if g.At(p) == gap {
      var choice := ChooseRun(g, p, gap, edge, maxLength, rng);
      CollectChoice(g, gap, edge, maxLength, cells, p, found, rng0, rng);
      found2 := if choice.0.Some? then found + [choice.0.value] else found;
      rng2 := choice.1;
    } else {
      CollectStep(g, gap, edge, maxLength, cells, p, rng0, found, found);
      found2, rng2 := found, rng;
    }
  }

  /** The step of `CollectAt` on a gap cell: the chosen run, if any, is the
      next seed's run, drawn with the next draw. */
  lemma CollectChoice(g: TileGrid, gap: TileTypeEnum, edge: TileTypeEnum, maxLength: int,
                      cells: seq<Pos>, p: Pos, found: seq<seq<Pos>>, rng0: Rng, rng: Rng)
    requires g.Valid() && g.In(p) && g.At(p) == gap
    requires RunsOfSeeds(g, gap, edge, maxLength, Seeds(g, gap, edge, maxLength, cells), found, rng0)
    requires rng == Rng(rng0.source, rng0.next + |found|)
    ensures var choice := ChooseRun(g, p, gap, edge, maxLength, rng);
      var found2 := if choice.0.Some? then found + [choice.0.value] else found;
      && RunsOfSeeds(g, gap, edge, maxLength, Seeds(g, gap, edge, maxLength, cells + [p]), found2, rng0)
      && choice.1 == Rng(rng.source, rng.next + |found2| - |found|)
  {
    var choice := ChooseRun(g, p, gap, edge, maxLength, rng);
    ChooseRunPicks(g, p, gap, edge, maxLength, rng);
    assert rng.source(rng.next) == rng0.source(rng0.next + |found|);
    assert choice.0.Some? <==> IsSeed(g, gap, edge, maxLength, p);
    var found2 := if choice.0.Some? then found + [choice.0.value] else found;
    CollectStep(g, gap, edge, maxLength, cells, p, rng0, found, found2);
  }

  /** The collection phase of `bridge_gaps`: one chosen run per gap cell
      that has a counted candidate, scanning columns left to right and each
      column top to bottom. The grid is only read. */
  method CollectBridges(g: TileGrid, gap: TileTypeEnum, edge: TileTypeEnum, maxLength: int, rng: Rng)
    returns (found: seq<seq<Pos>>, rng2: Rng)
    requires g.Valid()
    ensures forall b | b in found :: IsBridge(g, gap, edge, maxLength, b)
    ensures RunsOfSeeds(g, gap, edge, maxLength, Seeds(g, gap, edge, maxLength, ScanOrder(g.width, g.height)), found, rng)
    ensures forall p | IsSeed(g, gap, edge, maxLength, p) :: exists i | 0 <= i < |found| :: found[i][0] == p
    ensures rng2 == Rng(rng.source, rng.next + |found|)
  {
    found := [];
    rng2 := rng;
    var x := 0;
    while x < g.width
      invariant 0 <= x <= g.width
      invariant RunsOfSeeds(g, gap, edge, maxLength, Seeds(g, gap, edge, maxLength, ScanOrder(x, g.height)), found, rng)
      invariant rng2 == Rng(rng.source, rng.next + |found|)
    {
      var y := 0;
      assert ScanOrder(x, g.height) + Column(x, 0) == ScanOrder(x, g.height);
      while y < g.height
        invariant 0 <= y <= g.height
        invariant RunsOfSeeds(g, gap, edge, maxLength, Seeds(g, gap, edge, maxLength, ScanOrder(x, g.height) + Column(x, y)), found, rng)
        invariant rng2 == Rng(rng.source, rng.next + |found|)
      {
        ghost var cells := ScanOrder(x, g.height) + Column(x, y);
        found, rng2 := CollectAt(g, gap, edge, maxLength, cells, Pos(x, y), found, rng, rng2);
        assert ScanOrder(x, g.height) + Column(x, y + 1) == cells + [Pos(x, y)];
        y := y + 1;
      }
      x := x + 1;
    }
    SeedsCovered(g, gap, edge, maxLength, found, rng);
    SeedRunsAreBridges(g, gap, edge, maxLength, Seeds(g, gap, edge, maxLength, ScanOrder(g.width, g.height)), found, rng);
  }

  /** The fill phase of `bridge_gaps`: one chance draw per collected run, in
      order, and on a hit every cell of the run becomes `bridge`. `fillMilli`
      is the fill chance in thousandths of a percent. Returns the runs that
      were filled, in order. */
  method FillBridges(g: TileGrid, found: seq<seq<Pos>>, bridge: TileTypeEnum, fillMilli: int, rng: Rng)
    returns (r: TileGrid, filled: seq<seq<Pos>>, rng2: Rng)
    requires g.Valid()
    requires forall b, q | b in found && q in b :: g.In(q)
    ensures r.Valid() && SameShape(r, g)
    ensures filled == Hits(found, rng, fillMilli)
    ensures forall b | b in filled :: b in found
    ensures forall q | r.In(q) :: r.At(q) == if q in Flatten(filled) then bridge else g.At(q)
    ensures rng2 == Rng(rng.source, rng.next + |found|)
  {
    r := g;
    filled := [];
    rng2 := rng;
    var i := 0;
    while i < |found|
      invariant 0 <= i <= |found|
      invariant r.Valid() && SameShape(r, g)
      invariant forall b | b in filled :: b in found
      invariant forall q | r.In(q) :: r.At(q) == if q in Flatten(filled) then bridge else g.At(q)
      invariant filled == Hits(found[..i], rng, fillMilli)
      invariant rng2 == Rng(rng.source, rng.next + i)
    {
      var chance := RandBelow(rng2, ChanceRange);
      assert chance.0 == ChanceDraw(rng, i);
      HitsSnoc(found[..i], found[i], rng, fillMilli);
      assert found[..i + 1] == found[..i] + [found[i]];
      rng2 := chance.1;
      if ChanceHits(chance.0, fillMilli) {
        forall k | 0 <= k < |found[i]| ensures r.In(found[i][k]) {
          assert found[i][k] in found[i];
        }
        r := WriteAll(r, found[i], bridge);
        ghost var before := filled;
        filled := filled + [found[i]];
        assert filled[..|filled| - 1] == before;
      }
      i := i + 1;
    }
    assert found[..i] == found;
  }

  /** `bridge_gaps`: collect, then fill.

      Returns the grid, the runs collected and the runs filled. The
      collected runs start, one each and in scan order, at the gap cells
      that have a counted candidate. Collection draws once per collected run, and filling once per collected run
      after that; the filled runs are the collected ones whose fill draw
      hit. A cell changes only if it held `gap`, and then only to
      `bridge`; it changes exactly when it lies on a filled run; each
      filled run is a counted candidate of the grid as it was before the
      call. */
  method BridgeGaps(g: TileGrid, gap: TileTypeEnum, edge: TileTypeEnum, bridge: TileTypeEnum,
                    maxLength: int, fillMilli: int, rng: Rng)
    returns (r: TileGrid, found: seq<seq<Pos>>, filled: seq<seq<Pos>>, rng2: Rng)
    requires g.Valid()
    ensures r.Valid() && SameShape(r, g)
    ensures forall b | b in found :: IsBridge(g, gap, edge, maxLength, b)
    ensures RunsOfSeeds(g, gap, edge, maxLength, Seeds(g, gap, edge, maxLength, ScanOrder(g.width, g.height)), found, rng)
    ensures forall p | IsSeed(g, gap, edge, maxLength, p) :: exists i | 0 <= i < |found| :: found[i][0] == p
    ensures filled == Hits(found, Rng(rng.source, rng.next + |found|), fillMilli)
    ensures forall b | b in filled :: IsBridge(g, gap, edge, maxLength, b)
    ensures forall q | r.In(q) :: r.At(q) == if q in Flatten(filled) then bridge else g.At(q)
    ensures forall q | r.In(q) :: r.At(q) == g.At(q) || (g.At(q) == gap && r.At(q) == bridge)
    ensures rng2 == Rng(rng.source, rng.next + 2 * |found|)
  {
    var rng1;
    found, rng1 := CollectBridges(g, gap, edge, maxLength, rng);
    forall b, q | b in found && q in b ensures g.In(q) {
      BridgeIsGap(g, gap, edge, maxLength, b);
    }
    r, filled, rng2 := FillBridges(g, found, bridge, fillMilli, rng1);
    forall q | r.In(q) ensures r.At(q) == g.At(q) || (g.At(q) == gap && r.At(q) == bridge) {
      if q in Flatten(filled) {
        var b :| b in filled && q in b;
        BridgeIsGap(g, gap, edge, maxLength, b);
      }
    }
  }
}

=== FILE: decoration.dfy ===
/** Scattering decorations over a region.

    A `Decoration` sits on one grid cell; the region decorator visits the
    region's candidate cells in sweeps, places a decoration on a candidate
    with a half-percent chance (optionally only when no decoration already
    sits on one of the eight surrounding cells), drops every candidate it
    drew a hit for, and stops once the candidates are used up or more than
    the requested percentage of the region is decorated. */
module Decorations {
  import opened Outcomes
  import opened Grids
  import opened Draws
  import opened TileTypeEnums

  /** A placed decoration. The source keeps the tileset's decorator record
      in `type`; here the decorator is identified by its tag. */
  datatype Decoration = Decoration(pos: Pos, kind: DecoratorEnum, outOfBounds: bool) {

    /** The eight explicit neighbour tests of `is_adjacent_to_position`. */
    function IsAdjacentToPosition(x: int, y: int): (r: bool)
      ensures r <==> Adjacent8(pos, Pos(x, y))
    {
      if pos.x - 1 == x && pos.y == y then true
      else if pos.x + 1 == x && pos.y == y then true
      else if pos.x + 1 == x && pos.y + 1 == y then true
      else if pos.x + 1 == x && pos.y - 1 == y then true
      else if pos.x - 1 == x && pos.y + 1 == y then true
      else if pos.x - 1 == x && pos.y - 1 == y then true
      else if pos.x == x && pos.y + 1 == y then true
      else if pos.x == x && pos.y - 1 == y then true
      else false
    }
  }

  /** A candidate is hit when its draw divided by 1000 is at most 0.5. */
  const PlaceChanceMilli: nat := 500

  function PositionsOf(decs: seq<Decoration>): (r: seq<Pos>)
    ensures |r| == |decs| && forall i | 0 <= i < |decs| :: r[i] == decs[i].pos
  {
    seq(|decs|, i requires 0 <= i < |decs| => decs[i].pos)
  }

  /** The `leave_space` scan: some placed decoration is 8-adjacent to `p`. */
  function Blocked(decs: seq<Decoration>, p: Pos): (r: bool)
    ensures r <==> exists i | 0 <= i < |decs| :: Adjacent8(decs[i].pos, p)
  {
    if |decs| == 0 then false
    else if decs[0].IsAdjacentToPosition(p.x, p.y) then true
    else
      var rest := Blocked(decs[1..], p);
      assert rest ==> exists i | 0 <= i < |decs| :: Adjacent8(decs[i].pos, p) by {
        if rest {
          var i :| 0 <= i < |decs| - 1 && Adjacent8(decs[1..][i].pos, p);
          assert Adjacent8(decs[i + 1].pos, p);
        }
      }
      rest
  }

  /** No two decorations stand on 8-adjacent cells. */
  predicate Spaced(decs: seq<Decoration>) {
    forall i, j | 0 <= i < j < |decs| :: !Adjacent8(decs[i].pos, decs[j].pos)
  }

  /** Every decoration carries the requested tag and out-of-bounds flag. */
  predicate Tagged(decs: seq<Decoration>, kind: DecoratorEnum, outOfBounds: bool) {
    forall i | 0 <= i < |decs| :: decs[i].kind == kind && decs[i].outOfBounds == outOfBounds
  }

  /** What one sweep produced: the decorations it `added`, the candidates
      it drew a hit for (`removed`, in visiting order) and the stream. */
  datatype SweepOutcome = SweepOutcome(added: seq<Decoration>, removed: seq<Pos>, rng: Rng)

  /** One pass of the `for tile_position in potential_placements` loop over
      the candidates `ps`, with `decs` already placed: one draw per
      candidate; a hit records the candidate for removal and, unless
      `leaveSpace` finds a neighbour, places a decoration on it. */
  function Sweep(ps: seq<Pos>, decs: seq<Decoration>, kind: DecoratorEnum, outOfBounds: bool,
                 leaveSpace: bool, rng: Rng): (r: SweepOutcome)
    ensures multiset(PositionsOf(r.added)) <= multiset(r.removed) <= multiset(ps)
    ensures r.removed == Hits(ps, rng, PlaceChanceMilli)
    ensures r.rng == Rng(rng.source, rng.next + |ps|)
    decreases |ps|
  {
    if |ps| == 0 then SweepOutcome([], [], rng)
    else
      var hit := ChanceHits(RandBelow(rng, ChanceRange).0, PlaceChanceMilli);
      var rng1 := Rng(rng.source, rng.next + 1);
      var first := Placed(decs, ps[0], kind, outOfBounds, leaveSpace, rng);
      var rest := Sweep(ps[1..], decs + first, kind, outOfBounds, leaveSpace, rng1);
      var added := first + rest.added;
      var removed := (if hit then [ps[0]] else []) + rest.removed;
      SweepStepCounts(ps, hit, first, rest.added, rest.removed, added, removed);
      HitsStep(ps, rng, rest.removed, removed);
      SweepOutcome(added, removed, rest.rng)
  }

  /** Whether a sweep places a decoration on `p`, drawing from `rng`: the
      draw hits and, under `leaveSpace`, no placed decoration is next to
      `p`. */
  predicate Places(decs: seq<Decoration>, p: Pos, leaveSpace: bool, rng: Rng) {
    ChanceHits(RandBelow(rng, ChanceRange).0, PlaceChanceMilli) && (!leaveSpace || !Blocked(decs, p))
  }

  /** The decoration a sweep places on `p`, if any. */
  function Placed(decs: seq<Decoration>, p: Pos, kind: DecoratorEnum, outOfBounds: bool,
                  leaveSpace: bool, rng: Rng): (r: seq<Decoration>)
    ensures r == [] || r == [Decoration(p, kind, outOfBounds)]
    ensures |r| == 1 <==> Places(decs, p, leaveSpace, rng)
  {
    if Places(decs, p, leaveSpace, rng) then [Decoration(p, kind, outOfBounds)] else []
  }

  /** The decorations a sweep adds: its first candidate's, if placed, then
      those of the rest of the sweep. */
  lemma SweepAddsFirst(ps: seq<Pos>, decs: seq<Decoration>, kind: DecoratorEnum, outOfBounds: bool,
                       leaveSpace: bool, rng: Rng)
    requires |ps| > 0
    ensures var first := Placed(decs, ps[0], kind, outOfBounds, leaveSpace, rng);
      Sweep(ps, decs, kind, outOfBounds, leaveSpace, rng).added ==
      first + Sweep(ps[1..], decs + first, kind, outOfBounds, leaveSpace, Rng(rng.source, rng.next + 1)).added
  {
    var first := Placed(decs, ps[0], kind, outOfBounds, leaveSpace, rng);
    var rest := Sweep(ps[1..], decs + first, kind, outOfBounds, leaveSpace, Rng(rng.source, rng.next + 1));
    var r := Sweep(ps, decs, kind, outOfBounds, leaveSpace, rng);
    assert r.added == first + rest.added;
  }

  /** The candidates a sweep drops are its first candidate when that draw
      hits, followed by the later drops. */
  lemma HitsStep(ps: seq<Pos>, rng: Rng, restRemoved: seq<Pos>, removed: seq<Pos>)
    requires |ps| > 0
    requires restRemoved == Hits(ps[1..], Rng(rng.source, rng.next + 1), PlaceChanceMilli)
    requires removed == (if ChanceHits(RandBelow(rng, ChanceRange).0, PlaceChanceMilli) then [ps[0]] else []) + restRemoved
    ensures removed == Hits(ps, rng, PlaceChanceMilli)
  {
    assert ChanceDraw(rng, 0) == RandBelow(rng, ChanceRange).0;
  }

  /** A hit removes the candidate and places at most a decoration on it;
      a miss does neither. */
  lemma SweepStepCounts(ps: seq<Pos>, hit: bool, first: seq<Decoration>,
                        restAdded: seq<Decoration>, restRemoved: seq<Pos>,
                        added: seq<Decoration>, removed: seq<Pos>)
    requires |ps| > 0 && (first == [] || (hit && first == [first[0]] && first[0].pos == ps[0]))
    requires multiset(PositionsOf(restAdded)) <= multiset(restRemoved) <= multiset(ps[1..])
    requires added == first + restAdded
    requires removed == (if hit then [ps[0]] else []) + restRemoved
    ensures multiset(PositionsOf(added)) <= multiset(removed) <= multiset(ps)
  {
    AddedWithinRemoved(hit, first, ps[0], restAdded, restRemoved, added, removed);
    RemovedWithinCandidates(ps, hit, restRemoved, removed);
  }

  /** Decorations go only on dropped candidates, one step further. */
  lemma AddedWithinRemoved(hit: bool, first: seq<Decoration>, p: Pos,
                           restAdded: seq<Decoration>, restRemoved: seq<Pos>,
                           added: seq<Decoration>, removed: seq<Pos>)
    requires first == [] || (hit && first == [first[0]] && first[0].pos == p)
    requires multiset(PositionsOf(restAdded)) <= multiset(restRemoved)
    requires added == first + restAdded
    requires removed == (if hit then [p] else []) + restRemoved
    ensures multiset(PositionsOf(added)) <= multiset(removed)
  {
    if first != [] {
      PositionsOfCons(first[0], restAdded);
      assert multiset(PositionsOf(added)) == multiset{p} + multiset(PositionsOf(restAdded));
      assert multiset(removed) == multiset{p} + multiset(restRemoved);
    } else if hit {
      assert added == restAdded;
      assert multiset(removed) == multiset{p} + multiset(restRemoved);
    } else {
      assert added == restAdded && removed == restRemoved;
    }
  }

  /** Only visited candidates are dropped, one step further. */
  lemma RemovedWithinCandidates(ps: seq<Pos>, hit: bool, restRemoved: seq<Pos>, removed: seq<Pos>)
    requires |ps| > 0 && multiset(restRemoved) <= multiset(ps[1..])
    requires removed == (if hit then [ps[0]] else []) + restRemoved
    ensures multiset(removed) <= multiset(ps)
  {
    assert ps == [ps[0]] + ps[1..];
    assert multiset(ps) == multiset{ps[0]} + multiset(ps[1..]);
    if hit {
      assert multiset(removed) == multiset{ps[0]} + multiset(restRemoved);
    } else {
      assert removed == restRemoved;
    }
  }

  lemma PositionsOfCons(d: Decoration, rest: seq<Decoration>)
    ensures PositionsOf([d] + rest) == [d.pos] + PositionsOf(rest)
  {
  }

  /** Every decoration a sweep adds carries the requested tag and flag. */
  lemma {:induction false} SweepTagged(ps: seq<Pos>, decs: seq<Decoration>, kind: DecoratorEnum,
                                       outOfBounds: bool, leaveSpace: bool, rng: Rng)
    ensures Tagged(Sweep(ps, decs, kind, outOfBounds, leaveSpace, rng).added, kind, outOfBounds)
    decreases |ps|
  {
    if |ps| > 0 {
      var rng1 := Rng(rng.source, rng.next + 1);
      var first := Placed(decs, ps[0], kind, outOfBounds, leaveSpace, rng);
      var rest := Sweep(ps[1..], decs + first, kind, outOfBounds, leaveSpace, rng1);
      SweepTagged(ps[1..], decs + first, kind, outOfBounds, leaveSpace, rng1);
      SweepAddsFirst(ps, decs, kind, outOfBounds, leaveSpace, rng);
      TaggedAppend(first, rest.added, kind, outOfBounds);
    }
  }

  /** Under `leaveSpace` a sweep never places a decoration next to another,
      whether placed before the sweep or during it. */
  lemma {:induction false} SweepSpaced(ps: seq<Pos>, decs: seq<Decoration>, kind: DecoratorEnum,
                                       outOfBounds: bool, leaveSpace: bool, rng: Rng)
    ensures leaveSpace && Spaced(decs) ==>
      Spaced(decs + Sweep(ps, decs, kind, outOfBounds, leaveSpace, rng).added)
    decreases |ps|
  {
    if leaveSpace && Spaced(decs) && |ps| > 0 {
      var rng1 := Rng(rng.source, rng.next + 1);
      var first := Placed(decs, ps[0], kind, outOfBounds, leaveSpace, rng);
      SpacedPlaced(decs, first);
      SweepSpaced(ps[1..], decs + first, kind, outOfBounds, leaveSpace, rng1);
      SweepAddsFirst(ps, decs, kind, outOfBounds, leaveSpace, rng);
      SpacedRegroup(decs, first, Sweep(ps[1..], decs + first, kind, outOfBounds, leaveSpace, rng1).added);
    }
  }

  lemma SpacedRegroup(decs: seq<Decoration>, first: seq<Decoration>, added: seq<Decoration>)
    requires Spaced((decs + first) + added)
    ensures Spaced(decs + (first + added))
  {
    assert (decs + first) + added == decs + (first + added);
  }

  /** Placing under `leaveSpace` keeps the placed decorations spaced. */
  lemma SpacedPlaced(decs: seq<Decoration>, first: seq<Decoration>)
    requires Spaced(decs)
    requires first == [] || (|first| == 1 && !Blocked(decs, first[0].pos))
    ensures Spaced(decs + first)
  {
    if first != [] {
      SpacedPlace(decs, first[0]);
    } else {
      assert decs + first == decs;
    }
  }

  /** A decoration with no placed neighbour keeps the placed ones spaced. */
  lemma SpacedPlace(decs: seq<Decoration>, d: Decoration)
    requires Spaced(decs) && !Blocked(decs, d.pos)
    ensures Spaced(decs + [d])
  {
  }

  /** Without `leaveSpace` every hit is placed: the new decorations stand
      exactly on the removed candidates, in order. */
  lemma {:induction false} SweepPlacesEveryHit(ps: seq<Pos>, decs: seq<Decoration>, kind: DecoratorEnum,
                                               outOfBounds: bool, rng: Rng)
    ensures var r := Sweep(ps, decs, kind, outOfBounds, false, rng);
      PositionsOf(r.added) == r.removed
    decreases |ps|
  {
    if |ps| > 0 {
      var hit := ChanceHits(RandBelow(rng, ChanceRange).0, PlaceChanceMilli);
      var rng1 := Rng(rng.source, rng.next + 1);
      var first := Placed(decs, ps[0], kind, outOfBounds, false, rng);
      var rest := Sweep(ps[1..], decs + first, kind, outOfBounds, false, rng1);
      SweepPlacesEveryHit(ps[1..], decs + first, kind, outOfBounds, rng1);
      SweepAddsFirst(ps, decs, kind, outOfBounds, false, rng);
      HitsStep(ps, rng, rest.removed, (if hit then [ps[0]] else []) + rest.removed);
      PlacesEveryHitStep(first, Decoration(ps[0], kind, outOfBounds), hit, rest.added, rest.removed);
    }
  }

  /** Placing on the first candidate exactly when it is dropped keeps the
      decorations on the dropped candidates. */
  lemma PlacesEveryHitStep(first: seq<Decoration>, d: Decoration, hit: bool, restAdded: seq<Decoration>,
                           restRemoved: seq<Pos>)
    requires first == (if hit then [d] else []) && PositionsOf(restAdded) == restRemoved
    ensures PositionsOf(first + restAdded) == (if hit then [d.pos] else []) + restRemoved
  {
    if hit {
      PositionsOfCons(d, restAdded);
    } else {
      assert [] + restAdded == restAdded && [] + restRemoved == restRemoved;
    }
  }

  /** A cell is settled by `decs` when a decoration stands on it or on one
      of its eight neighbours: a candidate the sweep drops is one or the
      other. */
  predicate Settled(decs: seq<Decoration>, q: Pos) {
    q in PositionsOf(decs) || Blocked(decs, q)
  }

  /** More decorations keep a cell settled. */
  lemma SettledGrows(a: seq<Decoration>, b: seq<Decoration>, q: Pos)
    requires Settled(a, q)
    ensures Settled(a + b, q)
  {
    if q in PositionsOf(a) {
      var i :| 0 <= i < |a| && PositionsOf(a)[i] == q;
      assert PositionsOf(a + b)[i] == q;
    } else {
      var i :| 0 <= i < |a| && Adjacent8(a[i].pos, q);
      assert (a + b)[i] == a[i];
    }
  }

  /** The first candidate, when dropped, is settled after the sweep: it was
      decorated, or it was passed over because a decoration stood next to
      it. */
  lemma SettledFirst(decs: seq<Decoration>, first: seq<Decoration>, restAdded: seq<Decoration>, p: Pos, d: Decoration)
    requires first == [] ==> Blocked(decs, p)
    requires first != [] ==> first == [d] && d.pos == p
    ensures Settled((decs + first) + restAdded, p)
  {
    if first == [] {
      assert decs + first == decs;
      SettledGrows(decs, restAdded, p);
    } else {
      assert PositionsOf(decs + first)[|decs|] == p;
      SettledGrows(decs + first, restAdded, p);
    }
  }

  /** Every candidate a sweep drops is settled once the sweep is done:
      it drew a hit, so it was decorated unless `leaveSpace` found a
      decoration next to it. */
  lemma {:induction false} SweepSettlesHits(ps: seq<Pos>, decs: seq<Decoration>, kind: DecoratorEnum,
                                            outOfBounds: bool, leaveSpace: bool, rng: Rng)
    ensures var r := Sweep(ps, decs, kind, outOfBounds, leaveSpace, rng);
      forall q | q in r.removed :: Settled(decs + r.added, q)
    decreases |ps|
  {
    if |ps| > 0 {
      var hit := ChanceHits(RandBelow(rng, ChanceRange).0, PlaceChanceMilli);
      var rng1 := Rng(rng.source, rng.next + 1);
      var first := Placed(decs, ps[0], kind, outOfBounds, leaveSpace, rng);
      var rest := Sweep(ps[1..], decs + first, kind, outOfBounds, leaveSpace, rng1);
      SweepSettlesHits(ps[1..], decs + first, kind, outOfBounds, leaveSpace, rng1);
      SweepAddsFirst(ps, decs, kind, outOfBounds, leaveSpace, rng);
      HitsStep(ps, rng, rest.removed, (if hit then [ps[0]] else []) + rest.removed);
      SettleStep(decs, first, rest.added, ps[0], Decoration(ps[0], kind, outOfBounds), hit, rest.removed);
    }
  }

  /** The step of `SweepSettlesHits`: the first candidate's outcome joined
      to what the rest of the sweep settles. */
  /** `SweepSettlesHits` for an outcome already computed. */
  lemma SweepSettlesOutcome(ps: seq<Pos>, decs: seq<Decoration>, kind: DecoratorEnum,
                            outOfBounds: bool, leaveSpace: bool, rng: Rng, s: SweepOutcome)
    requires s == Sweep(ps, decs, kind, outOfBounds, leaveSpace, rng)
    ensures forall q | q in s.removed :: Settled(decs + s.added, q)
  {
    SweepSettlesHits(ps, decs, kind, outOfBounds, leaveSpace, rng);
  }

  lemma SettleStep(decs: seq<Decoration>, first: seq<Decoration>, restAdded: seq<Decoration>,
                   p: Pos, d: Decoration, hit: bool, restRemoved: seq<Pos>)
    requires hit && first == [] ==> Blocked(decs, p)
    requires first != [] ==> hit && first == [d] && d.pos == p
    requires forall q | q in restRemoved :: Settled((decs + first) + restAdded, q)
    ensures forall q | q in (if hit then [p] else []) + restRemoved :: Settled(decs + (first + restAdded), q)
  {
    assert (decs + first) + restAdded == decs + (first + restAdded);
    if hit {
      SettledFirst(decs, first, restAdded, p, d);
    }
  }

  /** `list.remove`: drops the first occurrence of `x`, or nothing when `x`
      is absent (the source never removes an absent candidate). */
  function RemoveFirst(s: seq<Pos>, x: Pos): (r: seq<Pos>)
    ensures x in multiset(s) ==> multiset(r) == multiset(s) - multiset{x}
    ensures x !in multiset(s) ==> r == s
  {
    if |s| == 0 then s
    else if s[0] == x then
      assert s == [s[0]] + s[1..];
      s[1..]
    else
      var rest := RemoveFirst(s[1..], x);
      assert s == [s[0]] + s[1..];
      [s[0]] + rest
  }

  /** `for p in positions_to_remove: potential_placements.remove(p)` */
  function RemoveAll(s: seq<Pos>, xs: seq<Pos>): (r: seq<Pos>)
    requires multiset(xs) <= multiset(s)
    ensures multiset(r) == multiset(s) - multiset(xs)
    decreases |xs|
  {
    if |xs| == 0 then s
    else
      assert xs == [xs[0]] + xs[1..];
      RemoveAll(RemoveFirst(s, xs[0]), xs[1..])
  }

  datatype Decorated = Decorated(decorations: seq<Decoration>, remaining: seq<Pos>, rng: Rng)

  /** The sweep loop's exit test: the candidates are used up, or more than
      `sparsity` percent of the region's `total` cells are decorated (the
      source compares with the float `total * sparsity / 100`). */
  predicate Finished(remaining: seq<Pos>, decs: seq<Decoration>, total: nat, sparsity: int) {
    |remaining| == 0 || 100 * |decs| > total * sparsity
  }

  /** What holds between sweeps: every candidate and every decorated cell
      is a distinct occurrence of a region cell. */
  ghost predicate Accounted(positions: seq<Pos>, potential: seq<Pos>, decs: seq<Decoration>) {
    multiset(potential) + multiset(PositionsOf(decs)) <= multiset(positions)
  }

  /** What else holds between sweeps: every region cell that is no longer
      a candidate was dropped on a hit, so it is settled. */
  ghost predicate AllSettled(positions: seq<Pos>, potential: seq<Pos>, decs: seq<Decoration>) {
    forall q | q in positions && q !in potential :: Settled(decs, q)
  }

  /** Without `leaveSpace` every hit is decorated, so the candidates and
      the decorated cells make up the region cells exactly. */
  ghost predicate Exact(positions: seq<Pos>, potential: seq<Pos>, decs: seq<Decoration>) {
    multiset(potential) + multiset(PositionsOf(decs)) == multiset(positions)
  }

  /** What the exit test leaves without `leaveSpace`: more than `sparsity`
      percent of the region's cells decorated, or all of them. */
  predicate EnoughDecorated(positions: seq<Pos>, decs: seq<Decoration>, sparsity: int) {
    100 * |decs| > |positions| * sparsity || multiset(PositionsOf(decs)) == multiset(positions)
  }

  lemma SweepKeepsSettled(positions: seq<Pos>, potential: seq<Pos>, decs: seq<Decoration>,
                          s: SweepOutcome, rest: seq<Pos>)
    requires AllSettled(positions, potential, decs)
    requires forall q | q in s.removed :: Settled(decs + s.added, q)
    requires multiset(rest) == multiset(potential) - multiset(s.removed)
    ensures AllSettled(positions, rest, decs + s.added)
  {
    forall q | q in positions && q !in rest ensures Settled(decs + s.added, q) {
      if q in potential {
        assert multiset(rest)[q] == 0 && multiset(potential)[q] > 0;
        assert q in multiset(s.removed);
      } else {
        SettledGrows(decs, s.added, q);
      }
    }
  }

  lemma SweepKeepsExact(positions: seq<Pos>, potential: seq<Pos>, decs: seq<Decoration>,
                        s: SweepOutcome, rest: seq<Pos>)
    requires Exact(positions, potential, decs)
    requires PositionsOf(s.added) == s.removed && multiset(s.removed) <= multiset(potential)
    requires multiset(rest) == multiset(potential) - multiset(s.removed)
    ensures Exact(positions, rest, decs + s.added)
  {
    assert PositionsOf(decs + s.added) == PositionsOf(decs) + PositionsOf(s.added);
    assert multiset(potential) == multiset(rest) + multiset(s.removed);
  }

  lemma SweepKeepsAccounted(positions: seq<Pos>, potential: seq<Pos>, decs: seq<Decoration>,
                            s: SweepOutcome, rest: seq<Pos>)
    requires Accounted(positions, potential, decs)
    requires multiset(PositionsOf(s.added)) <= multiset(s.removed) <= multiset(potential)
    requires multiset(rest) == multiset(potential) - multiset(s.removed)
    ensures Accounted(positions, rest, decs + s.added)
  {
    assert PositionsOf(decs + s.added) == PositionsOf(decs) + PositionsOf(s.added);
    var n, m := multiset(PositionsOf(s.added)), multiset(s.removed);
    assert multiset(rest) + n <= multiset(potential) by {
      assert multiset(potential) == multiset(rest) + m;
    }
  }

  lemma TaggedAppend(a: seq<Decoration>, b: seq<Decoration>, kind: DecoratorEnum, outOfBounds: bool)
    requires Tagged(a, kind, outOfBounds) && Tagged(b, kind, outOfBounds)
    ensures Tagged(a + b, kind, outOfBounds)
  {
    forall i | 0 <= i < |a + b| ensures (a + b)[i].kind == kind && (a + b)[i].outOfBounds == outOfBounds {
      if i >= |a| {
        assert (a + b)[i] == b[i - |a|];
      }
    }
  }

  /** One sweep followed by the removals keeps what holds between sweeps:
      the accounting, the tags and, under `leaveSpace`, the spacing. */
  lemma SweepKeepsInvariant(positions: seq<Pos>, potential: seq<Pos>, decs: seq<Decoration>,
                            kind: DecoratorEnum, outOfBounds: bool, leaveSpace: bool, rng: Rng)
    requires Accounted(positions, potential, decs)
    requires Tagged(decs, kind, outOfBounds)
    requires leaveSpace ==> Spaced(decs)
    ensures var s := Sweep(potential, decs, kind, outOfBounds, leaveSpace, rng);
      && Accounted(positions, RemoveAll(potential, s.removed), decs + s.added)
      && Tagged(decs + s.added, kind, outOfBounds)
      && (leaveSpace ==> Spaced(decs + s.added))
  {
    var s := Sweep(potential, decs, kind, outOfBounds, leaveSpace, rng);
    SweepKeepsAccounted(positions, potential, decs, s, RemoveAll(potential, s.removed));
    SweepTagged(potential, decs, kind, outOfBounds, leaveSpace, rng);
    TaggedAppend(decs, s.added, kind, outOfBounds);
    SweepSpaced(potential, decs, kind, outOfBounds, leaveSpace, rng);
  }

  /** A sweep keeps every dropped candidate settled and, without
      `leaveSpace`, keeps the region cells exactly accounted for. */
  lemma SweepKeepsCoverage(positions: seq<Pos>, potential: seq<Pos>, decs: seq<Decoration>,
                           kind: DecoratorEnum, outOfBounds: bool, leaveSpace: bool, rng: Rng)
    requires AllSettled(positions, potential, decs)
    requires !leaveSpace ==> Exact(positions, potential, decs)
    ensures var s := Sweep(potential, decs, kind, outOfBounds, leaveSpace, rng);
      && AllSettled(positions, RemoveAll(potential, s.removed), decs + s.added)
      && (!leaveSpace ==> Exact(positions, RemoveAll(potential, s.removed), decs + s.added))
  {
    var s := Sweep(potential, decs, kind, outOfBounds, leaveSpace, rng);
    var rest := RemoveAll(potential, s.removed);
    SweepSettlesOutcome(potential, decs, kind, outOfBounds, leaveSpace, rng, s);
    SweepKeepsSettled(positions, potential, decs, s, rest);
    if !leaveSpace {
      SweepPlacesEveryHit(potential, decs, kind, outOfBounds, rng);
      SweepKeepsExact(positions, potential, decs, s, rest);
    }
  }

  /** The `while decoration_completed is False` loop, allowed at most
      `fuel` more sweeps. */
  function Sweeps(positions: seq<Pos>, potential: seq<Pos>, decs: seq<Decoration>,
                  kind: DecoratorEnum, sparsity: int, outOfBounds: bool, leaveSpace: bool,
                  rng: Rng, fuel: nat): (r: Result<Decorated>)
    requires Accounted(positions, potential, decs)
    requires Tagged(decs, kind, outOfBounds)
    requires leaveSpace ==> Spaced(decs)
    requires AllSettled(positions, potential, decs)
    requires !leaveSpace ==> Exact(positions, potential, decs)
    ensures r.Err? ==> r.failure == SweepsExhausted
    ensures r.Ok? ==> Accounted(positions, r.value.remaining, r.value.decorations)
    ensures r.Ok? ==> Tagged(r.value.decorations, kind, outOfBounds)
    ensures r.Ok? && leaveSpace ==> Spaced(r.value.decorations)
    ensures r.Ok? ==> Finished(r.value.remaining, r.value.decorations, |positions|, sparsity)
    ensures r.Ok? ==> AllSettled(positions, r.value.remaining, r.value.decorations)
    ensures r.Ok? && !leaveSpace ==> Exact(positions, r.value.remaining, r.value.decorations)
    decreases fuel
  {
    if fuel == 0 then Err(SweepsExhausted)
    else
      var s := Sweep(potential, decs, kind, outOfBounds, leaveSpace, rng);
      var rest := RemoveAll(potential, s.removed);
      var decs1 := decs + s.added;
      SweepKeepsInvariant(positions, potential, decs, kind, outOfBounds, leaveSpace, rng);
      SweepKeepsCoverage(positions, potential, decs, kind, outOfBounds, leaveSpace, rng);
      if Finished(rest, decs1, |positions|, sparsity) then Ok(Decorated(decs1, rest, s.rng))
      else Sweeps(positions, rest, decs1, kind, sparsity, outOfBounds, leaveSpace, s.rng, fuel - 1)
  }

  /** `decorate_region_with_decoration_at_sparsity_percentage` over the
      region cells `positions`, allowed `fuel` sweeps. `remaining` is what
      is left of the candidate list, which in the source is the region's own
      position list, shortened in place. */
  function DecorateRegion(positions: seq<Pos>, kind: DecoratorEnum, sparsity: int,
                          outOfBounds: bool, leaveSpace: bool, rng: Rng, fuel: nat): (r: Result<Decorated>)
    ensures r.Err? ==> r.failure in {InvalidParameter, SweepsExhausted}
    ensures r.Err? && r.failure == InvalidParameter <==> sparsity < 0 || sparsity > 100
    ensures r.Ok? ==> Accounted(positions, r.value.remaining, r.value.decorations)
    ensures r.Ok? ==> Tagged(r.value.decorations, kind, outOfBounds)
    ensures r.Ok? && leaveSpace ==> Spaced(r.value.decorations)
    ensures r.Ok? ==> Finished(r.value.remaining, r.value.decorations, |positions|, sparsity)
    ensures r.Ok? ==> AllSettled(positions, r.value.remaining, r.value.decorations)
    ensures r.Ok? && !leaveSpace ==> Exact(positions, r.value.remaining, r.value.decorations)
    ensures r.Ok? && !leaveSpace ==> EnoughDecorated(positions, r.value.decorations, sparsity)
  {
    if sparsity < 0 || sparsity > 100 then Err(InvalidParameter)
    else
      Sweeps(positions, positions, [], kind, sparsity, outOfBounds, leaveSpace, rng, fuel)
  }

  /** Consequences of `Accounted` for a region without repeated cells: each
      decoration stands on a region cell, no cell carries two decorations,
      and a decorated cell is no longer a candidate. */
  lemma AccountedDecorations(positions: seq<Pos>, remaining: seq<Pos>, decs: seq<Decoration>)
    requires Accounted(positions, remaining, decs)
    requires forall i, j | 0 <= i < j < |positions| :: positions[i] != positions[j]
    ensures |decs| + |remaining| <= |positions|
    ensures forall i | 0 <= i < |decs| :: decs[i].pos in positions && decs[i].pos !in remaining
    ensures forall i, j | 0 <= i < j < |decs| :: decs[i].pos != decs[j].pos
    ensures forall q | q in remaining :: q in positions
  {
    var ps := PositionsOf(decs);
    var total := multiset(remaining) + multiset(ps);
    assert |total| == |remaining| + |decs|;
    assert |total| <= |positions| by {
      assert multiset(positions) == total + (multiset(positions) - total);
    }
    forall q ensures multiset(positions)[q] <= 1 {
      DistinctCount(positions, q);
    }
    forall i | 0 <= i < |decs| ensures decs[i].pos in positions && decs[i].pos !in remaining {
      var q := ps[i];
      assert q in multiset(ps);
      assert multiset(remaining)[q] + multiset(ps)[q] <= multiset(positions)[q];
      assert q in multiset(positions);
    }
    forall q | q in remaining ensures q in positions {
      assert q in multiset(remaining);
      assert multiset(remaining)[q] + multiset(ps)[q] <= multiset(positions)[q];
      assert q in multiset(positions);
    }
    forall i, j | 0 <= i < j < |decs| ensures decs[i].pos != decs[j].pos {
      var q := ps[i];
      TwoIndicesCount(ps, i, j);
      assert multiset(remaining)[q] + multiset(ps)[q] <= multiset(positions)[q];
    }
  }

  lemma DistinctCount(s: seq<Pos>, q: Pos)
    requires forall i, j | 0 <= i < j < |s| :: s[i] != s[j]
    ensures multiset(s)[q] <= 1
  {
    if |s| > 0 {
      assert s == [s[0]] + s[1..];
      DistinctCount(s[1..], q);
      if s[0] == q {
        assert q !in s[1..];
      }
    }
  }

  lemma TwoIndicesCount(s: seq<Pos>, i: nat, j: nat)
    requires i < j < |s|
    ensures s[i] == s[j] ==> multiset(s)[s[i]] >= 2
  {
    assert s == s[..j] + [s[j]] + s[j + 1..];
    assert s[i] in s[..j];
  }

  /** The decorations standing on one of `cells`, in their order. */
  function On(decs: seq<Decoration>, cells: seq<Pos>): (r: seq<Decoration>)
    ensures forall d | d in r :: d in decs && d.pos in cells
    ensures forall d | d in decs && d.pos in cells :: d in r
    decreases |decs|
  {
    if |decs| == 0 then []
    else
      var rest := On(decs[1..], cells);
      assert forall d | d in decs :: d == decs[0] || d in decs[1..];
      if decs[0].pos in cells then [decs[0]] + rest else rest
  }

  lemma {:induction false} OnAppend(a: seq<Decoration>, b: seq<Decoration>, cells: seq<Pos>)
    ensures On(a + b, cells) == On(a, cells) + On(b, cells)
    decreases |a|
  {
    if |a| == 0 {
      assert a + b == b;
    } else {
      assert (a + b)[1..] == a[1..] + b;
      OnAppend(a[1..], b, cells);
    }
  }

  lemma {:induction false} OnInside(a: seq<Decoration>, cells: seq<Pos>)
    requires forall d | d in a :: d.pos in cells
    ensures On(a, cells) == a
    decreases |a|
  {
    if |a| > 0 {
      assert forall d | d in a[1..] :: d in a;
      OnInside(a[1..], cells);
      assert a == [a[0]] + a[1..];
    }
  }

  lemma OnOutside(a: seq<Decoration>, cells: seq<Pos>)
    requires forall d | d in a :: d.pos !in cells
    ensures On(a, cells) == []
  {
    if On(a, cells) != [] {
      assert On(a, cells)[0] in On(a, cells);
    }
  }
}

=== FILE: draws.dfy ===
/** The random draws the generator makes, supplied as an explicit stream.

    The source calls `randrange` and `shuffle` on Python's global generator.
    Here the generator is an infinite stream of raw natural numbers and a
    read position; `randrange(0, n)` is the next raw number reduced into
    `[0, n)`. How the real generator maps its state to a value is not part
    of this model: any stream is allowed, so every property proved holds
    for every sequence of draws. */
module Draws {

  datatype Rng = Rng(source: nat -> nat, next: nat)

  /** `randrange(0, n)`: one draw in `[0, n)`; the stream advances by one. */
  function RandBelow(rng: Rng, n: nat): (r: (nat, Rng))
    requires n > 0
    ensures r.0 < n
    ensures r.1 == Rng(rng.source, rng.next + 1)
  {
    (rng.source(rng.next) % n, Rng(rng.source, rng.next + 1))
  }

  /** `randrange(0, 100000)`, the draw behind every percentage chance. */
  const ChanceRange: nat := 100000

  /** The source divides a chance draw by 1000 and compares it, as a float,
      with a percentage `p` (`randrange(0, 100000) / 1000 <= p`). For a
      percentage given in thousandths, `pMilli == p * 1000`, the float
      comparison holds exactly when `draw <= pMilli`. */
  predicate ChanceHits(draw: nat, pMilli: int) {
    draw <= pMilli
  }

  /** The chance draw `i` places past `rng`'s read position. */
  function ChanceDraw(rng: Rng, i: nat): nat {
    RandBelow(Rng(rng.source, rng.next + i), ChanceRange).0
  }

  /** The elements of `xs` whose chance draws hit `pMilli`, one draw per
      element taken in order from `rng`, kept in their order. */
  function Hits<T>(xs: seq<T>, rng: Rng, pMilli: int): seq<T>
    decreases |xs|
  {
    if |xs| == 0 then []
    else
      (if ChanceHits(ChanceDraw(rng, 0), pMilli) then [xs[0]] else [])
      + Hits(xs[1..], Rng(rng.source, rng.next + 1), pMilli)
  }

  /** Drawing for one more element at the end keeps the earlier hits and
      adds the new element exactly when its own draw hits. */
  lemma {:induction false} HitsSnoc<T>(xs: seq<T>, x: T, rng: Rng, pMilli: int)
    ensures Hits(xs + [x], rng, pMilli) ==
      Hits(xs, rng, pMilli) + (if ChanceHits(ChanceDraw(rng, |xs|), pMilli) then [x] else [])
    decreases |xs|
  {
    if |xs| > 0 {
      var rng1 := Rng(rng.source, rng.next + 1);
      assert (xs + [x])[1..] == xs[1..] + [x];
      HitsSnoc(xs[1..], x, rng1, pMilli);
      assert ChanceDraw(rng1, |xs| - 1) == ChanceDraw(rng, |xs|);
    }
  }
}

=== FILE: grids.dfy ===
/** The two-dimensional grids every generation pass works on.

    The source keeps a grid as a dictionary `grid[x][y]` plus `"width"` and
    `"height"` entries; here it is a column-major sequence of sequences with
    the same indexing. A tile grid holds `TileTypeEnum` tags, a collision
    grid holds booleans (the source's 1 is `true`, 0 is `false`).
    Reading or writing outside the grid is a KeyError in the source, so
    every access here requires `In(p)`. */
module Grids {

  datatype Pos = Pos(x: int, y: int)

  datatype Grid<T> = Grid(width: nat, height: nat, cells: seq<seq<T>>) {

    /** Every column has `height` cells. */
    predicate Valid() {
      |cells| == width && forall x | 0 <= x < width :: |cells[x]| == height
    }

    predicate In(p: Pos) {
      0 <= p.x < width && 0 <= p.y < height
    }

    function At(p: Pos): T
      requires Valid() && In(p)
    {
      cells[p.x][p.y]
    }

    /** `grid[x][y] = v` */
    function Set(p: Pos, v: T): (g: Grid<T>)
      requires Valid() && In(p)
      ensures g.Valid() && g.width == width && g.height == height
      ensures forall q | g.In(q) :: g.At(q) == if q == p then v else At(q)
    {
      Grid(width, height, cells[p.x := cells[p.x][p.y := v]])
    }
  }

  predicate SameShape<T, U>(a: Grid<T>, b: Grid<U>) {
    a.width == b.width && a.height == b.height
  }

  /** A `width` by `height` grid holding `v` everywhere, as the generator's
      constructor fills its tile and collision grids. */
  function Filled<T>(width: nat, height: nat, v: T): (g: Grid<T>)
    ensures g.Valid() && g.width == width && g.height == height
    ensures forall p | g.In(p) :: g.At(p) == v
  {
    Grid(width, height, seq(width, _ => seq(height, _ => v)))
  }

  /** The grid whose every cell is `f` of its position and old content: one
      `for x: for y: grid[x][y] = ...` sweep in which each cell is read and
      written only at its own visit. */
  function Remap<T>(g: Grid<T>, f: (Pos, T) -> T): (r: Grid<T>)
    requires g.Valid()
    ensures r.Valid() && SameShape(r, g)
    ensures forall p | r.In(p) :: r.At(p) == f(p, g.At(p))
  {
    Grid(g.width, g.height,
      seq(g.width, x requires 0 <= x < g.width =>
        seq(g.height, y requires 0 <= y < g.height => f(Pos(x, y), g.cells[x][y]))))
  }

  /** `for p in ps: grid[p.x][p.y] = v`: the second phase of every
      collect-then-write pass. */
  method WriteAll<T>(g: Grid<T>, ps: seq<Pos>, v: T) returns (r: Grid<T>)
    requires g.Valid()
    requires forall i | 0 <= i < |ps| :: g.In(ps[i])
    ensures r.Valid() && SameShape(r, g)
    ensures forall p | r.In(p) :: r.At(p) == if p in ps then v else g.At(p)
  {
    r := g;
    var i := 0;
    while i < |ps|
      invariant 0 <= i <= |ps|
      invariant r.Valid() && SameShape(r, g)
      invariant forall p | r.In(p) :: r.At(p) == if p in ps[..i] then v else g.At(p)
    {
      r := r.Set(ps[i], v);
      assert ps[..i + 1] == ps[..i] + [ps[i]];
      i := i + 1;
    }
    assert ps[..i] == ps;
  }

  /** The positions holding `t`. */
  ghost function CellsOf<T>(g: Grid<T>, t: T): set<Pos>
    requires g.Valid()
  {
    set x, y | 0 <= x < g.width && 0 <= y < g.height && g.cells[x][y] == t :: Pos(x, y)
  }

  lemma InCellsOf<T>(g: Grid<T>, t: T, p: Pos)
    requires g.Valid()
    ensures p in CellsOf(g, t) <==> g.In(p) && g.At(p) == t
  {
  }

  /** A grid that holds `t` only where `g` did has no more `t` cells. */
  lemma CellsOfShrink<T>(g: Grid<T>, r: Grid<T>, t: T)
    requires g.Valid() && r.Valid() && SameShape(g, r)
    requires forall p | r.In(p) :: r.At(p) == t ==> g.At(p) == t
    ensures CellsOf(r, t) <= CellsOf(g, t)
    ensures |CellsOf(r, t)| <= |CellsOf(g, t)|
  {
    var a, b := CellsOf(r, t), CellsOf(g, t);
    forall p | p in a ensures p in b {
      InCellsOf(r, t, p);
      InCellsOf(g, t, p);
    }
    assert b == a + (b - a);
  }

  /** ... and strictly fewer when some `t` cell of `g` lost its tag. */
  lemma CellsOfShrinkStrictly<T>(g: Grid<T>, r: Grid<T>, t: T, q: Pos)
    requires g.Valid() && r.Valid() && SameShape(g, r)
    requires forall p | r.In(p) :: r.At(p) == t ==> g.At(p) == t
    requires g.In(q) && g.At(q) == t && r.At(q) != t
    ensures |CellsOf(r, t)| < |CellsOf(g, t)|
  {
    CellsOfShrink(g, r, t);
    InCellsOf(g, t, q);
    InCellsOf(r, t, q);
    var a, b := CellsOf(r, t), CellsOf(g, t);
    assert q in b - a;
    assert b == a + (b - a);
  }

  /** 8-adjacency: the two positions differ and are at most one step apart
      on each axis (Chebyshev distance one). */
  predicate Adjacent8(a: Pos, b: Pos) {
    a != b && -1 <= a.x - b.x <= 1 && -1 <= a.y - b.y <= 1
  }

  /** 4-adjacency: one unit step along exactly one axis. */
  predicate Adjacent4(a: Pos, b: Pos) {
    (a.x == b.x && (a.y - b.y == 1 || b.y - a.y == 1)) ||
    (a.y == b.y && (a.x - b.x == 1 || b.x - a.x == 1))
  }

  /** The four axis neighbours in the order the source probes them:
      x - 1, x + 1, y - 1, y + 1. */
  function Neighbours4(p: Pos): seq<Pos> {
    [Pos(p.x - 1, p.y), Pos(p.x + 1, p.y), Pos(p.x, p.y - 1), Pos(p.x, p.y + 1)]
  }

  lemma Neighbours4AreAdjacent4(p: Pos, q: Pos)
    ensures q in Neighbours4(p) <==> Adjacent4(p, q)
  {
  }

  /** All cells of `runs`, in order. */
  function Flatten(runs: seq<seq<Pos>>): (r: seq<Pos>)
    ensures forall b, q | b in runs && q in b :: q in r
    ensures forall q | q in r :: exists b | b in runs :: q in b
  {
    if |runs| == 0 then [] else Flatten(runs[..|runs| - 1]) + runs[|runs| - 1]
  }
}

=== FILE: maze.dfy ===
/** `generate_maze`, `build_path_from_position` and
    `get_random_valid_direction_for_placement` of
    level/grid_generator_helper.py: a random walk that carves corridors of
    `distance` cells through `base` cells and backtracks along a parent
    trace when it is stuck.

    The source picks its start cell by retrying `randrange` until it hits a
    `base` cell; here that cell is an argument. Every other draw (the
    `shuffle` before each direction probe) comes from the `Rng` stream. */
module Maze {
  import opened Outcomes
  import opened Grids
  import opened Draws
  import opened TileTypeEnums
  import opened Shaping

  datatype Direction = Up | Down | Left | Right

  /** The values of `DirectionEnum`. */
  function DirectionValue(d: Direction): int {
    match d
    case Up => 1
    case Down => 2
    case Left => 3
    case Right => 4
  }

  /** `distance` cells from `p` along `d`; y grows downwards. */
  function Step(p: Pos, d: Direction, distance: int): Pos {
    match d
    case Right => Pos(p.x + distance, p.y)
    case Left => Pos(p.x - distance, p.y)
    case Down => Pos(p.x, p.y + distance)
    case Up => Pos(p.x, p.y - distance)
  }

  // ---------------------------------------------------------------------
  // get_random_valid_direction_for_placement

  function Swap(s: seq<int>, i: nat, j: nat): (r: seq<int>)
    requires i < |s| && j < |s|
    ensures |r| == |s|
  {
    s[i := s[j]][j := s[i]]
  }

  /** A swap loses no element. */
  lemma SwapKeeps(s: seq<int>, i: nat, j: nat, k: nat)
    requires i < |s| && j < |s| && k < |s|
    ensures s[k] in Swap(s, i, j)
  {
    var r := Swap(s, i, j);
    if k == i {
      assert r[j] == s[k];
    } else if k == j {
      assert r[i] == s[k];
    } else {
      assert r[k] == s[k];
    }
  }

  /** `shuffle([1, 2, 3, 4])` as CPython performs it: for i = 3, 2, 1 swap
      position i with a position drawn from `[0, i]`. */
  function Shuffle(rng: Rng): (r: (seq<int>, Rng))
    ensures |r.0| == 4
    ensures r.1 == Rng(rng.source, rng.next + 3)
  {
    var (j3, rng1) := RandBelow(rng, 4);
    var (j2, rng2) := RandBelow(rng1, 3);
    var (j1, rng3) := RandBelow(rng2, 2);
    (Swap(Swap(Swap([1, 2, 3, 4], 3, j3), 2, j2), 1, j1), rng3)
  }

  /** The shuffled order still holds every direction's value, so a probe
      over it tries all four directions. */
  lemma {:induction false} ShuffleTriesAll(rng: Rng, d: Direction)
    ensures DirectionValue(d) in Shuffle(rng).0
  {
    var (j3, rng1) := RandBelow(rng, 4);
    var (j2, rng2) := RandBelow(rng1, 3);
    var (j1, rng3) := RandBelow(rng2, 2);
    var s0 := [1, 2, 3, 4];
    var s1 := Swap(s0, 3, j3);
    var s2 := Swap(s1, 2, j2);
    var s3 := Swap(s2, 1, j1);
    assert s3 == Shuffle(rng).0;
    var k := DirectionValue(d) - 1;
    SwapKeeps(s0, 3, j3, k);
    var k1 :| 0 <= k1 < |s1| && s1[k1] == s0[k];
    SwapKeeps(s1, 2, j2, k1);
    var k2 :| 0 <= k2 < |s2| && s2[k2] == s0[k];
    SwapKeeps(s2, 1, j1, k2);
  }

  /** `distance` cells of room on every side of `p`, so that every probe
      and every carved cell from `p` stays in the grid. */
  predicate Interior<T>(g: Grid<T>, p: Pos, distance: nat) {
    distance <= p.x < g.width - distance && distance <= p.y < g.height - distance
  }

  lemma InteriorStepIn<T>(g: Grid<T>, p: Pos, d: Direction, distance: nat, i: int)
    requires Interior(g, p, distance) && 0 <= i <= distance
    ensures g.In(Step(p, d, i))
  {
  }

  /** Whether `v` is the value of a direction whose endpoint, `distance`
      cells from `p`, holds `validType`. */
  predicate ValidValue(g: TileGrid, p: Pos, distance: nat, validType: TileTypeEnum, v: int)
    requires g.Valid() && Interior(g, p, distance)
  {
    exists d: Direction :: DirectionValue(d) == v && InStepAt(g, p, d, distance) == validType
  }

  /** The cell `distance` cells from an interior `p` along `d`. */
  function InStepAt(g: TileGrid, p: Pos, d: Direction, distance: nat): TileTypeEnum
    requires g.Valid() && Interior(g, p, distance)
  {
    InteriorStepIn(g, p, d, distance, distance);
    g.At(Step(p, d, distance))
  }

  /** The first value of `order` whose direction ends, `distance` cells
      away, on a `validType` cell. Only the endpoint is looked at. */
  function FirstValid(g: TileGrid, p: Pos, distance: nat, validType: TileTypeEnum, order: seq<int>)
    : (r: Option<Direction>)
    requires g.Valid() && Interior(g, p, distance)
    ensures r.Some? ==> g.At(Step(p, r.value, distance)) == validType && DirectionValue(r.value) in order
    ensures r.Some? ==> exists k | 0 <= k < |order| ::
      (order[k] == DirectionValue(r.value) && forall j | 0 <= j < k :: !ValidValue(g, p, distance, validType, order[j]))
    ensures r.None? ==> forall d | DirectionValue(d) in order :: g.At(Step(p, d, distance)) != validType
  {
    InteriorStepIn(g, p, Right, distance, distance);
    InteriorStepIn(g, p, Down, distance, distance);
    InteriorStepIn(g, p, Left, distance, distance);
    InteriorStepIn(g, p, Up, distance, distance);
    if |order| == 0 then None
    else if order[0] == 4 && g.At(Step(p, Right, distance)) == validType then Some(Right)
    else if order[0] == 2 && g.At(Step(p, Down, distance)) == validType then Some(Down)
    else if order[0] == 3 && g.At(Step(p, Left, distance)) == validType then Some(Left)
    else if order[0] == 1 && g.At(Step(p, Up, distance)) == validType then Some(Up)
    else
      var r := FirstValid(g, p, distance, validType, order[1..]);
      assert r.Some? ==> exists k | 0 <= k < |order| ::
        (order[k] == DirectionValue(r.value) && forall j | 0 <= j < k :: !ValidValue(g, p, distance, validType, order[j])) by {
        if r.Some? {
          var k :| 0 <= k < |order| - 1 && order[1..][k] == DirectionValue(r.value) &&
            forall j | 0 <= j < k :: !ValidValue(g, p, distance, validType, order[1..][j]);
          assert order[k + 1] == DirectionValue(r.value);
          forall j | 0 <= j < k + 1 ensures !ValidValue(g, p, distance, validType, order[j]) {
            if j > 0 {
              assert order[j] == order[1..][j - 1];
            }
          }
        }
      }
      r
  }

  /** No direction from `p` ends on a `base` cell. */
  ghost predicate Exhausted(g: TileGrid, p: Pos, distance: nat, base: TileTypeEnum)
    requires g.Valid()
  {
    forall d: Direction | g.In(Step(p, d, distance)) :: g.At(Step(p, d, distance)) != base
  }

  /** One shuffled probe. A direction is returned only if its endpoint holds
      `validType`; none is returned only if no direction's endpoint does,
      because the shuffle tries all four. */
  function RandomValidDirection(g: TileGrid, p: Pos, distance: nat, validType: TileTypeEnum, rng: Rng)
    : (r: (Option<Direction>, Rng))
    requires g.Valid() && Interior(g, p, distance)
    ensures r.0.Some? ==> g.At(Step(p, r.0.value, distance)) == validType
    ensures r.0.None? ==> Exhausted(g, p, distance, validType)
    ensures r.1 == Rng(rng.source, rng.next + 3)
  {
    var (order, rng') := Shuffle(rng);
    var found := FirstValid(g, p, distance, validType, order);
    assert found.None? ==> Exhausted(g, p, distance, validType) by {
      if found.None? {
        forall d: Direction | g.In(Step(p, d, distance))
          ensures g.At(Step(p, d, distance)) != validType
        {
          ShuffleTriesAll(rng, d);
        }
      }
    }
    (found, rng')
  }

  // ---------------------------------------------------------------------
  // The parent trace

  /** Whether `c` is `distance` cells from `p` along one axis. */
  predicate IsStep(p: Pos, c: Pos, distance: nat) {
    exists d: Direction :: c == Step(p, d, distance)
  }

  /** The i-th cell walking from `p` towards `c` along their common axis. */
  function Toward(p: Pos, c: Pos, i: int): Pos {
    if c.x > p.x then Pos(p.x + i, p.y)
    else if c.x < p.x then Pos(p.x - i, p.y)
    else if c.y > p.y then Pos(p.x, p.y + i)
    else Pos(p.x, p.y - i)
  }

  lemma TowardIsStep(p: Pos, d: Direction, distance: nat, i: int)
    requires distance >= 1
    ensures Toward(p, Step(p, d, distance), i) == Step(p, d, i)
  {
  }

  /** Every cell from `p` up to and including `c` holds `newType`. */
  ghost predicate Corridor(g: TileGrid, p: Pos, c: Pos, distance: nat, newType: TileTypeEnum)
    requires g.Valid()
  {
    forall i | 1 <= i <= distance :: g.In(Toward(p, c, i)) && g.At(Toward(p, c, i)) == newType
  }

  /** Every `base` cell has room for a full step on each side. */
  ghost predicate BorderHolds(g: TileGrid, base: TileTypeEnum, distance: nat)
    requires g.Valid()
  {
    forall q | g.In(q) && g.At(q) == base :: Interior(g, q, distance)
  }

  /** The parent trace is a tree rooted at `root`: `depth` strictly drops
      from child to parent, each child is one full step from its parent
      along a carved corridor, and every node is a carved interior cell. */
  ghost predicate TraceTree(g: TileGrid, parent: map<Pos, Pos>, depth: map<Pos, nat>, root: Pos,
                            distance: nat, newType: TileTypeEnum)
    requires g.Valid()
  {
    && root in depth && root !in parent
    && depth.Keys == parent.Keys + {root}
    && DepthDrops(parent, depth)
    && (forall c | c in parent ::
          && IsStep(parent[c], c, distance)
          && Corridor(g, parent[c], c, distance, newType))
    && (forall c | c in depth :: Interior(g, c, distance) && c.x >= 1 && g.At(c) == newType)
  }

  ghost predicate DepthDrops(parent: map<Pos, Pos>, depth: map<Pos, nat>) {
    forall c | c in parent :: c in depth && parent[c] in depth && depth[parent[c]] < depth[c]
  }

  /** `c` and every node reached from it by following parents. */
  ghost function Ancestors(parent: map<Pos, Pos>, depth: map<Pos, nat>, c: Pos): set<Pos>
    requires DepthDrops(parent, depth) && c in depth
    decreases depth[c]
  {
    {c} + if c in parent then Ancestors(parent, depth, parent[c]) else {}
  }

  /** Adding a fresh leaf leaves the ancestors of existing nodes alone. */
  lemma {:induction false} AncestorsOfOldNode(parent: map<Pos, Pos>, depth: map<Pos, nat>,
                                             e: Pos, p: Pos, n: nat, c: Pos)
    requires DepthDrops(parent, depth) && e !in depth && e !in parent && p in depth
    requires DepthDrops(parent[e := p], depth[e := n])
    requires c in depth
    ensures Ancestors(parent[e := p], depth[e := n], c) == Ancestors(parent, depth, c)
    decreases depth[c]
  {
    if c in parent {
      AncestorsOfOldNode(parent, depth, e, p, n, parent[c]);
    }
  }

  /** Every node of the trace is still on the way back from `cur` or has no
      direction left to carve. */
  ghost predicate Frontier(g: TileGrid, parent: map<Pos, Pos>, depth: map<Pos, nat>, cur: Pos,
                           distance: nat, base: TileTypeEnum)
    requires g.Valid() && DepthDrops(parent, depth) && cur in depth
  {
    forall n | n in depth :: n in Ancestors(parent, depth, cur) || Exhausted(g, n, distance, base)
  }

  /** The carver's whole state invariant. */
  ghost predicate MazeState(g: TileGrid, parent: map<Pos, Pos>, depth: map<Pos, nat>, root: Pos, cur: Pos,
                            distance: nat, base: TileTypeEnum, newType: TileTypeEnum)
  {
    && g.Valid()
    && base != newType
    && BorderHolds(g, base, distance)
    && TraceTree(g, parent, depth, root, distance, newType)
    && cur in depth
    && Frontier(g, parent, depth, cur, distance, base)
  }

  /** `g2` only ever turned cells into `newType`. */
  ghost predicate OnlyCarved(g: TileGrid, g2: TileGrid, newType: TileTypeEnum)
    requires g.Valid() && g2.Valid()
  {
    SameShape(g, g2) && forall q | g.In(q) :: g2.At(q) == g.At(q) || g2.At(q) == newType
  }

  lemma OnlyCarvedChains(g: TileGrid, g2: TileGrid, g3: TileGrid, newType: TileTypeEnum)
    requires g.Valid() && g2.Valid() && g3.Valid()
    requires OnlyCarved(g, g2, newType) && OnlyCarved(g2, g3, newType)
    ensures OnlyCarved(g, g3, newType)
  {
  }

  /** `m2` keeps every entry of `m`. */
  ghost predicate Extends<K, V>(m: map<K, V>, m2: map<K, V>) {
    m.Keys <= m2.Keys && forall k | k in m :: m2[k] == m[k]
  }

  lemma ExtendsChains<K, V>(m: map<K, V>, k: K, v: V, m2: map<K, V>)
    requires k !in m && Extends(m[k := v], m2)
    ensures Extends(m, m2)
  {
    forall j | j in m ensures j in m2 && m2[j] == m[j] {
      assert j in m[k := v];
    }
  }

  /** `q` is one of the cells on the corridor from some traced cell's
      parent up to that cell. */
  ghost predicate OnTrace(parent: map<Pos, Pos>, distance: nat, q: Pos) {
    exists c, i | c in parent && 1 <= i <= distance :: q == Toward(parent[c], c, i)
  }

  /** Every cell `g2` holds differently from `g` lies on a corridor of
      `parent`. */
  ghost predicate ChangedOnTrace(g: TileGrid, g2: TileGrid, parent: map<Pos, Pos>, distance: nat)
    requires g.Valid() && g2.Valid() && SameShape(g, g2)
  {
    forall q | g.In(q) && g2.At(q) != g.At(q) :: OnTrace(parent, distance, q)
  }

  lemma OnTraceGrows(parent: map<Pos, Pos>, parent2: map<Pos, Pos>, distance: nat, q: Pos)
    requires Extends(parent, parent2) && OnTrace(parent, distance, q)
    ensures OnTrace(parent2, distance, q)
  {
    var c, i :| c in parent && 1 <= i <= distance && q == Toward(parent[c], c, i);
    assert c in parent2 && parent2[c] == parent[c];
  }

  /** Two stretches of carving, each confined to its trace, are together
      confined to the later, larger trace. */
  lemma ChangedOnTraceChains(g: TileGrid, g3: TileGrid, g2: TileGrid,
                             parent3: map<Pos, Pos>, parent2: map<Pos, Pos>, distance: nat)
    requires g.Valid() && g3.Valid() && g2.Valid() && SameShape(g, g3) && SameShape(g3, g2)
    requires ChangedOnTrace(g, g3, parent3, distance) && ChangedOnTrace(g3, g2, parent2, distance)
    requires Extends(parent3, parent2)
    ensures ChangedOnTrace(g, g2, parent2, distance)
  {
    forall q | g.In(q) && g2.At(q) != g.At(q) ensures OnTrace(parent2, distance, q) {
      if g3.At(q) != g.At(q) {
        OnTraceGrows(parent3, parent2, distance, q);
      }
    }
  }

  // ---------------------------------------------------------------------
  // Carving

  /** The cells one step carves: 1 .. `distance` cells along `d`. */
  function Stretch(p: Pos, d: Direction, distance: nat): (s: seq<Pos>)
    ensures |s| == distance
    ensures forall i | 0 <= i < distance :: s[i] == Step(p, d, i + 1)
  {
    seq(distance, i => Step(p, d, i + 1))
  }

  /** `g2` has a `base` cell only where `g` had one. */
  ghost predicate BaseShrinks(g: TileGrid, g2: TileGrid, base: TileTypeEnum)
    requires g.Valid() && g2.Valid()
  {
    SameShape(g, g2) && forall q | g2.In(q) && g2.At(q) == base :: g.At(q) == base
  }

  lemma BaseShrinkKeepsBorder(g: TileGrid, g2: TileGrid, base: TileTypeEnum, distance: nat)
    requires g.Valid() && g2.Valid() && BaseShrinks(g, g2, base)
    requires BorderHolds(g, base, distance)
    ensures BorderHolds(g2, base, distance)
  {
    forall q | g2.In(q) && g2.At(q) == base ensures Interior(g2, q, distance) {
      assert Interior(g, q, distance);
    }
  }

  /** Once a cell has no direction left, losing `base` cells cannot give it one. */
  lemma BaseShrinkKeepsExhausted(g: TileGrid, g2: TileGrid, base: TileTypeEnum, distance: nat, n: Pos)
    requires g.Valid() && g2.Valid() && BaseShrinks(g, g2, base)
    requires Exhausted(g, n, distance, base)
    ensures Exhausted(g2, n, distance, base)
  {
    forall d: Direction | g2.In(Step(n, d, distance)) ensures g2.At(Step(n, d, distance)) != base {
      assert g.In(Step(n, d, distance));
    }
  }

  /** A carved corridor stays carved when later steps only add `newType`. */
  lemma CorridorPersists(g: TileGrid, g2: TileGrid, p: Pos, c: Pos, distance: nat, newType: TileTypeEnum)
    requires g.Valid() && g2.Valid() && OnlyCarved(g, g2, newType)
    requires Corridor(g, p, c, distance, newType)
    ensures Corridor(g2, p, c, distance, newType)
  {
    forall i | 1 <= i <= distance ensures g2.In(Toward(p, c, i)) && g2.At(Toward(p, c, i)) == newType {
      assert g.In(Toward(p, c, i));
    }
  }

  /** The step just carved from `cur` is a corridor to its endpoint. */
  lemma NewCorridor(g2: TileGrid, cur: Pos, d: Direction, distance: nat, newType: TileTypeEnum)
    requires g2.Valid() && distance >= 1
    requires forall i | 1 <= i <= distance :: g2.In(Step(cur, d, i)) && g2.At(Step(cur, d, i)) == newType
    ensures Corridor(g2, cur, Step(cur, d, distance), distance, newType)
    ensures IsStep(cur, Step(cur, d, distance), distance)
  {
    forall i | 1 <= i <= distance
      ensures g2.In(Toward(cur, Step(cur, d, distance), i))
      ensures g2.At(Toward(cur, Step(cur, d, distance), i)) == newType
    {
      TowardIsStep(cur, d, distance, i);
    }
  }

  /** Every edge of the trace, the new one included, is still a corridor. */
  lemma CarveKeepsCorridors(g: TileGrid, g2: TileGrid, parent: map<Pos, Pos>, parent2: map<Pos, Pos>,
                            cur: Pos, e: Pos, distance: nat, newType: TileTypeEnum)
    requires g.Valid() && g2.Valid() && OnlyCarved(g, g2, newType)
    requires forall c | c in parent :: IsStep(parent[c], c, distance) && Corridor(g, parent[c], c, distance, newType)
    requires Corridor(g2, cur, e, distance, newType) && IsStep(cur, e, distance)
    requires parent2 == parent[e := cur]
    ensures forall c | c in parent2 :: IsStep(parent2[c], c, distance) && Corridor(g2, parent2[c], c, distance, newType)
  {
    forall c | c in parent2 ensures IsStep(parent2[c], c, distance) && Corridor(g2, parent2[c], c, distance, newType) {
      if c != e {
        CorridorPersists(g, g2, parent[c], c, distance, newType);
      }
    }
  }

  /** Every node of the trace, the new one included, is still a carved
      interior cell. */
  lemma CarveKeepsNodes(g: TileGrid, g2: TileGrid, depth: map<Pos, nat>, depth2: map<Pos, nat>, e: Pos,
                        distance: nat, newType: TileTypeEnum)
    requires g.Valid() && g2.Valid() && SameShape(g, g2) && OnlyCarved(g, g2, newType)
    requires forall c | c in depth :: Interior(g, c, distance) && c.x >= 1 && g.At(c) == newType
    requires Interior(g, e, distance) && e.x >= 1 && g2.In(e) && g2.At(e) == newType
    requires depth2.Keys == depth.Keys + {e}
    ensures forall c | c in depth2 :: Interior(g2, c, distance) && c.x >= 1 && g2.At(c) == newType
  {
    forall c | c in depth2 ensures Interior(g2, c, distance) && c.x >= 1 && g2.At(c) == newType {
      if c != e {
        assert Interior(g, c, distance);
      }
    }
  }

  /** Hanging a new node `e` under `cur` keeps the root, the key sets and
      the depth ordering of the trace. */
  lemma HangKeepsShape(parent: map<Pos, Pos>, depth: map<Pos, nat>, root: Pos, cur: Pos, e: Pos)
    requires root in depth && root !in parent && depth.Keys == parent.Keys + {root}
    requires DepthDrops(parent, depth) && cur in depth && e !in depth
    ensures root in depth[e := depth[cur] + 1] && root !in parent[e := cur]
    ensures depth[e := depth[cur] + 1].Keys == parent[e := cur].Keys + {root}
    ensures DepthDrops(parent[e := cur], depth[e := depth[cur] + 1])
  {
  }

  /** Hanging the carved endpoint `e` under `cur` keeps the trace a tree. */
  lemma CarveKeepsTree(g: TileGrid, g2: TileGrid, parent: map<Pos, Pos>, depth: map<Pos, nat>,
                       root: Pos, cur: Pos, d: Direction, distance: nat, newType: TileTypeEnum)
    requires g.Valid() && g2.Valid() && SameShape(g, g2) && OnlyCarved(g, g2, newType)
    requires TraceTree(g, parent, depth, root, distance, newType)
    requires cur in depth && distance >= 1
    requires Step(cur, d, distance) !in depth && Interior(g, Step(cur, d, distance), distance)
    requires g2.In(Step(cur, d, distance)) && g2.At(Step(cur, d, distance)) == newType
    requires Corridor(g2, cur, Step(cur, d, distance), distance, newType)
    requires IsStep(cur, Step(cur, d, distance), distance)
    ensures TraceTree(g2, parent[Step(cur, d, distance) := cur],
                      depth[Step(cur, d, distance) := depth[cur] + 1], root, distance, newType)
  {
    var e := Step(cur, d, distance);
    assert e.x >= 1;
    HangKeepsShape(parent, depth, root, cur, e);
    CarveKeepsCorridors(g, g2, parent, parent[e := cur], cur, e, distance, newType);
    CarveKeepsNodes(g, g2, depth, depth[e := depth[cur] + 1], e, distance, newType);
  }

  /** Hanging `e` under `cur` leaves every old node's ancestors alone, and
      `e`'s are `e` and `cur`'s. */
  lemma AncestorsAfterHang(parent: map<Pos, Pos>, depth: map<Pos, nat>, parent2: map<Pos, Pos>,
                           depth2: map<Pos, nat>, cur: Pos, e: Pos)
    requires DepthDrops(parent, depth) && cur in depth && e !in depth
    requires parent2 == parent[e := cur] && depth2 == depth[e := depth[cur] + 1]
    ensures DepthDrops(parent2, depth2)
    ensures forall n | n in depth :: Ancestors(parent2, depth2, n) == Ancestors(parent, depth, n)
    ensures Ancestors(parent2, depth2, e) == {e} + Ancestors(parent, depth, cur)
  {
    HangKeepsDepthDrops(parent, depth, cur, e);
    forall n | n in depth ensures Ancestors(parent2, depth2, n) == Ancestors(parent, depth, n) {
      AncestorsOfOldNode(parent, depth, e, cur, depth[cur] + 1, n);
    }
    assert Ancestors(parent2, depth2, e) == {e} + Ancestors(parent2, depth2, cur);
  }

  lemma HangKeepsDepthDrops(parent: map<Pos, Pos>, depth: map<Pos, nat>, cur: Pos, e: Pos)
    requires DepthDrops(parent, depth) && cur in depth && e !in depth
    ensures DepthDrops(parent[e := cur], depth[e := depth[cur] + 1])
  {
  }

  /** After hanging `e` under `cur`, walking back from `e` covers what
      walking back from `cur` covered, and `e` itself. */
  lemma CarveMovesFrontier(g: TileGrid, g2: TileGrid, parent: map<Pos, Pos>, depth: map<Pos, nat>,
                           cur: Pos, e: Pos, distance: nat, base: TileTypeEnum)
    requires g.Valid() && g2.Valid() && BaseShrinks(g, g2, base)
    requires DepthDrops(parent, depth) && cur in depth && e !in depth
    requires Frontier(g, parent, depth, cur, distance, base)
    ensures DepthDrops(parent[e := cur], depth[e := depth[cur] + 1])
    ensures Frontier(g2, parent[e := cur], depth[e := depth[cur] + 1], e, distance, base)
  {
    var parent2, depth2 := parent[e := cur], depth[e := depth[cur] + 1];
    AncestorsAfterHang(parent, depth, parent2, depth2, cur, e);
    forall n | n in depth2
      ensures n in Ancestors(parent2, depth2, e) || Exhausted(g2, n, distance, base)
    {
      if n != e && n !in Ancestors(parent, depth, cur) {
        BaseShrinkKeepsExhausted(g, g2, base, distance, n);
      }
    }
  }

  /** One carving step of `build_path_from_position`: write `newType` over
      the `distance` cells towards the endpoint, which held `base`, and
      record `cur` as the endpoint's parent. The number of `base` cells
      drops by at least one. */
  method CarveStep(g: TileGrid, parent: map<Pos, Pos>, ghost depth: map<Pos, nat>, ghost root: Pos,
                   cur: Pos, d: Direction, distance: nat, base: TileTypeEnum, newType: TileTypeEnum)
    returns (g2: TileGrid, parent2: map<Pos, Pos>, e: Pos, ghost depth2: map<Pos, nat>)
    requires MazeState(g, parent, depth, root, cur, distance, base, newType)
    requires g.At(Step(cur, d, distance)) == base
    ensures g2.Valid() && OnlyCarved(g, g2, newType)
    ensures forall q | g.In(q) :: g2.At(q) == if q in Stretch(cur, d, distance) then newType else g.At(q)
    ensures ChangedOnTrace(g, g2, parent2, distance)
    ensures e == Step(cur, d, distance) && e !in depth && parent2 == parent[e := cur]
    ensures g.At(e) == base && g2.At(e) == newType
    ensures |CellsOf(g2, base)| < |CellsOf(g, base)|
    ensures depth2 == depth[e := depth[cur] + 1]
    ensures MazeState(g2, parent2, depth2, root, e, distance, base, newType)
  {
    e := Step(cur, d, distance);
    StretchInside(g, parent, depth, root, cur, d, distance, base, newType);
    g2 := WriteAll(g, Stretch(cur, d, distance), newType);
    parent2 := parent[e := cur];
    depth2 := depth[e := depth[cur] + 1];
    CarveFrame(g, g2, parent, cur, d, distance, newType);
    CarveFacts(g, g2, parent, depth, root, cur, d, distance, base, newType);
  }

  /** Every cell of the stretch is inside the grid. */
  lemma StretchInside(g: TileGrid, parent: map<Pos, Pos>, depth: map<Pos, nat>, root: Pos,
                      cur: Pos, d: Direction, distance: nat, base: TileTypeEnum, newType: TileTypeEnum)
    requires MazeState(g, parent, depth, root, cur, distance, base, newType)
    ensures forall i | 0 <= i < |Stretch(cur, d, distance)| :: g.In(Stretch(cur, d, distance)[i])
  {
    var stretch := Stretch(cur, d, distance);
    forall i | 0 <= i < distance ensures g.In(stretch[i]) {
      InteriorStepIn(g, cur, d, distance, i + 1);
    }
  }

  /** Writing the stretch changes only its cells, which lie on the new
      endpoint's corridor. */
  lemma CarveFrame(g: TileGrid, g2: TileGrid, parent: map<Pos, Pos>, cur: Pos, d: Direction,
                   distance: nat, newType: TileTypeEnum)
    requires g.Valid() && g2.Valid() && SameShape(g2, g)
    requires forall p | g2.In(p) :: g2.At(p) == if p in Stretch(cur, d, distance) then newType else g.At(p)
    ensures forall q | g.In(q) :: g2.At(q) == if q in Stretch(cur, d, distance) then newType else g.At(q)
    ensures ChangedOnTrace(g, g2, parent[Step(cur, d, distance) := cur], distance)
  {
    assert forall q | g.In(q) :: g2.In(q);
    StretchOnTrace(g, g2, parent, cur, d, distance, newType);
  }

  /** Writing the stretch only carves, shrinks the `base` cells and keeps
      the maze invariant one step on. */
  lemma CarveFacts(g: TileGrid, g2: TileGrid, parent: map<Pos, Pos>, depth: map<Pos, nat>, root: Pos,
                   cur: Pos, d: Direction, distance: nat, base: TileTypeEnum, newType: TileTypeEnum)
    requires MazeState(g, parent, depth, root, cur, distance, base, newType)
    requires g.At(Step(cur, d, distance)) == base
    requires g2.Valid() && SameShape(g2, g)
    requires forall p | g2.In(p) :: g2.At(p) == if p in Stretch(cur, d, distance) then newType else g.At(p)
    ensures OnlyCarved(g, g2, newType)
    ensures Step(cur, d, distance) !in depth && g2.At(Step(cur, d, distance)) == newType
    ensures |CellsOf(g2, base)| < |CellsOf(g, base)|
    ensures MazeState(g2, parent[Step(cur, d, distance) := cur], depth[Step(cur, d, distance) := depth[cur] + 1],
                      root, Step(cur, d, distance), distance, base, newType)
  {
    assert g.At(cur) == newType && Step(cur, d, distance) !in depth;
    CarveShrinksBase(g, g2, cur, d, distance, base, newType);
    CarveKeepsState(g, g2, parent, depth, root, cur, d, distance, base, newType);
  }

  /** The stretch towards the new endpoint is that endpoint's corridor. */
  lemma StretchOnTrace(g: TileGrid, g2: TileGrid, parent: map<Pos, Pos>, cur: Pos, d: Direction,
                       distance: nat, newType: TileTypeEnum)
    requires g.Valid() && g2.Valid() && SameShape(g, g2)
    requires forall q | g.In(q) :: g2.At(q) == if q in Stretch(cur, d, distance) then newType else g.At(q)
    ensures ChangedOnTrace(g, g2, parent[Step(cur, d, distance) := cur], distance)
  {
    var e := Step(cur, d, distance);
    var parent2 := parent[e := cur];
    forall q | g.In(q) && g2.At(q) != g.At(q) ensures OnTrace(parent2, distance, q) {
      var k :| 0 <= k < distance && Stretch(cur, d, distance)[k] == q;
      TowardIsStep(cur, d, distance, k + 1);
      assert q == Toward(parent2[e], e, k + 1);
    }
  }

  /** What writing the stretch does to the `base` cells: only they lose
      their tag, the endpoint among them. */
  lemma CarveShrinksBase(g: TileGrid, g2: TileGrid, cur: Pos, d: Direction, distance: nat,
                         base: TileTypeEnum, newType: TileTypeEnum)
    requires g.Valid() && base != newType && distance >= 1
    requires g.In(Step(cur, d, distance)) && g.At(Step(cur, d, distance)) == base
    requires g2.Valid() && SameShape(g2, g)
    requires forall p | g2.In(p) :: g2.At(p) == if p in Stretch(cur, d, distance) then newType else g.At(p)
    ensures OnlyCarved(g, g2, newType) && BaseShrinks(g, g2, base)
    ensures g2.At(Step(cur, d, distance)) == newType
    ensures |CellsOf(g2, base)| < |CellsOf(g, base)|
  {
    var e := Step(cur, d, distance);
    assert e == Stretch(cur, d, distance)[distance - 1];
    CellsOfShrinkStrictly(g, g2, base, e);
  }

  /** Writing the stretch and hanging its endpoint under `cur` keeps the
      carver's invariant, with the endpoint as the new current cell. */
  lemma CarveKeepsState(g: TileGrid, g2: TileGrid, parent: map<Pos, Pos>, depth: map<Pos, nat>, root: Pos,
                        cur: Pos, d: Direction, distance: nat, base: TileTypeEnum, newType: TileTypeEnum)
    requires MazeState(g, parent, depth, root, cur, distance, base, newType)
    requires g.At(Step(cur, d, distance)) == base
    requires g2.Valid() && SameShape(g2, g)
    requires forall p | g2.In(p) :: g2.At(p) == if p in Stretch(cur, d, distance) then newType else g.At(p)
    requires OnlyCarved(g, g2, newType) && BaseShrinks(g, g2, base)
    requires Step(cur, d, distance) !in depth && g2.At(Step(cur, d, distance)) == newType
    ensures MazeState(g2, parent[Step(cur, d, distance) := cur], depth[Step(cur, d, distance) := depth[cur] + 1],
                      root, Step(cur, d, distance), distance, base, newType)
  {
    var e := Step(cur, d, distance);
    var stretch := Stretch(cur, d, distance);
    BaseShrinkKeepsBorder(g, g2, base, distance);
    forall i | 1 <= i <= distance ensures g2.In(Step(cur, d, i)) && g2.At(Step(cur, d, i)) == newType {
      assert stretch[i - 1] == Step(cur, d, i);
    }
    NewCorridor(g2, cur, d, distance, newType);
    CarveKeepsTree(g, g2, parent, depth, root, cur, d, distance, newType);
    CarveMovesFrontier(g, g2, parent, depth, cur, e, distance, base);
  }

  /** `build_path_from_position`: carve from `cur` in shuffled directions
      until no direction's endpoint holds `base`; return where it stopped.
      The source's `while not path_done` loop is written as recursion on
      the number of `base` cells left. */
  method BuildPath(g: TileGrid, parent: map<Pos, Pos>, ghost depth: map<Pos, nat>, ghost root: Pos,
                   cur: Pos, distance: nat, base: TileTypeEnum, newType: TileTypeEnum, rng: Rng)
    returns (g2: TileGrid, parent2: map<Pos, Pos>, stop: Pos, rng2: Rng, ghost depth2: map<Pos, nat>)
    requires MazeState(g, parent, depth, root, cur, distance, base, newType)
    ensures MazeState(g2, parent2, depth2, root, stop, distance, base, newType)
    ensures OnlyCarved(g, g2, newType) && ChangedOnTrace(g, g2, parent2, distance)
    ensures Exhausted(g2, stop, distance, base)
    ensures Extends(parent, parent2) && Extends(depth, depth2)
    ensures forall c | c in parent2 && c !in parent :: g.In(c) && g.At(c) == base
    ensures |CellsOf(g2, base)| <= |CellsOf(g, base)|
    ensures stop == cur || |CellsOf(g2, base)| < |CellsOf(g, base)|
    ensures rng2.source == rng.source && rng2.next > rng.next
    decreases |CellsOf(g, base)|
  {
    var probe := RandomValidDirection(g, cur, distance, base, rng);
    match probe.0 {
      case None =>
        g2, parent2, stop, rng2, depth2 := g, parent, cur, probe.1, depth;
      case Some(d) =>
        var g3, parent3, e;
        ghost var depth3;
        g3, parent3, e, depth3 := CarveStep(g, parent, depth, root, cur, d, distance, base, newType);
        g2, parent2, stop, rng2, depth2 := BuildPath(g3, parent3, depth3, root, e, distance, base, newType, probe.1);
        CarveThenBuild(g, g3, g2, parent, parent2, depth, depth2, cur, e, base, newType);
        ChangedOnTraceChains(g, g3, g2, parent3, parent2, distance);
    }
  }

  /** The bookkeeping that chains one carving step with the carving after
      it: both only add `newType`, both only extend the trace, and every
      cell newly traced held `base` at the start. */
  lemma CarveThenBuild(g: TileGrid, g3: TileGrid, g2: TileGrid, parent: map<Pos, Pos>, parent2: map<Pos, Pos>,
                       depth: map<Pos, nat>, depth2: map<Pos, nat>, cur: Pos, e: Pos,
                       base: TileTypeEnum, newType: TileTypeEnum)
    requires g.Valid() && g3.Valid() && g2.Valid() && base != newType
    requires OnlyCarved(g, g3, newType) && OnlyCarved(g3, g2, newType)
    requires cur in depth && e !in depth && e !in parent && g.In(e) && g.At(e) == base
    requires Extends(parent[e := cur], parent2) && Extends(depth[e := depth[cur] + 1], depth2)
    requires forall c | c in parent2 && c !in parent[e := cur] :: g3.In(c) && g3.At(c) == base
    ensures OnlyCarved(g, g2, newType)
    ensures Extends(parent, parent2) && Extends(depth, depth2)
    ensures forall c | c in parent2 && c !in parent :: g.In(c) && g.At(c) == base
  {
    OnlyCarvedChains(g, g3, g2, newType);
    ExtendsChains(parent, e, cur, parent2);
    ExtendsChains(depth, e, depth[cur] + 1, depth2);
    forall c | c in parent2 && c !in parent ensures g.In(c) && g.At(c) == base {
      BaseWasBase(g, g3, c, base, newType);
    }
  }

  /** `not x and not y` on a parent entry: true for the root's
      `(None, None)` and, as Python's truthiness has it, for `(0, 0)`. */
  predicate EndsBacktracking(next: Option<Pos>) {
    next.None? || (next.value.x == 0 && next.value.y == 0)
  }

  /** The `while not maze_done` loop of `generate_maze`: resume carving from
      `current`, then back up to the parent of the cell where carving
      stopped, until that cell has no parent. Written as recursion on the
      number of `base` cells left and, when none was carved, on the depth
      of `current` in the trace. */
  method Backtrack(g: TileGrid, parent: map<Pos, Pos>, ghost depth: map<Pos, nat>, ghost root: Pos,
                   current: Pos, distance: nat, base: TileTypeEnum, newType: TileTypeEnum, rng: Rng)
    returns (g2: TileGrid, parent2: map<Pos, Pos>, rng2: Rng, ghost depth2: map<Pos, nat>)
    requires MazeState(g, parent, depth, root, current, distance, base, newType)
    ensures g2.Valid() && OnlyCarved(g, g2, newType) && ChangedOnTrace(g, g2, parent2, distance)
    ensures TraceTree(g2, parent2, depth2, root, distance, newType)
    ensures Extends(parent, parent2)
    ensures forall c | c in parent2 && c !in parent :: g.In(c) && g.At(c) == base
    ensures forall n | n in depth2 :: Exhausted(g2, n, distance, base)
    ensures rng2.source == rng.source
    decreases |CellsOf(g, base)|, depth[current], 1
  {
    var stop, g3, parent3, rng3;
    ghost var depth3;
    g3, parent3, stop, rng3, depth3 := BuildPath(g, parent, depth, root, current, distance, base, newType, rng);
    g2, parent2, rng2, depth2 := BacktrackFrom(g3, parent3, depth3, root, stop, distance, base, newType, rng3);
    TraceChains(g, g3, g2, parent, parent3, parent2, base, newType);
    ChangedOnTraceChains(g, g3, g2, parent3, parent2, distance);
  }

  /** One backing-up step of the loop: carving stopped at the exhausted
      cell `stop`; continue from its parent, or finish when it has none. */
  method BacktrackFrom(g: TileGrid, parent: map<Pos, Pos>, ghost depth: map<Pos, nat>, ghost root: Pos,
                       stop: Pos, distance: nat, base: TileTypeEnum, newType: TileTypeEnum, rng: Rng)
    returns (g2: TileGrid, parent2: map<Pos, Pos>, rng2: Rng, ghost depth2: map<Pos, nat>)
    requires MazeState(g, parent, depth, root, stop, distance, base, newType)
    requires Exhausted(g, stop, distance, base)
    ensures g2.Valid() && OnlyCarved(g, g2, newType) && ChangedOnTrace(g, g2, parent2, distance)
    ensures TraceTree(g2, parent2, depth2, root, distance, newType)
    ensures Extends(parent, parent2)
    ensures forall c | c in parent2 && c !in parent :: g.In(c) && g.At(c) == base
    ensures forall n | n in depth2 :: Exhausted(g2, n, distance, base)
    ensures rng2.source == rng.source
    decreases |CellsOf(g, base)|, depth[stop], 0
  {
    var next: Option<Pos> := if stop in parent then Some(parent[stop]) else None;
    StepBack(g, parent, depth, root, stop, distance, base, newType);
    if !EndsBacktracking(next) {
      g2, parent2, rng2, depth2 := Backtrack(g, parent, depth, root, parent[stop], distance, base, newType, rng);
    } else {
      FrontierAtRoot(g, parent, depth, stop, distance, base);
      g2, parent2, rng2, depth2 := g, parent, rng, depth;
    }
  }

  /** Backing up from an exhausted cell to its parent keeps the carver's
      invariant; the parent is never the source's falsy `(0, 0)`. */
  lemma StepBack(g: TileGrid, parent: map<Pos, Pos>, depth: map<Pos, nat>, root: Pos, stop: Pos,
                 distance: nat, base: TileTypeEnum, newType: TileTypeEnum)
    requires MazeState(g, parent, depth, root, stop, distance, base, newType)
    requires Exhausted(g, stop, distance, base)
    ensures stop in parent ==> parent[stop].x >= 1 && depth[parent[stop]] < depth[stop]
    ensures stop in parent ==> MazeState(g, parent, depth, root, parent[stop], distance, base, newType)
  {
    if stop in parent {
      assert Ancestors(parent, depth, stop) == {stop} + Ancestors(parent, depth, parent[stop]);
    }
  }

  /** `generate_maze`: carve the start cell and from it, then backtrack
      until the root is reached. Returns the grid and the parent trace.

      When it returns, every traced cell (the start and every endpoint)
      holds `newType`, each endpoint is one full step from its parent
      along a carved corridor and held `base` before the call, and no
      traced cell has a direction left whose endpoint holds `base`. */
  method GenerateMaze(g: TileGrid, base: TileTypeEnum, newType: TileTypeEnum, distance: nat, start: Pos, rng: Rng)
    returns (r: TileGrid, parent: map<Pos, Pos>, rng2: Rng)
    requires g.Valid() && base != newType
    requires BorderHolds(g, base, distance)
    requires g.In(start) && start.x >= 1 && start.y >= 1 && g.At(start) == base
    ensures r.Valid() && OnlyCarved(g, r, newType)
    ensures r.At(start) == newType && start !in parent
    ensures forall c | c in parent ::
      && g.In(c) && g.At(c) == base && r.At(c) == newType
      && (parent[c] == start || parent[c] in parent)
      && IsStep(parent[c], c, distance)
      && Corridor(r, parent[c], c, distance, newType)
    ensures forall c | c in parent || c == start :: Exhausted(r, c, distance, base)
    ensures forall q | g.In(q) && r.At(q) != g.At(q) :: q == start || OnTrace(parent, distance, q)
    ensures rng2.source == rng.source
  {
    var g1 := g.Set(start, newType);
    StartState(g, g1, start, distance, base, newType);
    var g2, parent2, stop, rng3;
    ghost var depth2;
    g2, parent2, stop, rng3, depth2 := BuildPath(g1, map[], map[start := 0], start, start, distance, base, newType, rng);
    ghost var depth;
    r, parent, rng2, depth := Backtrack(g2, parent2, depth2, start, stop, distance, base, newType, rng3);
    TraceChains(g1, g2, r, map[], parent2, parent, base, newType);
    MazeOutcome(g, g1, r, parent, depth, start, distance, base, newType);
    ChangedOnTraceChains(g1, g2, r, parent2, parent, distance);
    StartThenTrace(g, g1, r, parent, start, distance, newType);
  }

  /** Past the start cell, the carving changed only cells on the trace. */
  lemma StartThenTrace(g: TileGrid, g1: TileGrid, r: TileGrid, parent: map<Pos, Pos>, start: Pos,
                       distance: nat, newType: TileTypeEnum)
    requires g.Valid() && g.In(start) && g1 == g.Set(start, newType)
    requires r.Valid() && SameShape(g1, r) && ChangedOnTrace(g1, r, parent, distance)
    ensures forall q | g.In(q) && r.At(q) != g.At(q) :: q == start || OnTrace(parent, distance, q)
  {
    forall q | g.In(q) && r.At(q) != g.At(q) && q != start ensures OnTrace(parent, distance, q) {
      assert g1.At(q) == g.At(q);
    }
  }

  /** Two stretches of carving chain: the grid only gains `newType`, the
      trace only grows, and every cell traced held `base` to begin with. */
  lemma TraceChains(g: TileGrid, g3: TileGrid, g2: TileGrid,
                    parent: map<Pos, Pos>, parent3: map<Pos, Pos>, parent2: map<Pos, Pos>,
                    base: TileTypeEnum, newType: TileTypeEnum)
    requires g.Valid() && g3.Valid() && g2.Valid() && base != newType
    requires OnlyCarved(g, g3, newType) && OnlyCarved(g3, g2, newType)
    requires Extends(parent, parent3) && Extends(parent3, parent2)
    requires forall c | c in parent3 && c !in parent :: g.In(c) && g.At(c) == base
    requires forall c | c in parent2 && c !in parent3 :: g3.In(c) && g3.At(c) == base
    ensures OnlyCarved(g, g2, newType) && Extends(parent, parent2)
    ensures forall c | c in parent2 && c !in parent :: g.In(c) && g.At(c) == base
  {
    OnlyCarvedChains(g, g3, g2, newType);
    forall c | c in parent2 && c !in parent ensures g.In(c) && g.At(c) == base {
      BaseWasBase(g, g3, c, base, newType);
    }
  }

  /** Carving only adds `newType`, so a `base` cell after it was one before. */
  lemma BaseWasBase(g: TileGrid, g3: TileGrid, c: Pos, base: TileTypeEnum, newType: TileTypeEnum)
    requires g.Valid() && g3.Valid() && OnlyCarved(g, g3, newType) && base != newType
    ensures g3.In(c) && g3.At(c) == base ==> g.In(c) && g.At(c) == base
  {
  }

  /** What `generate_maze` leaves behind, read off the final trace. */
  lemma MazeOutcome(g: TileGrid, g1: TileGrid, r: TileGrid, parent: map<Pos, Pos>, depth: map<Pos, nat>,
                    start: Pos, distance: nat, base: TileTypeEnum, newType: TileTypeEnum)
    requires g.Valid() && g1.Valid() && r.Valid() && base != newType
    requires g.In(start) && g1 == g.Set(start, newType)
    requires OnlyCarved(g1, r, newType)
    requires TraceTree(r, parent, depth, start, distance, newType)
    requires forall c | c in parent :: g1.In(c) && g1.At(c) == base
    requires forall n | n in depth :: Exhausted(r, n, distance, base)
    ensures OnlyCarved(g, r, newType)
    ensures r.At(start) == newType && start !in parent
    ensures forall c | c in parent ::
      && g.In(c) && g.At(c) == base && r.At(c) == newType
      && (parent[c] == start || parent[c] in parent)
      && IsStep(parent[c], c, distance)
      && Corridor(r, parent[c], c, distance, newType)
    ensures forall c | c in parent || c == start :: Exhausted(r, c, distance, base)
  {
    SetThenCarved(g, g1, r, start, newType);
    TracedWereBase(g, g1, parent, start, base, newType);
  }

  /** Setting the start cell and carving from it only ever wrote `newType`. */
  lemma SetThenCarved(g: TileGrid, g1: TileGrid, r: TileGrid, start: Pos, newType: TileTypeEnum)
    requires g.Valid() && g1.Valid() && r.Valid() && g.In(start) && g1 == g.Set(start, newType)
    requires OnlyCarved(g1, r, newType)
    ensures OnlyCarved(g, r, newType)
  {
    forall q | g.In(q) ensures r.At(q) == g.At(q) || r.At(q) == newType {
      assert r.At(q) == g1.At(q) || r.At(q) == newType;
    }
  }

  /** A cell that held `base` after the start was set held it before. */
  lemma TracedWereBase(g: TileGrid, g1: TileGrid, parent: map<Pos, Pos>, start: Pos,
                       base: TileTypeEnum, newType: TileTypeEnum)
    requires g.Valid() && g.In(start) && g1 == g.Set(start, newType) && base != newType
    requires forall c | c in parent :: g1.In(c) && g1.At(c) == base
    ensures forall c | c in parent :: g.In(c) && g.At(c) == base
  {
  }

  /** Back at a node without a parent that has no direction left, every
      node of the trace has none left. */
  lemma FrontierAtRoot(g: TileGrid, parent: map<Pos, Pos>, depth: map<Pos, nat>, stop: Pos,
                       distance: nat, base: TileTypeEnum)
    requires g.Valid() && DepthDrops(parent, depth) && stop in depth && stop !in parent
    requires Frontier(g, parent, depth, stop, distance, base)
    requires Exhausted(g, stop, distance, base)
    ensures forall n | n in depth :: Exhausted(g, n, distance, base)
  {
    assert Ancestors(parent, depth, stop) == {stop};
  }

  /** The state right after the start cell is carved: a one-node trace. */
  lemma StartState(g: TileGrid, g1: TileGrid, start: Pos, distance: nat, base: TileTypeEnum, newType: TileTypeEnum)
    requires g.Valid() && base != newType && BorderHolds(g, base, distance)
    requires g.In(start) && start.x >= 1 && g.At(start) == base
    requires g1 == g.Set(start, newType)
    ensures OnlyCarved(g, g1, newType)
    ensures MazeState(g1, map[], map[start := 0], start, start, distance, base, newType)
  {
    assert BaseShrinks(g, g1, base);
    BaseShrinkKeepsBorder(g, g1, base, distance);
    assert Ancestors(map[], map[start := 0], start) == {start};
  }
}

=== FILE: outcomes.dfy ===
/** Failure-carrying results shared by every stage of level generation.

    The source ends with Python exceptions, raised explicitly or by a
    built-in (`min` of an empty list, a missing dictionary key); each kind
    becomes one `Failure` constructor so that callers can see which check
    fired. */
module Outcomes {

  /** Why an operation gave up. */
  datatype Failure =
    /** grid dimensions are not multiples of four (ValueError in the level grid) */
    | InvalidDimensions
    /** a percentage or scale factor outside its accepted range, or an empty
        range for the maze start draw (ValueError) */
    | InvalidParameter
    /** a string that names no member of an enumeration (ValueError) */
    | UnrecognisedValue(value: string)
    /** `min` of an empty candidate list in the region selection (ValueError) */
    | NoCombination
    /** a type tag missing from a tile set's dictionary (KeyError) */
    | MissingTag
    /** a tile or decorator type defined twice in one tile set (ValueError) */
    | AlreadyDefined
    /** the decoration sweep did not stop within the sweeps the caller allowed */
    | SweepsExhausted

  datatype Option<+T> = None | Some(value: T)

  datatype Result<+T> = Ok(value: T) | Err(failure: Failure) {

    predicate IsFailure() {
      Err?
    }

    function PropagateFailure<U>(): Result<U>
      requires Err?
    {
      Err(failure)
    }

    function Extract(): T
      requires Ok?
    {
      value
    }
  }
}

=== FILE: pipeline.dfy ===
/** The maze level recipe: `MazeGenerator` and its `generate_grid`.

    The level grid demands dimensions that are multiples of four; the
    generator halves them, lines the border, carves a maze, bridges gaps,
    trims spurs, doubles the grid back to the requested size, floods a
    fifth of its area from interior blank regions with neon, grows walls
    and stone floors around the maze, turns the rest to snow, scatters
    trees over the snow and finally marks walls and stone floors as
    blocking in the collision grid. */
module Pipeline {
  import opened Outcomes
  import opened Grids
  import opened Draws
  import opened TileTypeEnums
  import opened Shaping
  import opened Maze
  import opened Bridging
  import opened Regions
  import opened Selection
  import opened Decorations

  /** What `generate_grid` hands back: the tile grid, the collision grid and
      the decorations. */
  datatype Level = Level(grid: TileGrid, collision: CollisionGrid, decorations: seq<Decoration>)

  /** Border thickness of `line_grid_edge` and step of the maze carver. */
  const MazeStep: nat := 5

  /** The cell the start-selection retry loop of `generate_maze` settles
      on: it only accepts a blank cell, and after the border lining those
      are the cells at least `MazeStep` from every edge of the halved grid. */
  predicate StartCell(halfWidth: int, halfHeight: int, start: Pos) {
    MazeStep <= start.x < halfWidth - MazeStep && MazeStep <= start.y < halfHeight - MazeStep
  }

  /** The two grids of `GridGenerator.__init__`: all blank, nothing blocking. */
  function NewGrids(width: nat, height: nat): (r: (TileGrid, CollisionGrid))
    ensures r.0.Valid() && r.1.Valid() && SameShape(r.0, r.1)
    ensures r.0.width == width && r.0.height == height
    ensures forall p | r.0.In(p) :: r.0.At(p) == Blank && !r.1.At(p)
  {
    (Filled(width, height, Blank), Filled(width, height, false))
  }

  /** The passes up to and including the upscaling, on the halved grid:
      line the border with blue, carve the maze in stone tiles, restore the
      blue to blank, bridge gaps, trim spurs over fifty passes, double. */
  method CarveAndScale(halfWidth: nat, halfHeight: nat, start: Pos, rng: Rng)
    returns (g: TileGrid, collision: CollisionGrid, rng2: Rng)
    requires StartCell(halfWidth, halfHeight, start)
    ensures g.Valid() && collision.Valid() && SameShape(g, collision)
    ensures g.width == 2 * halfWidth && g.height == 2 * halfHeight
    ensures forall p | collision.In(p) :: !collision.At(p)
    ensures rng2.source == rng.source
  {
    var (g0, c0) := NewGrids(halfWidth, halfHeight);
    var g1 := LineGridEdge(g0, BlueTile, MazeStep);
    LineGridEdgeBand(g0, BlueTile, MazeStep);
    assert g1.At(start) == Blank;
    var g2, _, rng1 := GenerateMaze(g1, Blank, StoneTiles, MazeStep, start, rng);
    var g3 := ReplaceType(g2, BlueTile, Blank);
    var g4, _, _, rng3 := BridgeGaps(g3, Blank, StoneTiles, StoneTiles, MazeStep, 500, rng1);
    var g5 := TrimEdges(g4, StoneTiles, Blank, 1, 50);
    var scaled := ScaleGridUp(g5, c0, 2);
    g, collision := scaled.value.0, scaled.value.1;
    UpscaleKeepsUniform(c0, 2, false);
    rng2 := rng3;
  }

  /** Every cell of every region in `regions` is a blank cell of `g`. */
  ghost predicate AllBlank(g: TileGrid, regions: seq<GridRegion>)
    requires g.Valid()
  {
    forall i, q | 0 <= i < |regions| && q in regions[i].positions :: g.In(q) && g.At(q) == Blank
  }

  /** `for item in regions_to_fill: item.replace_tiles(grid, NEON_TILE)`. */
  method FillRegions(g: TileGrid, regions: seq<GridRegion>) returns (r: TileGrid)
    requires g.Valid()
    requires AllBlank(g, regions)
    ensures r.Valid() && SameShape(r, g)
    ensures forall p | r.In(p) ::
      r.At(p) == if exists i | 0 <= i < |regions| :: p in regions[i].positions then NeonTile else g.At(p)
    ensures NeonOverBlank(g, r)
  {
    r := g;
    for k := 0 to |regions|
      invariant r.Valid() && SameShape(r, g)
      invariant forall p | r.In(p) ::
        r.At(p) == if exists i | 0 <= i < k :: p in regions[i].positions then NeonTile else g.At(p)
    {
      forall i | 0 <= i < |regions[k].positions| ensures r.In(regions[k].positions[i]) {
        assert regions[k].positions[i] in regions[k].positions;
        assert g.In(regions[k].positions[i]);
      }
      r := ReplaceTiles(regions[k], r, NeonTile);
      forall p | r.In(p) ensures
        r.At(p) == if exists i | 0 <= i < k + 1 :: p in regions[i].positions then NeonTile else g.At(p)
      {
        if p in regions[k].positions {
          assert exists i | 0 <= i < k + 1 :: p in regions[i].positions;
        }
      }
    }
    forall p | g.In(p) ensures r.At(p) == g.At(p) || (g.At(p) == Blank && r.At(p) == NeonTile) {
      if exists i | 0 <= i < |regions| :: p in regions[i].positions {
        var i :| 0 <= i < |regions| && p in regions[i].positions;
      }
    }
  }

  /** The regions the neon stage fills: blank regions of `g`, a fifth of
      its area picked from those that do not touch the edge. Fails as
      `get_regions_grid_percentage` does when fewer than two interior
      blank regions exist. */
  method PickRegionsToFill(g: TileGrid) returns (r: Result<seq<GridRegion>>)
    requires g.Valid()
    ensures r.Err? ==> r.failure == NoCombination
    ensures r.Ok? ==> 2 <= |r.value| <= 5 && AllBlank(g, r.value)
  {
    var regions := GetGridRegions(g, Blank);
    r := GetRegionsGridPercentage(g, regions, 20, true).0;
    if r.Ok? {
      PickedAreBlank(g, regions, r.value);
    }
  }

  /** The neon stage: the picked regions turned to neon. Only blank cells
      change, and only to neon. */
  method FillInterior(g: TileGrid) returns (r: Result<TileGrid>)
    requires g.Valid()
    ensures r.Err? ==> r.failure == NoCombination
    ensures r.Ok? ==> r.value.Valid() && SameShape(r.value, g)
    ensures r.Ok? ==> NeonOverBlank(g, r.value)
  {
    var picked := PickRegionsToFill(g);
    if picked.Err? {
      return Err(picked.failure);
    }
    var filled := FillRegions(g, picked.value);
    return Ok(filled);
  }

  /** `r` differs from `g` only where a blank cell became neon. */
  ghost predicate NeonOverBlank(g: TileGrid, r: TileGrid)
    requires g.Valid() && r.Valid() && SameShape(r, g)
  {
    forall p | g.In(p) :: r.At(p) == g.At(p) || (g.At(p) == Blank && r.At(p) == NeonTile)
  }

  /** Regions picked for filling are blank regions of `g`. */
  lemma PickedAreBlank(g: TileGrid, regions: seq<GridRegion>, picked: seq<GridRegion>)
    requires g.Valid()
    requires forall j | 0 <= j < |regions| :: regions[j].tileType == Blank && RegionShape(g, Blank, regions[j].positions)
    requires forall x | x in picked :: x in regions
    ensures AllBlank(g, picked)
  {
    forall i, q | 0 <= i < |picked| && q in picked[i].positions ensures g.In(q) && g.At(q) == Blank {
      assert picked[i] in regions;
      var j :| 0 <= j < |regions| && regions[j] == picked[i];
      assert RegionShape(g, Blank, regions[j].positions);
    }
  }

  /** The rim stage and the snow: walls around the stone tiles, stone floor
      around the walls, two more rings of stone floor, all grown into blank
      cells only; then every blank cell left becomes snow. */
  method RimAndSnow(g: TileGrid) returns (r: TileGrid)
    requires g.Valid()
    ensures r.Valid() && SameShape(r, g)
    ensures forall p | r.In(p) :: r.At(p) != Blank
    ensures forall p | r.In(p) :: g.At(p) != Blank ==> r.At(p) == g.At(p)
  {
    var g1 := AddRim(g, StoneTiles, WallTile, Some(Blank));
    var g2 := AddRim(g1, WallTile, StoneFloor, Some(Blank));
    var g3 := AddRim(g2, StoneFloor, StoneFloor, Some(Blank));
    var g4 := AddRim(g3, StoneFloor, StoneFloor, Some(Blank));
    r := ReplaceType(g4, Blank, SnowFloor);
    ReplaceTypeMovesCells(g4, Blank, SnowFloor);
    forall p | r.In(p) ensures r.At(p) != Blank {
      InCellsOf(r, Blank, p);
    }
  }

  /** One `decorations.extend(decorate_region_with_...)` per region, in
      order, each region decorated with trees at `sparsity` percent and
      the out-of-bounds flag set. When the regions share no cell, the
      trees standing on a region are exactly the ones its own call placed,
      so each region meets its quota. */
  method DecorateRegions(regions: seq<GridRegion>, sparsity: int, rng: Rng, fuel: nat)
    returns (r: Result<seq<Decoration>>, rng2: Rng)
    ensures r.Err? ==> r.failure in {InvalidParameter, SweepsExhausted}
    ensures r.Err? ==> sparsity < 0 || sparsity > 100 || r.failure == SweepsExhausted
    ensures r.Ok? ==> Tagged(r.value, Tree, true)
    ensures r.Ok? ==> forall d | d in r.value :: exists i | 0 <= i < |regions| :: d.pos in regions[i].positions
    ensures r.Ok? && RegionsApart(regions) ==> forall k | 0 <= k < |regions| ::
      EnoughDecorated(regions[k].positions, On(r.value, regions[k].positions), sparsity)
  {
    var all: seq<Decoration> := [];
    rng2 := rng;
    for k := 0 to |regions|
      invariant Tagged(all, Tree, true)
      invariant forall d | d in all :: exists i | 0 <= i < k :: d.pos in regions[i].positions
      invariant RegionsApart(regions) ==> RegionsDecorated(regions, k, all, sparsity)
    {
      var placed := DecorateRegion(regions[k].positions, Tree, sparsity, true, false, rng2, fuel);
      if placed.Err? {
        return Err(placed.failure), rng2;
      }
      DecorationsOnPositions(regions[k].positions, placed.value.remaining, placed.value.decorations);
      if RegionsApart(regions) {
        DecoratedStep(regions, k, all, placed.value.decorations, sparsity);
      }
      all := all + placed.value.decorations;
      rng2 := placed.value.rng;
    }
    return Ok(all), rng2;
  }

  /** Decorations accounted against a position list stand on it. */
  /** Each of the first `k` regions holds enough of the trees in `all`. */
  ghost predicate RegionsDecorated(regions: seq<GridRegion>, k: int, all: seq<Decoration>, sparsity: int)
    requires 0 <= k <= |regions|
  {
    forall i | 0 <= i < k :: EnoughDecorated(regions[i].positions, On(all, regions[i].positions), sparsity)
  }

  /** Appending region `k`'s trees leaves the earlier regions' trees as
      they were, since the regions are apart, and gives region `k` exactly
      its own trees. */
  lemma DecoratedStep(regions: seq<GridRegion>, k: int, all: seq<Decoration>, placed: seq<Decoration>,
                      sparsity: int)
    requires 0 <= k < |regions| && RegionsApart(regions)
    requires forall d | d in all :: exists i | 0 <= i < k :: d.pos in regions[i].positions
    requires forall d | d in placed :: d.pos in regions[k].positions
    requires EnoughDecorated(regions[k].positions, placed, sparsity)
    requires RegionsDecorated(regions, k, all, sparsity)
    ensures RegionsDecorated(regions, k + 1, all + placed, sparsity)
  {
    forall i | 0 <= i < k + 1
      ensures EnoughDecorated(regions[i].positions, On(all + placed, regions[i].positions), sparsity)
    {
      RegionDecoratedAfter(regions, i, k, all, placed, sparsity);
    }
  }

  /** `DecoratedStep` for one region `i` up to `k`. */
  lemma RegionDecoratedAfter(regions: seq<GridRegion>, i: int, k: int, all: seq<Decoration>,
                             placed: seq<Decoration>, sparsity: int)
    requires 0 <= k < |regions| && RegionsApart(regions)
    requires forall d | d in all :: exists i | 0 <= i < k :: d.pos in regions[i].positions
    requires forall d | d in placed :: d.pos in regions[k].positions
    requires EnoughDecorated(regions[k].positions, placed, sparsity)
    requires RegionsDecorated(regions, k, all, sparsity)
    requires 0 <= i <= k
    ensures EnoughDecorated(regions[i].positions, On(all + placed, regions[i].positions), sparsity)
  {
    if i < k {
      OnEarlierRegion(regions, i, k, all, placed);
      assert EnoughDecorated(regions[i].positions, On(all, regions[i].positions), sparsity);
    } else {
      OnNewestRegion(regions, k, all, placed);
    }
  }

  lemma OnEarlierRegion(regions: seq<GridRegion>, i: int, k: int, all: seq<Decoration>, placed: seq<Decoration>)
    requires 0 <= i < k < |regions| && RegionsApart(regions)
    requires forall d | d in placed :: d.pos in regions[k].positions
    ensures On(all + placed, regions[i].positions) == On(all, regions[i].positions)
  {
    var cells := regions[i].positions;
    OnAppend(all, placed, cells);
    assert Apart(cells, regions[k].positions);
    OnOutside(placed, cells);
    assert On(all + placed, cells) == On(all, cells) + [];
  }

  lemma OnNewestRegion(regions: seq<GridRegion>, k: int, all: seq<Decoration>, placed: seq<Decoration>)
    requires 0 <= k < |regions| && RegionsApart(regions)
    requires forall d | d in all :: exists i | 0 <= i < k :: d.pos in regions[i].positions
    requires forall d | d in placed :: d.pos in regions[k].positions
    ensures On(all + placed, regions[k].positions) == placed
  {
    var cells := regions[k].positions;
    OnAppend(all, placed, cells);
    forall d | d in all ensures d.pos !in cells {
      var j :| 0 <= j < k && d.pos in regions[j].positions;
      assert Apart(regions[j].positions, cells);
    }
    OnOutside(all, cells);
    OnInside(placed, cells);
    assert On(all + placed, cells) == [] + placed;
  }

  lemma DecorationsOnPositions(positions: seq<Pos>, remaining: seq<Pos>, decs: seq<Decoration>)
    requires Accounted(positions, remaining, decs)
    ensures forall d | d in decs :: d.pos in positions
  {
    forall d | d in decs ensures d.pos in positions {
      var i :| 0 <= i < |decs| && decs[i] == d;
      assert PositionsOf(decs)[i] == d.pos;
      assert d.pos in multiset(PositionsOf(decs));
      assert multiset(PositionsOf(decs)) <= multiset(positions);
      assert d.pos in multiset(positions);
    }
  }

  /** The snow stage: snow regions split by whether they touch the edge;
      trees at 25 percent on the exterior ones, then at 5 percent on the
      interior ones. `snow` is the labelling the stage works on. Every tree
      stands on a snow cell, and each snow region meets the quota of its
      side. */
  method DecorateSnow(g: TileGrid, rng: Rng, fuel: nat)
    returns (r: Result<seq<Decoration>>, rng2: Rng, ghost snow: seq<GridRegion>)
    requires g.Valid()
    ensures forall i | 0 <= i < |snow| :: RegionShape(g, SnowFloor, snow[i].positions)
    ensures RegionsApart(snow)
    ensures forall q | g.In(q) && g.At(q) == SnowFloor :: exists i | 0 <= i < |snow| :: q in snow[i].positions
    ensures r.Err? ==> r.failure == SweepsExhausted
    ensures r.Ok? ==> Tagged(r.value, Tree, true)
    ensures r.Ok? ==> forall d | d in r.value :: g.In(d.pos) && g.At(d.pos) == SnowFloor
    ensures r.Ok? ==> forall region | region in snow ::
      EnoughDecorated(region.positions, On(r.value, region.positions),
                      if IsRegionTouchingEdge(region, g) then 25 else 5)
  {
    var regions := GetGridRegions(g, SnowFloor);
    snow := regions;
    var (exterior, interior) := SplitByExteriorAndInteriorRegions(g, regions);
    SplitKeepsApart(g, regions);
    var outer, rng1 := DecorateRegions(exterior, 25, rng, fuel);
    if outer.Err? {
      r, rng2 := Err(outer.failure), rng1;
      return;
    }
    var inner;
    inner, rng2 := DecorateRegions(interior, 5, rng1, fuel);
    if inner.Err? {
      r := Err(inner.failure);
      return;
    }
    SplitMembers(g, regions);
    TreesOnSnow(g, snow, exterior, outer.value);
    TreesOnSnow(g, snow, interior, inner.value);
    forall region | region in snow
      ensures EnoughDecorated(region.positions, On(outer.value + inner.value, region.positions),
                              if IsRegionTouchingEdge(region, g) then 25 else 5)
    {
      SnowRegionDecorated(g, snow, exterior, interior, outer.value, inner.value, region);
    }
    r := Ok(outer.value + inner.value);
  }

  /** Trees standing on snow regions stand on snow cells. */
  lemma TreesOnSnow(g: TileGrid, snow: seq<GridRegion>, part: seq<GridRegion>, trees: seq<Decoration>)
    requires g.Valid()
    requires forall i | 0 <= i < |snow| :: RegionShape(g, SnowFloor, snow[i].positions)
    requires forall x | x in part :: x in snow
    requires forall d | d in trees :: exists i | 0 <= i < |part| :: d.pos in part[i].positions
    ensures forall d | d in trees :: g.In(d.pos) && g.At(d.pos) == SnowFloor
  {
    forall d | d in trees ensures g.In(d.pos) && g.At(d.pos) == SnowFloor {
      var i :| 0 <= i < |part| && d.pos in part[i].positions;
      assert part[i] in snow;
      var j :| 0 <= j < |snow| && snow[j] == part[i];
      assert RegionShape(g, SnowFloor, snow[j].positions);
    }
  }

  /** Trees standing on regions of an apart list other than `region` are
      not on `region`. */
  lemma TreesOffRegion(snow: seq<GridRegion>, part: seq<GridRegion>, trees: seq<Decoration>,
                       region: GridRegion)
    requires RegionsApart(snow) && region in snow
    requires forall x | x in part :: x in snow && x != region
    requires forall d | d in trees :: exists i | 0 <= i < |part| :: d.pos in part[i].positions
    ensures forall d | d in trees :: d.pos !in region.positions
  {
    forall d | d in trees ensures d.pos !in region.positions {
      var i :| 0 <= i < |part| && d.pos in part[i].positions;
      MembersApart(snow, part[i], region);
    }
  }

  /** A snow region touching the edge is one of the exterior regions and
      gets its trees from the first call alone; any other region is an
      interior one and gets them from the second call alone. */
  lemma SnowRegionDecorated(g: TileGrid, snow: seq<GridRegion>, exterior: seq<GridRegion>,
                            interior: seq<GridRegion>, outer: seq<Decoration>, inner: seq<Decoration>,
                            region: GridRegion)
    requires RegionsApart(snow) && region in snow
    requires (exterior, interior) == SplitByExteriorAndInteriorRegions(g, snow)
    requires forall k | 0 <= k < |exterior| :: EnoughDecorated(exterior[k].positions, On(outer, exterior[k].positions), 25)
    requires forall k | 0 <= k < |interior| :: EnoughDecorated(interior[k].positions, On(inner, interior[k].positions), 5)
    requires forall d | d in outer :: exists i | 0 <= i < |exterior| :: d.pos in exterior[i].positions
    requires forall d | d in inner :: exists i | 0 <= i < |interior| :: d.pos in interior[i].positions
    ensures EnoughDecorated(region.positions, On(outer + inner, region.positions),
                            if IsRegionTouchingEdge(region, g) then 25 else 5)
  {
    var cells := region.positions;
    OnAppend(outer, inner, cells);
    SplitMembers(g, snow);
    SplitSide(g, snow, region);
    if IsRegionTouchingEdge(region, g) {
      var k :| 0 <= k < |exterior| && exterior[k] == region;
      TreesOffRegion(snow, interior, inner, region);
      OnOutside(inner, cells);
      assert On(outer + inner, cells) == On(outer, cells) + [];
    } else {
      var k :| 0 <= k < |interior| && interior[k] == region;
      TreesOffRegion(snow, exterior, outer, region);
      OnOutside(outer, cells);
      assert On(outer + inner, cells) == [] + On(inner, cells);
    }
  }

  /** `Grid(width, height)` followed by `MazeGenerator(width, height).
      generate_grid()`: `start` is the cell the maze's start selection
      settles on and `fuel` bounds the sweeps of each decoration call.

      Fails with InvalidDimensions exactly when a dimension is not a
      multiple of four, and with InvalidParameter exactly when both are
      but one is not positive: the start selection's `randrange(1, n)`
      has nothing to draw from. On success both grids have the requested
      size, no cell is left blank, a cell blocks exactly when it holds a
      wall or a stone floor, every decoration is a tree on a snow cell,
      and each snow region (`snow`, the partition the decorator works on)
      holds its quota of trees. */
  method GenerateGrid(width: int, height: int, start: Pos, rng: Rng, fuel: nat)
    returns (r: Result<Level>, ghost snow: seq<GridRegion>)
    requires width > 0 && height > 0 && width % 4 == 0 && height % 4 == 0 ==> StartCell(width / 2, height / 2, start)
    ensures r == Err(InvalidDimensions) <==> width % 4 != 0 || height % 4 != 0
    ensures r == Err(InvalidParameter) <==> width % 4 == 0 && height % 4 == 0 && (width <= 0 || height <= 0)
    ensures r.Err? ==> r.failure in {InvalidDimensions, InvalidParameter, NoCombination, SweepsExhausted}
    ensures r.Ok? ==> LevelShape(r.value, width, height)
    ensures r.Ok? ==> forall p | r.value.grid.In(p) :: r.value.grid.At(p) != Blank
    ensures r.Ok? ==> forall p | r.value.grid.In(p) ::
      r.value.collision.At(p) <==> r.value.grid.At(p) == WallTile || r.value.grid.At(p) == StoneFloor
    ensures r.Ok? ==> forall d | d in r.value.decorations ::
      d.kind == Tree && d.outOfBounds && r.value.grid.In(d.pos) && r.value.grid.At(d.pos) == SnowFloor
    ensures r.Ok? ==> && r.value.grid.Valid() && RegionsApart(snow)
                      && (forall i | 0 <= i < |snow| :: RegionShape(r.value.grid, SnowFloor, snow[i].positions))
                      && (forall q | r.value.grid.In(q) && r.value.grid.At(q) == SnowFloor ::
                            exists i | 0 <= i < |snow| :: q in snow[i].positions)
    ensures r.Ok? ==> forall region | region in snow ::
      EnoughDecorated(region.positions, On(r.value.decorations, region.positions),
                      if IsRegionTouchingEdge(region, r.value.grid) then 25 else 5)
  {
    if width % 4 != 0 || height % 4 != 0 {
      return Err(InvalidDimensions), [];
    }
    if width <= 0 || height <= 0 {
      return Err(InvalidParameter), [];
    }
    var g, collision, rng1 := CarveAndScale(width / 2, height / 2, start, rng);
    var filled := FillInterior(g);
    if filled.Err? {
      return Err(filled.failure), [];
    }
    var finished := RimAndSnow(filled.value);
    var decorations, _, regions := DecorateSnow(finished, rng1, fuel);
    snow := regions;
    if decorations.Err? {
      return Err(decorations.failure), snow;
    }
    var blocking := AddTileTypesToCollisionGrid(finished, collision, [WallTile, StoneFloor]);
    forall d | d in decorations.value ensures d.kind == Tree && d.outOfBounds {
      var i :| 0 <= i < |decorations.value| && decorations.value[i] == d;
    }
    return Ok(Level(finished, blocking, decorations.value)), snow;
  }

  /** Both grids well formed, of the requested size. */
  predicate LevelShape(level: Level, width: int, height: int) {
    && level.grid.Valid() && level.collision.Valid() && SameShape(level.grid, level.collision)
    && level.grid.width == width && level.grid.height == height
  }
}

=== FILE: regions.dfy ===
/** `GridRegion`, `get_grid_regions`, `is_region_touching_edge`,
    `split_by_exterior_and_interior_regions` and `replace_tiles` of
    level/grid_generator_helper.py.

    `get_grid_regions` labels the 4-connected components of one tile type by
    breadth-first flood fill. The source keeps a per-cell `"id"` entry to
    mark labelled cells; only its presence is ever checked, so here it is the
    set `labelled`. Each region's position list is exactly its flood queue,
    since the source appends every cell to both. */
module Regions {
  import opened Grids
  import opened TileTypeEnums
  import opened Shaping

  /** A region: its positions in discovery order and the type it holds.
      The source's `size` is the length of the position list. */
  datatype GridRegion = GridRegion(positions: seq<Pos>, tileType: TileTypeEnum) {
    function Size(): nat {
      |positions|
    }
  }

  /** No position occurs twice. */
  predicate Distinct(s: seq<Pos>) {
    forall i, j | 0 <= i < j < |s| :: s[i] != s[j]
  }

  /** Position `j` is 4-adjacent to an earlier position. */
  ghost predicate Linked(s: seq<Pos>, j: nat)
    requires j < |s|
  {
    exists k | 0 <= k < j :: Adjacent4(s[k], s[j])
  }

  /** Every position after the first is 4-adjacent to an earlier one, so
      the whole list is 4-connected to its first position. */
  ghost predicate GrownFromSeed(s: seq<Pos>) {
    forall j | 1 <= j < |s| :: Linked(s, j)
  }

  /** Every in-grid 4-neighbour of `c` holding `t` is in `labelled`. */
  ghost predicate NeighboursLabelled(g: TileGrid, t: TileTypeEnum, c: Pos, labelled: set<Pos>)
    requires g.Valid()
  {
    forall n | n in Neighbours4(c) && g.In(n) && g.At(n) == t :: n in labelled
  }

  /** Every position of the grid. */
  ghost function AllCells<T>(g: Grid<T>): set<Pos> {
    set x, y | 0 <= x < g.width && 0 <= y < g.height :: Pos(x, y)
  }

  lemma InAllCells<T>(g: Grid<T>, p: Pos)
    ensures p in AllCells(g) <==> g.In(p)
  {
    if g.In(p) {
      assert p == Pos(p.x, p.y);
    }
  }

  /** Labelling one more cell of the grid leaves fewer unlabelled cells. */
  lemma LabelShrinks<T>(g: Grid<T>, labelled: set<Pos>, q: Pos)
    requires g.In(q) && q !in labelled
    ensures |AllCells(g) - (labelled + {q})| < |AllCells(g) - labelled|
  {
    InAllCells(g, q);
    var a, b := AllCells(g) - (labelled + {q}), AllCells(g) - labelled;
    assert b == a + {q};
  }

  /** The flood fill's state: `region` is the queue so far, rooted at the
      seed, without repeats, connected, made of cells of type `t` that were
      unlabelled on entry, and `labelled2` is exactly the entry labelling
      plus the queue. */
  ghost predicate Flooding(g: TileGrid, t: TileTypeEnum, seed: Pos, labelled: set<Pos>,
                           region: seq<Pos>, labelled2: set<Pos>)
    requires g.Valid()
  {
    && |region| >= 1 && region[0] == seed
    && Distinct(region) && GrownFromSeed(region)
    && (forall q | q in region :: g.In(q) && g.At(q) == t && q !in labelled)
    && labelled2 == labelled + (set q | q in region)
  }

  /** The first `count` queue cells have all their `t`-neighbours labelled. */
  ghost predicate ClosedBelow(g: TileGrid, t: TileTypeEnum, region: seq<Pos>, count: nat,
                              labelled2: set<Pos>)
    requires g.Valid() && count <= |region|
  {
    forall k | 0 <= k < count :: NeighboursLabelled(g, t, region[k], labelled2)
  }

  /** Appending a cell 4-adjacent to an earlier one keeps the list connected. */
  lemma AppendGrown(s: seq<Pos>, k: nat, n: Pos)
    requires GrownFromSeed(s) && k < |s| && Adjacent4(s[k], n)
    ensures GrownFromSeed(s + [n])
  {
    var r := s + [n];
    forall jj | 1 <= jj < |r| ensures Linked(r, jj) {
      if jj == |s| {
        assert Adjacent4(r[k], r[jj]);
      } else {
        assert Linked(s, jj);
        var i :| 0 <= i < jj && Adjacent4(s[i], s[jj]);
        assert r[i] == s[i] && r[jj] == s[jj];
      }
    }
  }

  /** Appending a new cell keeps the list free of repeats. */
  lemma AppendDistinct(s: seq<Pos>, n: Pos)
    requires Distinct(s) && n !in s
    ensures Distinct(s + [n])
  {
  }

  /** Labelling a new cell keeps the closed prefix closed. */
  lemma AppendClosed(g: TileGrid, t: TileTypeEnum, region: seq<Pos>, count: nat,
                     labelled2: set<Pos>, n: Pos)
    requires g.Valid() && count <= |region| && ClosedBelow(g, t, region, count, labelled2)
    ensures ClosedBelow(g, t, region + [n], count, labelled2 + {n})
  {
    var r := region + [n];
    forall k | 0 <= k < count ensures NeighboursLabelled(g, t, r[k], labelled2 + {n}) {
      assert r[k] == region[k];
      assert NeighboursLabelled(g, t, region[k], labelled2);
    }
  }

  /** Enqueueing an unlabelled `t`-neighbour of the cell being expanded
      keeps the flood state and the closed prefix, and uses up one
      unlabelled cell of the grid. */
  lemma FloodAppend(g: TileGrid, t: TileTypeEnum, seed: Pos, labelled: set<Pos>,
                    region: seq<Pos>, labelled2: set<Pos>, count: nat, n: Pos)
    requires g.Valid() && Flooding(g, t, seed, labelled, region, labelled2)
    requires count < |region| && ClosedBelow(g, t, region, count, labelled2)
    requires n in Neighbours4(region[count]) && g.In(n) && g.At(n) == t && n !in labelled2
    ensures Flooding(g, t, seed, labelled, region + [n], labelled2 + {n})
    ensures ClosedBelow(g, t, region + [n], count, labelled2 + {n})
    ensures |AllCells(g) - (labelled2 + {n})| < |AllCells(g) - labelled2|
  {
    LabelShrinks(g, labelled2, n);
    Neighbours4AreAdjacent4(region[count], n);
    AppendGrown(region, count, n);
    assert n !in region;
    AppendDistinct(region, n);
    AppendClosed(g, t, region, count, labelled2, n);
    var r := region + [n];
    assert forall q | q in r :: q in region || q == n;
    assert (set q | q in r) == (set q | q in region) + {n};
  }

  /** The four probes of one cell leave all its `t`-neighbours labelled:
      each probe labels its neighbour, and labels are never removed. */
  lemma FourProbes(g: TileGrid, t: TileTypeEnum, c: Pos, l1: set<Pos>, l2: set<Pos>,
                   l3: set<Pos>, l4: set<Pos>)
    requires g.Valid() && l1 <= l2 <= l3 <= l4
    requires var n := Neighbours4(c)[0]; g.In(n) && g.At(n) == t ==> n in l1
    requires var n := Neighbours4(c)[1]; g.In(n) && g.At(n) == t ==> n in l2
    requires var n := Neighbours4(c)[2]; g.In(n) && g.At(n) == t ==> n in l3
    requires var n := Neighbours4(c)[3]; g.In(n) && g.At(n) == t ==> n in l4
    ensures NeighboursLabelled(g, t, c, l4)
  {
  }

  /** The closed prefix grows by one once its next cell's neighbours are
      all labelled. */
  lemma ClosedGrows(g: TileGrid, t: TileTypeEnum, region: seq<Pos>, count: nat, labelled2: set<Pos>)
    requires g.Valid() && count < |region| && ClosedBelow(g, t, region, count, labelled2)
    requires NeighboursLabelled(g, t, region[count], labelled2)
    ensures ClosedBelow(g, t, region, count + 1, labelled2)
  {
  }

  /** Probes one neighbour `n` of the cell being expanded: an in-grid,
      unlabelled cell of type `t` is labelled and enqueued, anything else is
      passed over. */
  method Probe(g: TileGrid, t: TileTypeEnum, ghost seed: Pos, ghost labelled: set<Pos>,
               region: seq<Pos>, labelled2: set<Pos>, count: nat, n: Pos)
    returns (region': seq<Pos>, labelled2': set<Pos>)
    requires g.Valid() && Flooding(g, t, seed, labelled, region, labelled2)
    requires count < |region| && ClosedBelow(g, t, region, count, labelled2)
    requires n in Neighbours4(region[count])
    ensures Flooding(g, t, seed, labelled, region', labelled2')
    ensures count < |region'| && region'[count] == region[count]
    ensures ClosedBelow(g, t, region', count, labelled2')
    ensures labelled2 <= labelled2' && (g.In(n) && g.At(n) == t ==> n in labelled2')
    ensures |region'| >= |region|
    ensures |AllCells(g) - labelled2'| <= |AllCells(g) - labelled2|
    ensures |region'| > |region| ==> |AllCells(g) - labelled2'| < |AllCells(g) - labelled2|
  {
    if g.In(n) && g.At(n) == t && n !in labelled2 {
      FloodAppend(g, t, seed, labelled, region, labelled2, count, n);
      region', labelled2' := region + [n], labelled2 + {n};
      assert region'[count] == region[count];
    } else {
      region', labelled2' := region, labelled2;
    }
  }

  /** The flood fill from `seed` in `get_grid_regions`: a queue walked by
      `count`, each cell probing its neighbours x - 1, x + 1, y - 1, y + 1
      and labelling and enqueueing the unlabelled ones holding `t`.

      Returns the queue, which is the region: rooted at the seed, without
      repeats, 4-connected to the seed, made of cells of type `t` that were
      unlabelled on entry, labelled on return, and closed: every
      `t`-neighbour of a region cell is labelled on return. */
  method FloodRegion(g: TileGrid, t: TileTypeEnum, seed: Pos, labelled: set<Pos>)
    returns (region: seq<Pos>, labelled2: set<Pos>)
    requires g.Valid() && g.In(seed) && g.At(seed) == t && seed !in labelled
    ensures Flooding(g, t, seed, labelled, region, labelled2)
    ensures ClosedBelow(g, t, region, |region|, labelled2)
  {
    region := [seed];
    labelled2 := labelled + {seed};
    assert (set q | q in region) == {seed};
    var count := 0;
    while count < |region|
      invariant count <= |region|
      invariant Flooding(g, t, seed, labelled, region, labelled2)
      invariant ClosedBelow(g, t, region, count, labelled2)
      decreases |AllCells(g) - labelled2|, |region| - count
    {
      var c := region[count];
      ghost var unlabelled := |AllCells(g) - labelled2|;
      var ns := Neighbours4(c);
      region, labelled2 := Probe(g, t, seed, labelled, region, labelled2, count, ns[0]);
      ghost var l1 := labelled2;
      region, labelled2 := Probe(g, t, seed, labelled, region, labelled2, count, ns[1]);
      ghost var l2 := labelled2;
      region, labelled2 := Probe(g, t, seed, labelled, region, labelled2, count, ns[2]);
      ghost var l3 := labelled2;
      region, labelled2 := Probe(g, t, seed, labelled, region, labelled2, count, ns[3]);
      FourProbes(g, t, c, l1, l2, l3, labelled2);
      ClosedGrows(g, t, region, count, labelled2);
      count := count + 1;
    }
  }

  /** `n` is a 4-neighbour of `p` exactly when `p` is one of `n`. */
  lemma Neighbours4Symmetric(p: Pos, n: Pos)
    ensures n in Neighbours4(p) <==> p in Neighbours4(n)
  {
    Neighbours4AreAdjacent4(p, n);
    Neighbours4AreAdjacent4(n, p);
  }

  /** Every in-grid `t`-neighbour of a cell of `run` is itself in `run`:
      the run is a whole 4-connected component of the `t` cells. */
  ghost predicate ComponentClosed(g: TileGrid, t: TileTypeEnum, run: seq<Pos>)
    requires g.Valid()
  {
    forall q, n | q in run && n in Neighbours4(q) && g.In(n) && g.At(n) == t :: n in run
  }

  /** What every labelled region is: non-empty, without repeats, grown from
      its first cell, made of in-grid `t` cells, and a whole component. */
  ghost predicate RegionShape(g: TileGrid, t: TileTypeEnum, run: seq<Pos>)
    requires g.Valid()
  {
    && |run| >= 1 && Distinct(run) && GrownFromSeed(run)
    && (forall q | q in run :: g.In(q) && g.At(q) == t)
    && ComponentClosed(g, t, run)
  }

  /** The two runs share no position. */
  predicate Apart(a: seq<Pos>, b: seq<Pos>) {
    forall q | q in a :: q !in b
  }

  /** No two regions of the list share a position. */
  predicate RegionsApart(regions: seq<GridRegion>) {
    forall i, j | 0 <= i < j < |regions| :: Apart(regions[i].positions, regions[j].positions)
  }

  /** Two different members of an apart list share no position, in either
      order. */
  lemma MembersApart(regions: seq<GridRegion>, x: GridRegion, y: GridRegion)
    requires RegionsApart(regions) && x in regions && y in regions && x != y
    ensures Apart(x.positions, y.positions)
  {
    var a :| 0 <= a < |regions| && regions[a] == x;
    var b :| 0 <= b < |regions| && regions[b] == y;
    if b < a {
      assert Apart(y.positions, x.positions);
    }
  }

  /** The state of the labelling sweep: `labelled` is exactly the cells of
      the runs found so far, each run is a region, and runs are disjoint. */
  ghost predicate Labelling(g: TileGrid, t: TileTypeEnum, runs: seq<seq<Pos>>, labelled: set<Pos>)
    requires g.Valid()
  {
    && labelled == (set q | q in Flatten(runs))
    && (forall i | 0 <= i < |runs| :: RegionShape(g, t, runs[i]))
    && (forall i, j | 0 <= i < j < |runs| :: Apart(runs[i], runs[j]))
  }

  /** A `t` cell next to a labelled cell is labelled too, since the
      labelled cells form whole components. */
  lemma LabelledNeighbour(g: TileGrid, t: TileTypeEnum, runs: seq<seq<Pos>>, labelled: set<Pos>,
                          q: Pos, n: Pos)
    requires g.Valid() && Labelling(g, t, runs, labelled)
    requires g.In(q) && g.At(q) == t && n in Neighbours4(q)
    ensures n in labelled ==> q in labelled
  {
    if n in labelled {
      assert n in Flatten(runs);
      var b :| b in runs && n in b;
      var i :| 0 <= i < |runs| && runs[i] == b;
      assert RegionShape(g, t, runs[i]);
      Neighbours4Symmetric(q, n);
      assert q in Flatten(runs);
    }
  }

  /** A flood from an unlabelled seed adds a region that is a whole
      component and is disjoint from the earlier ones: a `t`-neighbour it
      reached that was already labelled would put the flooded cell itself
      in that earlier, closed component, yet it was unlabelled. */
  lemma AddRegion(g: TileGrid, t: TileTypeEnum, runs: seq<seq<Pos>>, labelled: set<Pos>,
                  seed: Pos, run: seq<Pos>, labelled2: set<Pos>)
    requires g.Valid() && Labelling(g, t, runs, labelled)
    requires Flooding(g, t, seed, labelled, run, labelled2)
    requires ClosedBelow(g, t, run, |run|, labelled2)
    ensures Labelling(g, t, runs + [run], labelled2)
  {
    var runs2 := runs + [run];
    AddRegionCells(runs, run, labelled);
    AddRegionClosed(g, t, runs, labelled, seed, run, labelled2);
    AddRegionApart(g, t, runs, labelled, seed, run, labelled2);
    forall i | 0 <= i < |runs2| ensures RegionShape(g, t, runs2[i]) {
      if i < |runs| {
        assert runs2[i] == runs[i];
      }
    }
  }

  /** The labelled cells after a flood are the cells of the runs so far. */
  lemma AddRegionCells(runs: seq<seq<Pos>>, run: seq<Pos>, labelled: set<Pos>)
    requires labelled == (set q | q in Flatten(runs))
    ensures (set q | q in Flatten(runs + [run])) == labelled + (set q | q in run)
  {
    var runs2 := runs + [run];
    assert runs2[..|runs2| - 1] == runs;
    assert Flatten(runs2) == Flatten(runs) + run;
  }

  /** The flooded run is a whole component. */
  lemma AddRegionClosed(g: TileGrid, t: TileTypeEnum, runs: seq<seq<Pos>>, labelled: set<Pos>,
                        seed: Pos, run: seq<Pos>, labelled2: set<Pos>)
    requires g.Valid() && Labelling(g, t, runs, labelled)
    requires Flooding(g, t, seed, labelled, run, labelled2)
    requires ClosedBelow(g, t, run, |run|, labelled2)
    ensures RegionShape(g, t, run)
  {
    forall q, n | q in run && n in Neighbours4(q) && g.In(n) && g.At(n) == t
      ensures n in run
    {
      var k :| 0 <= k < |run| && run[k] == q;
      assert NeighboursLabelled(g, t, run[k], labelled2);
      LabelledNeighbour(g, t, runs, labelled, q, n);
    }
  }

  /** The flooded run shares no cell with an earlier run. */
  lemma AddRegionApart(g: TileGrid, t: TileTypeEnum, runs: seq<seq<Pos>>, labelled: set<Pos>,
                       seed: Pos, run: seq<Pos>, labelled2: set<Pos>)
    requires g.Valid() && Labelling(g, t, runs, labelled)
    requires Flooding(g, t, seed, labelled, run, labelled2)
    ensures forall i, j | 0 <= i < j < |runs + [run]| :: Apart((runs + [run])[i], (runs + [run])[j])
  {
    var runs2 := runs + [run];
    forall i, j | 0 <= i < j < |runs2| ensures Apart(runs2[i], runs2[j]) {
      if j == |runs| {
        forall q | q in runs[i] ensures q !in run {
          assert runs[i] in runs && q in Flatten(runs);
        }
      } else {
        assert Apart(runs[i], runs[j]);
      }
    }
  }

  /** Every `t` cell visited before (x, y) in the sweep is labelled. */
  ghost predicate Covered(g: TileGrid, t: TileTypeEnum, labelled: set<Pos>, x: int, y: int)
    requires g.Valid()
  {
    forall q | g.In(q) && g.At(q) == t && Before(q, x, y) :: q in labelled
  }

  lemma CoveredGrows(g: TileGrid, t: TileTypeEnum, labelled: set<Pos>, labelled2: set<Pos>, x: int, y: int)
    requires g.Valid() && Covered(g, t, labelled, x, y) && labelled <= labelled2
    requires g.In(Pos(x, y)) && g.At(Pos(x, y)) == t ==> Pos(x, y) in labelled2
    ensures Covered(g, t, labelled2, x, y + 1)
  {
    forall q | g.In(q) && g.At(q) == t && Before(q, x, y + 1) ensures q in labelled2 {
      if q != Pos(x, y) {
        assert Before(q, x, y);
      }
    }
  }

  lemma CoveredNextColumn(g: TileGrid, t: TileTypeEnum, labelled: set<Pos>, x: int)
    requires g.Valid() && Covered(g, t, labelled, x, g.height)
    ensures Covered(g, t, labelled, x + 1, 0)
  {
  }

  /** `get_grid_regions`: sweeps the grid column by column and floods a new
      region from every `t` cell not yet labelled.

      The result is a partition of the grid's `t` cells into 4-connected
      components: each region holds type `t`, is non-empty, repeats no
      position, is grown from its first cell, is closed under
      `t`-neighbours, shares no cell with another region, and every `t`
      cell lies in some region. */
  method GetGridRegions(g: TileGrid, t: TileTypeEnum) returns (regions: seq<GridRegion>)
    requires g.Valid()
    ensures forall i | 0 <= i < |regions| ::
      regions[i].tileType == t && RegionShape(g, t, regions[i].positions)
    ensures forall i, j | 0 <= i < j < |regions| :: Apart(regions[i].positions, regions[j].positions)
    ensures forall q | g.In(q) && g.At(q) == t ::
      exists i | 0 <= i < |regions| :: q in regions[i].positions
  {
    var runs: seq<seq<Pos>> := [];
    var labelled: set<Pos> := {};
    var x := 0;
    while x < g.width
      invariant 0 <= x <= g.width
      invariant Labelling(g, t, runs, labelled)
      invariant Covered(g, t, labelled, x, 0)
    {
      var y := 0;
      while y < g.height
        invariant 0 <= y <= g.height
        invariant Labelling(g, t, runs, labelled)
        invariant Covered(g, t, labelled, x, y)
      {
        var p := Pos(x, y);
        if g.At(p) == t && p !in labelled {
          var run, labelled2 := FloodRegion(g, t, p, labelled);
          AddRegion(g, t, runs, labelled, p, run, labelled2);
          assert run[0] == p;
          CoveredGrows(g, t, labelled, labelled2, x, y);
          runs, labelled := runs + [run], labelled2;
        } else {
          CoveredGrows(g, t, labelled, labelled, x, y);
        }
        y := y + 1;
      }
      CoveredNextColumn(g, t, labelled, x);
      x := x + 1;
    }
    regions := seq(|runs|, i requires 0 <= i < |runs| => GridRegion(runs[i], t));
    forall q | g.In(q) && g.At(q) == t
      ensures exists i | 0 <= i < |regions| :: q in regions[i].positions
    {
      assert Before(q, g.width, 0);
      assert q in Flatten(runs);
      var b :| b in runs && q in b;
      var i :| 0 <= i < |runs| && runs[i] == b;
      assert q in regions[i].positions;
    }
  }

  /** The source's edge test for one position: on column 0 or width - 1,
      or on row 0 or height - 1. */
  predicate OnEdge(p: Pos, width: int, height: int) {
    p.x == 0 || p.x == width - 1 || p.y == 0 || p.y == height - 1
  }

  /** An in-grid position lies on the edge exactly when one of its
      4-neighbours falls outside the grid. */
  lemma OnEdgeMeansOpenSide<T>(g: Grid<T>, p: Pos)
    requires g.In(p)
    ensures OnEdge(p, g.width, g.height) <==> exists n | n in Neighbours4(p) :: !g.In(n)
  {
    var ns := Neighbours4(p);
    if OnEdge(p, g.width, g.height) {
      if p.x == 0 { assert !g.In(ns[0]); }
      else if p.x == g.width - 1 { assert !g.In(ns[1]); }
      else if p.y == 0 { assert !g.In(ns[2]); }
      else { assert !g.In(ns[3]); }
    }
  }

  /** The scan of `is_region_touching_edge`: true at the first position on
      the edge, false when none is. */
  function AnyOnEdge(ps: seq<Pos>, width: int, height: int): (r: bool)
    ensures r <==> exists i | 0 <= i < |ps| :: OnEdge(ps[i], width, height)
  {
    if |ps| == 0 then false
    else if OnEdge(ps[0], width, height) then true
    else
      var rest := AnyOnEdge(ps[1..], width, height);
      assert forall i | 1 <= i < |ps| :: ps[i] == ps[1..][i - 1];
      rest
  }

  /** `GridRegion.is_region_touching_edge`: some position of the region is
      on the grid's edge. */
  function IsRegionTouchingEdge(region: GridRegion, g: TileGrid): (r: bool)
    ensures r <==> exists q | q in region.positions :: OnEdge(q, g.width, g.height)
  {
    AnyOnEdge(region.positions, g.width, g.height)
  }

  /** `split_by_exterior_and_interior_regions`: the regions touching the
      edge and the others. Together they are the input: every region goes
      to exactly one side. */
  function SplitByExteriorAndInteriorRegions(g: TileGrid, regions: seq<GridRegion>)
    : (r: (seq<GridRegion>, seq<GridRegion>))
    ensures forall e | e in r.0 :: IsRegionTouchingEdge(e, g)
    ensures forall i | i in r.1 :: !IsRegionTouchingEdge(i, g)
    ensures multiset(r.0) + multiset(r.1) == multiset(regions)
  {
    if |regions| == 0 then ([], [])
    else
      var last := regions[|regions| - 1];
      var split := SplitByExteriorAndInteriorRegions(g, regions[..|regions| - 1]);
      assert regions == regions[..|regions| - 1] + [last];
      if IsRegionTouchingEdge(last, g) then (split.0 + [last], split.1)
      else (split.0, split.1 + [last])
  }

  /** `GridRegion.replace_tiles`: every position of the region now holds
      `replacement`, every other cell is unchanged. A position outside the
      grid is a KeyError in the source. */
  method ReplaceTiles(region: GridRegion, g: TileGrid, replacement: TileTypeEnum) returns (r: TileGrid)
    requires g.Valid()
    requires forall i | 0 <= i < |region.positions| :: g.In(region.positions[i])
    ensures r.Valid() && SameShape(r, g)
    ensures forall p | r.In(p) :: r.At(p) == if p in region.positions then replacement else g.At(p)
  {
    r := WriteAll(g, region.positions, replacement);
  }

  /** Both sides of the split of an apart list are apart. */
  lemma {:induction false} SplitKeepsApart(g: TileGrid, regions: seq<GridRegion>)
    requires RegionsApart(regions)
    ensures var s := SplitByExteriorAndInteriorRegions(g, regions);
      RegionsApart(s.0) && RegionsApart(s.1)
    decreases |regions|
  {
    if |regions| > 0 {
      var front := regions[..|regions| - 1];
      PrefixApart(regions);
      SplitKeepsApart(g, front);
      SplitMembers(g, front);
      var split := SplitByExteriorAndInteriorRegions(g, front);
      LastApart(regions, split.0);
      LastApart(regions, split.1);
    }
  }

  lemma PrefixApart(regions: seq<GridRegion>)
    requires RegionsApart(regions) && |regions| > 0
    ensures RegionsApart(regions[..|regions| - 1])
  {
    var front := regions[..|regions| - 1];
    assert forall i | 0 <= i < |front| :: front[i] == regions[i];
  }

  /** A list of earlier members, followed by the last member, stays apart. */
  lemma LastApart(regions: seq<GridRegion>, part: seq<GridRegion>)
    requires RegionsApart(regions) && |regions| > 0 && RegionsApart(part)
    requires forall x | x in part :: x in regions[..|regions| - 1]
    ensures RegionsApart(part + [regions[|regions| - 1]])
  {
    var last := regions[|regions| - 1];
    var ext := part + [last];
    forall i, j | 0 <= i < j < |ext| ensures Apart(ext[i].positions, ext[j].positions) {
      if j == |part| {
        assert ext[i] in part;
        var a :| 0 <= a < |regions| - 1 && regions[..|regions| - 1][a] == ext[i];
        assert regions[a] == ext[i];
      } else {
        assert ext[i] == part[i] && ext[j] == part[j];
      }
    }
  }

  /** The split keeps the members of its input: each side holds input
      regions only. */
  lemma SplitMembers(g: TileGrid, regions: seq<GridRegion>)
    ensures var s := SplitByExteriorAndInteriorRegions(g, regions);
      && (forall x | x in s.0 :: x in regions)
      && (forall x | x in s.1 :: x in regions)
  {
    var s := SplitByExteriorAndInteriorRegions(g, regions);
    forall x | x in s.0 || x in s.1 ensures x in regions {
      assert x in multiset(s.0) + multiset(s.1);
    }
  }

  /** An input region lies on the side its edge test names. */
  lemma SplitSide(g: TileGrid, regions: seq<GridRegion>, region: GridRegion)
    requires region in regions
    ensures var s := SplitByExteriorAndInteriorRegions(g, regions);
      if IsRegionTouchingEdge(region, g) then region in s.0 else region in s.1
  {
    var s := SplitByExteriorAndInteriorRegions(g, regions);
    assert region in multiset(s.0) + multiset(s.1);
  }

}

=== FILE: selection.dfy ===
/** `order_regions_by_size_descending` and `get_regions_grid_percentage` of
    level/grid_generator_helper.py: sort regions by size, then pick two to
    five of them whose sizes add up to a share of the grid, exactly when
    some combination allows it and as closely as possible otherwise.

    The source enumerates `itertools.combinations` of the size list, which
    yields index-ordered subsequences in lexicographic order of the chosen
    indices; `Combos` is that enumeration. */
module Selection {
  import opened Outcomes
  import opened Grids
  import opened Shaping
  import opened Regions

  // ---------------------------------------------------------------------
  // Ordering by size

  /** Index of the first region of largest size: the source's scan keeps
      its first pick and replaces it only on a strictly larger size. */
  function FirstLargest(rs: seq<GridRegion>): (i: nat)
    requires |rs| > 0
    ensures i < |rs|
    ensures forall j | 0 <= j < |rs| :: rs[j].Size() <= rs[i].Size()
    ensures forall j | 0 <= j < i :: rs[j].Size() < rs[i].Size()
  {
    if |rs| == 1 then 0
    else
      var b := FirstLargest(rs[..|rs| - 1]);
      if rs[|rs| - 1].Size() > rs[b].Size() then |rs| - 1 else b
  }

  /** The list without its `i`-th element (`list.remove` of that object). */
  function Without<T>(s: seq<T>, i: nat): (r: seq<T>)
    requires i < |s|
    ensures |r| == |s| - 1
  {
    s[..i] + s[i + 1..]
  }

  lemma WithoutSplits<T>(s: seq<T>, i: nat)
    requires i < |s|
    ensures s == s[..i] + [s[i]] + s[i + 1..]
    ensures multiset(s) == multiset(Without(s, i)) + multiset{s[i]}
  {
    assert s == s[..i] + [s[i]] + s[i + 1..];
  }

  /** The source's selection loop: move the first largest region to the
      output until none is left. The output is a permutation of the input
      with sizes non-increasing. */
  function OrderBySize(rs: seq<GridRegion>): (r: seq<GridRegion>)
    ensures |r| == |rs| && forall x | x in r :: x in rs
    ensures forall i, j | 0 <= i < j < |r| :: r[i].Size() >= r[j].Size()
    decreases |rs|
  {
    if |rs| == 0 then []
    else
      var i := FirstLargest(rs);
      var rest := OrderBySize(Without(rs, i));
      assert forall x | x in rs :: x.Size() <= rs[i].Size();
      assert forall x | x in Without(rs, i) :: x in rs;
      assert forall j | 0 <= j < |rest| :: rest[j].Size() <= rs[i].Size();
      [rs[i]] + rest
  }

  /** The ordering loses and duplicates nothing. */
  lemma {:induction false} OrderBySizePermutes(rs: seq<GridRegion>)
    ensures multiset(OrderBySize(rs)) == multiset(rs)
    decreases |rs|
  {
    if |rs| > 0 {
      var i := FirstLargest(rs);
      OrderBySizePermutes(Without(rs, i));
      WithoutSplits(rs, i);
    }
  }

  /** The regions of size `s`, in list order. */
  function OfSize(rs: seq<GridRegion>, s: nat): seq<GridRegion> {
    if |rs| == 0 then []
    else (if rs[0].Size() == s then [rs[0]] else []) + OfSize(rs[1..], s)
  }

  lemma {:induction false} OfSizeAppend(a: seq<GridRegion>, b: seq<GridRegion>, s: nat)
    ensures OfSize(a + b, s) == OfSize(a, s) + OfSize(b, s)
    decreases |a|
  {
    if |a| == 0 {
      assert a + b == b;
    } else {
      assert (a + b)[0] == a[0] && (a + b)[1..] == a[1..] + b;
      OfSizeAppend(a[1..], b, s);
    }
  }

  lemma {:induction false} OfSizeNone(a: seq<GridRegion>, s: nat)
    requires forall j | 0 <= j < |a| :: a[j].Size() < s
    ensures OfSize(a, s) == []
    decreases |a|
  {
    if |a| > 0 {
      OfSizeNone(a[1..], s);
    }
  }

  /** The ordering is stable: among regions of any one size, the output
      keeps the input order, because the strict comparison always picks the
      earliest region of the largest size. */
  lemma OfSizeSingle(m: GridRegion, s: nat)
    ensures OfSize([m], s) == if m.Size() == s then [m] else []
  {
    assert [m][1..] == [];
  }

  /** Picking out element `i` splits the regions of size `s` around it. */
  lemma OfSizeAround(rs: seq<GridRegion>, i: nat, s: nat)
    requires i < |rs|
    ensures OfSize(rs, s) == OfSize(rs[..i], s) + OfSize([rs[i]], s) + OfSize(rs[i + 1..], s)
    ensures OfSize(Without(rs, i), s) == OfSize(rs[..i], s) + OfSize(rs[i + 1..], s)
  {
    WithoutSplits(rs, i);
    OfSizeAppend(rs[..i] + [rs[i]], rs[i + 1..], s);
    OfSizeAppend(rs[..i], [rs[i]], s);
    OfSizeAppend(rs[..i], rs[i + 1..], s);
  }

  /** One step of the stability proof: if sorting the rest keeps the
      order among regions of size `s`, so does sorting the whole list. */
  lemma StableStep(rs: seq<GridRegion>, s: nat)
    requires |rs| > 0
    requires var rest := Without(rs, FirstLargest(rs)); OfSize(OrderBySize(rest), s) == OfSize(rest, s)
    ensures OfSize(OrderBySize(rs), s) == OfSize(rs, s)
  {
    var i := FirstLargest(rs);
    var rest := Without(rs, i);
    OrderHead(rs);
    OfSizeAppend([rs[i]], OrderBySize(rest), s);
    OfSizeAround(rs, i, s);
    OfSizeSingle(rs[i], s);
    if rs[i].Size() == s {
      OfSizeNone(rs[..i], s);
    }
    Reassemble(OfSize([rs[i]], s), OfSize(rs[..i], s), OfSize(rs[i + 1..], s), OfSize(rest, s));
  }

  /** The list algebra closing `StableStep`: the picked element's share
      `m` moves to the front past `a`, which is harmless when either is
      empty. */
  lemma Reassemble<T>(m: seq<T>, a: seq<T>, b: seq<T>, t: seq<T>)
    requires t == a + b && (m == [] || a == [])
    ensures m + t == a + m + b
  {
  }

  lemma OrderHead(rs: seq<GridRegion>)
    requires |rs| > 0
    ensures OrderBySize(rs) == [rs[FirstLargest(rs)]] + OrderBySize(Without(rs, FirstLargest(rs)))
  {
  }

  lemma {:induction false} OrderBySizeIsStable(rs: seq<GridRegion>, s: nat)
    ensures OfSize(OrderBySize(rs), s) == OfSize(rs, s)
    decreases |rs|
  {
    if |rs| > 0 {
      OrderBySizeIsStable(Without(rs, FirstLargest(rs)), s);
      StableStep(rs, s);
    }
  }

  /** The regions `order_regions_by_size_descending` sorts: all of them, or
      with `excludeEdgeRegions` only those not touching the grid's edge. */
  function Applicable(g: TileGrid, regions: seq<GridRegion>, excludeEdgeRegions: bool): (r: seq<GridRegion>)
    ensures excludeEdgeRegions ==> forall x | x in regions :: x in r <==> !IsRegionTouchingEdge(x, g)
    ensures !excludeEdgeRegions ==> r == regions
    ensures multiset(r) <= multiset(regions)
  {
    if excludeEdgeRegions then
      var split := SplitByExteriorAndInteriorRegions(g, regions);
      assert forall x | x in regions :: x in multiset(split.0) + multiset(split.1);
      split.1
    else regions
  }

  /** `order_regions_by_size_descending`. The first component is the
      ordered list: a permutation of the applicable regions with sizes
      non-increasing (ties keep their order, `OrderIsStable`). The second
      is the caller's list after the call: without filtering the source
      sorts by removing from the caller's own list, which ends up empty. */
  function OrderRegionsBySizeDescending(g: TileGrid, regions: seq<GridRegion>, excludeEdgeRegions: bool)
    : (r: (seq<GridRegion>, seq<GridRegion>))
    ensures multiset(r.0) == multiset(Applicable(g, regions, excludeEdgeRegions))
    ensures forall i, j | 0 <= i < j < |r.0| :: r.0[i].Size() >= r.0[j].Size()
    ensures excludeEdgeRegions ==> forall x | x in regions :: x in r.0 <==> !IsRegionTouchingEdge(x, g)
    ensures !excludeEdgeRegions ==> multiset(r.0) == multiset(regions) && r.1 == []
    ensures excludeEdgeRegions ==> r.1 == regions
    ensures forall x | x in r.0 :: x in regions
  {
    var ordered := OrderBySize(Applicable(g, regions, excludeEdgeRegions));
    OrderBySizePermutes(Applicable(g, regions, excludeEdgeRegions));
    assert forall x | x in regions && x in Applicable(g, regions, excludeEdgeRegions) :: x in multiset(ordered);
    assert forall x | x in ordered :: x in multiset(Applicable(g, regions, excludeEdgeRegions));
    (ordered, if excludeEdgeRegions then regions else [])
  }

  lemma OrderIsStable(g: TileGrid, regions: seq<GridRegion>, excludeEdgeRegions: bool, s: nat)
    ensures OfSize(OrderRegionsBySizeDescending(g, regions, excludeEdgeRegions).0, s)
         == OfSize(Applicable(g, regions, excludeEdgeRegions), s)
  {
    OrderBySizeIsStable(Applicable(g, regions, excludeEdgeRegions), s);
  }

  // ---------------------------------------------------------------------
  // Combinations

  function Prepend<T>(x: T, cs: seq<seq<T>>): (r: seq<seq<T>>)
    ensures |r| == |cs| && forall i | 0 <= i < |cs| :: r[i] == [x] + cs[i]
  {
    seq(|cs|, i requires 0 <= i < |cs| => [x] + cs[i])
  }

  /** `itertools.combinations(xs, k)`: every choice of `k` elements in
      index order, those using the first element first. */
  function Combos<T>(xs: seq<T>, k: nat): (r: seq<seq<T>>)
    ensures forall i | 0 <= i < |r| :: |r[i]| == k
    decreases |xs|
  {
    if k == 0 then [[]]
    else if |xs| == 0 then []
    else Prepend(xs[0], Combos(xs[1..], k - 1)) + Combos(xs[1..], k)
  }

  /** A combination only uses elements of the list. */
  lemma {:induction false} ComboElements<T>(xs: seq<T>, k: nat, c: seq<T>)
    requires c in Combos(xs, k)
    ensures forall v | v in c :: v in xs
    decreases |xs|
  {
    if k > 0 && |xs| > 0 {
      var with := Combos(xs[1..], k - 1);
      if c in Prepend(xs[0], with) {
        var i :| 0 <= i < |with| && Prepend(xs[0], with)[i] == c;
        ComboElements(xs[1..], k - 1, with[i]);
      } else {
        ComboElements(xs[1..], k, c);
      }
    }
  }

  /** The first `k` elements are a combination, so there is one whenever
      `k` does not exceed the length. */
  lemma {:induction false} PrefixIsCombo<T>(xs: seq<T>, k: nat)
    requires k <= |xs|
    ensures xs[..k] in Combos(xs, k)
    decreases |xs|
  {
    if k > 0 {
      PrefixIsCombo(xs[1..], k - 1);
      var with := Combos(xs[1..], k - 1);
      var i :| 0 <= i < |with| && with[i] == xs[1..][..k - 1];
      assert xs[..k] == [xs[0]] + with[i];
      assert Prepend(xs[0], with)[i] == xs[..k];
    }
  }

  function Sum(s: seq<int>): int {
    if |s| == 0 then 0 else s[0] + Sum(s[1..])
  }

  function Dist(a: int, b: int): nat {
    if a >= b then a - b else b - a
  }

  // ---------------------------------------------------------------------
  // The search

  /** The combination kept from one depth: the source overwrites its pick
      at every exact match, so the last one wins. */
  function LastExact(cs: seq<seq<int>>, goal: int): (r: Option<nat>)
    ensures r.Some? ==> (r.value < |cs| && Sum(cs[r.value]) == goal
      && forall j | r.value < j < |cs| :: Sum(cs[j]) != goal)
    ensures r.None? ==> forall j | 0 <= j < |cs| :: Sum(cs[j]) != goal
  {
    if |cs| == 0 then None
    else if Sum(cs[|cs| - 1]) == goal then Some(|cs| - 1)
    else LastExact(cs[..|cs| - 1], goal)
  }

  /** Depths `depth` up to `maxDepth - 1` in turn, stopping at the first one
      holding an exact match. */
  function ExactSearch(sizes: seq<int>, goal: int, depth: nat, maxDepth: nat): (r: Option<seq<int>>)
    ensures r.Some? ==> (
      && Sum(r.value) == goal && depth <= |r.value| < maxDepth
      && r.value in Combos(sizes, |r.value|)
      && forall d, c | depth <= d < |r.value| && c in Combos(sizes, d) :: Sum(c) != goal)
    ensures r.None? ==> forall d, c | depth <= d < maxDepth && c in Combos(sizes, d) :: Sum(c) != goal
    decreases maxDepth - depth
  {
    if depth >= maxDepth then None
    else
      var cs := Combos(sizes, depth);
      match LastExact(cs, goal)
      case Some(i) => Some(cs[i])
      case None => ExactSearch(sizes, goal, depth + 1, maxDepth)
  }

  /** All combinations of depths `depth` to `maxDepth - 1`, in the order
      the source appends them to its list of near misses. */
  function AllCombos(sizes: seq<int>, depth: nat, maxDepth: nat): (r: seq<seq<int>>)
    decreases maxDepth - depth
  {
    if depth >= maxDepth then [] else Combos(sizes, depth) + AllCombos(sizes, depth + 1, maxDepth)
  }

  /** The near-miss list holds exactly the combinations of those depths. */
  lemma {:induction false} InAllCombos(sizes: seq<int>, depth: nat, maxDepth: nat, c: seq<int>)
    ensures c in AllCombos(sizes, depth, maxDepth) <==> exists d | depth <= d < maxDepth :: c in Combos(sizes, d)
    decreases maxDepth - depth
  {
    if depth < maxDepth {
      var here, rest := Combos(sizes, depth), AllCombos(sizes, depth + 1, maxDepth);
      assert AllCombos(sizes, depth, maxDepth) == here + rest;
      assert c in here + rest <==> c in here || c in rest;
      InAllCombos(sizes, depth + 1, maxDepth, c);
      if c in Combos(sizes, depth) {
        assert depth <= depth < maxDepth && c in Combos(sizes, depth);
      }
      if exists d | depth <= d < maxDepth :: c in Combos(sizes, d) {
        var d :| depth <= d < maxDepth && c in Combos(sizes, d);
        assert d == depth || depth + 1 <= d < maxDepth;
      }
    }
  }

  // ---------------------------------------------------------------------
  // Choosing the combination

  /** Python's `<` on tuples of integers: the first differing element
      decides, and a proper prefix is smaller. */
  predicate LexLess(a: seq<int>, b: seq<int>) {
    if |a| == 0 then |b| > 0
    else if |b| == 0 then false
    else if a[0] != b[0] then a[0] < b[0]
    else LexLess(a[1..], b[1..])
  }

  lemma {:induction false} LexLessIrreflexive(a: seq<int>)
    ensures !LexLess(a, a)
    decreases |a|
  {
    if |a| > 0 {
      LexLessIrreflexive(a[1..]);
    }
  }

  lemma {:induction false} LexLessTransitive(a: seq<int>, b: seq<int>, c: seq<int>)
    requires LexLess(a, b) && LexLess(b, c)
    ensures LexLess(a, c)
    decreases |a|
  {
    if |a| > 0 && a[0] == b[0] && b[0] == c[0] {
      LexLessTransitive(a[1..], b[1..], c[1..]);
    }
  }

  /** The source compares near misses as tuples `(abs(sum - goal), combo)`. */
  predicate KeyLess(goal: int, a: seq<int>, b: seq<int>) {
    var da, db := Dist(Sum(a), goal), Dist(Sum(b), goal);
    da < db || (da == db && LexLess(a, b))
  }

  /** `min(closest)`: a left-to-right scan that replaces its pick only by a
      strictly smaller key. */
  function Closest(cs: seq<seq<int>>, goal: int): (r: seq<int>)
    requires |cs| > 0
    ensures r in cs
  {
    if |cs| == 1 then cs[0]
    else
      var best := Closest(cs[..|cs| - 1], goal);
      if KeyLess(goal, cs[|cs| - 1], best) then cs[|cs| - 1] else best
  }

  /** No near miss has a smaller key than the one picked; in particular
      none is nearer the goal. */
  lemma {:induction false} ClosestIsMinimal(cs: seq<seq<int>>, goal: int)
    requires |cs| > 0
    ensures forall c | c in cs :: !KeyLess(goal, c, Closest(cs, goal))
  {
    var r := Closest(cs, goal);
    if |cs| == 1 {
      LexLessIrreflexive(cs[0]);
    } else {
      var front := cs[..|cs| - 1];
      ClosestIsMinimal(front, goal);
      var best := Closest(front, goal);
      var last := cs[|cs| - 1];
      assert cs == front + [last];
      forall c | c in cs ensures !KeyLess(goal, c, r) {
        if c == r {
          LexLessIrreflexive(c);
        } else if c in front && r == last && KeyLess(goal, c, r) {
          LexLessKeyTransitive(goal, c, last, best);
        }
      }
    }
  }

  /** Hence no near miss is nearer the goal than the one picked. */
  lemma ClosestIsNearest(cs: seq<seq<int>>, goal: int, c: seq<int>)
    requires |cs| > 0 && c in cs
    ensures Dist(Sum(Closest(cs, goal)), goal) <= Dist(Sum(c), goal)
  {
    ClosestIsMinimal(cs, goal);
    assert !KeyLess(goal, c, Closest(cs, goal));
  }

  lemma LexLessKeyTransitive(goal: int, a: seq<int>, b: seq<int>, c: seq<int>)
    requires KeyLess(goal, a, b) && KeyLess(goal, b, c)
    ensures KeyLess(goal, a, c)
  {
    if LexLess(a, b) && LexLess(b, c) {
      LexLessTransitive(a, b, c);
    }
  }

  /** `max_depth`: one more than the number of regions, at most 6. */
  function MaxDepth(n: nat): nat {
    if n + 1 > 6 then 6 else n + 1
  }

  /** Some combination of 2 to `MaxDepth - 1` sizes adds up to the goal. */
  ghost predicate ExactExists(sizes: seq<int>, goal: int) {
    exists d, c | 2 <= d < MaxDepth(|sizes|) && c in Combos(sizes, d) :: Sum(c) == goal
  }

  /** The source's search: the exact match of the first depth that has one,
      otherwise the least near miss over all depths; `None` where the
      source takes `min` of an empty list. */
  function ChooseCombination(sizes: seq<int>, goal: int): (r: Option<seq<int>>)
  {
    var maxDepth := MaxDepth(|sizes|);
    match ExactSearch(sizes, goal, 2, maxDepth)
    case Some(c) => Some(c)
    case None =>
      var all := AllCombos(sizes, 2, maxDepth);
      if |all| == 0 then None else Some(Closest(all, goal))
  }

  /** The search gives up only when there are fewer than two sizes. */
  lemma ChooseFailsOnlyBelowTwo(sizes: seq<int>, goal: int)
    ensures ChooseCombination(sizes, goal).None? <==> |sizes| < 2
  {
    var maxDepth := MaxDepth(|sizes|);
    if |sizes| >= 2 {
      PrefixIsCombo(sizes, 2);
      InAllCombos(sizes, 2, maxDepth, sizes[..2]);
    } else {
      assert AllCombos(sizes, 2, maxDepth) == [];
    }
  }

  /** The pick is a combination of 2 up to `MaxDepth - 1` sizes. */
  lemma ChooseIsCombination(sizes: seq<int>, goal: int)
    ensures var r := ChooseCombination(sizes, goal);
      r.Some? ==> 2 <= |r.value| < MaxDepth(|sizes|) && r.value in Combos(sizes, |r.value|)
  {
    var maxDepth := MaxDepth(|sizes|);
    var all := AllCombos(sizes, 2, maxDepth);
    if ExactSearch(sizes, goal, 2, maxDepth).None? && |all| > 0 {
      var r := Closest(all, goal);
      InAllCombos(sizes, 2, maxDepth, r);
      var d :| 2 <= d < maxDepth && r in Combos(sizes, d);
      assert |r| == d;
    }
  }

  /** The exact search finds something exactly when some combination hits
      the goal. */
  lemma ExactSearchFindsAny(sizes: seq<int>, goal: int)
    ensures ExactSearch(sizes, goal, 2, MaxDepth(|sizes|)).Some? <==> ExactExists(sizes, goal)
  {
    var r := ExactSearch(sizes, goal, 2, MaxDepth(|sizes|));
    if r.Some? {
      assert 2 <= |r.value| < MaxDepth(|sizes|) && r.value in Combos(sizes, |r.value|) && Sum(r.value) == goal;
    }
  }

  /** When some combination hits the goal, the pick hits it, at the
      smallest depth where any does. */
  lemma ChooseHitsGoal(sizes: seq<int>, goal: int)
    requires ExactExists(sizes, goal)
    ensures var r := ChooseCombination(sizes, goal);
      r.Some? && Sum(r.value) == goal
      && forall d, c | 2 <= d < |r.value| && c in Combos(sizes, d) :: Sum(c) != goal
  {
    ExactSearchFindsAny(sizes, goal);
  }

  /** When the exact search finds nothing (`ExactSearchFindsAny`: no
      combination hits the goal), no combination searched is nearer to it
      than the pick. */
  lemma ChooseIsNearest(sizes: seq<int>, goal: int)
    requires ExactSearch(sizes, goal, 2, MaxDepth(|sizes|)).None? && |sizes| >= 2
    ensures var r := ChooseCombination(sizes, goal);
      r.Some? && forall d, c | 2 <= d < MaxDepth(|sizes|) && c in Combos(sizes, d) ::
        Dist(Sum(r.value), goal) <= Dist(Sum(c), goal)
  {
    var maxDepth := MaxDepth(|sizes|);
    var all := AllCombos(sizes, 2, maxDepth);
    ChooseFailsOnlyBelowTwo(sizes, goal);
    var r := Closest(all, goal);
    assert ChooseCombination(sizes, goal) == Some(r);
    forall d, c | 2 <= d < maxDepth && c in Combos(sizes, d)
      ensures Dist(Sum(r), goal) <= Dist(Sum(c), goal)
    {
      InAllCombos(sizes, 2, maxDepth, c);
      assert exists d' | 2 <= d' < maxDepth :: c in Combos(sizes, d');
      ClosestIsNearest(all, goal, c);
    }
  }

  // ---------------------------------------------------------------------
  // From sizes back to regions

  /** The first region of size `s`. */
  function FirstOfSize(rs: seq<GridRegion>, s: int): (r: Option<nat>)
    ensures r.Some? ==> (r.value < |rs| && rs[r.value].Size() == s
      && forall j | 0 <= j < r.value :: rs[j].Size() != s)
    ensures r.None? ==> forall j | 0 <= j < |rs| :: rs[j].Size() != s
  {
    if |rs| == 0 then None
    else if rs[0].Size() == s then Some(0)
    else match FirstOfSize(rs[1..], s)
      case Some(k) => Some(k + 1)
      case None => None
  }

  /** The source's last loop: for each size of the chosen combination, the
      first ordered region of that size; a size no region has adds
      nothing. */
  function RegionsForSizes(rs: seq<GridRegion>, sizes: seq<int>): (r: seq<GridRegion>)
    ensures |r| <= |sizes| && forall x | x in r :: x in rs
  {
    if |sizes| == 0 then []
    else
      var front := RegionsForSizes(rs, sizes[..|sizes| - 1]);
      match FirstOfSize(rs, sizes[|sizes| - 1])
      case Some(k) => front + [rs[k]]
      case None => front
  }

  /** When every size belongs to some region, the result has one region
      per size: the first ordered region of that size. */
  lemma {:induction false} RegionsForSizesPicksFirst(rs: seq<GridRegion>, sizes: seq<int>)
    requires forall i | 0 <= i < |sizes| :: FirstOfSize(rs, sizes[i]).Some?
    ensures var r := RegionsForSizes(rs, sizes);
      |r| == |sizes| && forall i | 0 <= i < |r| ::
        FirstOfSize(rs, sizes[i]).Some? && r[i] == rs[FirstOfSize(rs, sizes[i]).value]
    decreases |sizes|
  {
    if |sizes| > 0 {
      var n := |sizes| - 1;
      assert forall i | 0 <= i < n :: sizes[..n][i] == sizes[i];
      RegionsForSizesPicksFirst(rs, sizes[..n]);
    }
  }

  /** The mapped regions have the chosen sizes, and two equal sizes in the
      combination give the same region twice (the region of that size that
      comes first), as the source's lookup is by size. */
  lemma RepeatedSizeRepeatsRegion(rs: seq<GridRegion>, sizes: seq<int>)
    requires forall i | 0 <= i < |sizes| :: exists j | 0 <= j < |rs| :: rs[j].Size() == sizes[i]
    ensures var r := RegionsForSizes(rs, sizes);
      && |r| == |sizes|
      && (forall i | 0 <= i < |r| :: r[i].Size() == sizes[i])
      && (forall i, j | 0 <= i < |r| && 0 <= j < |r| && sizes[i] == sizes[j] :: r[i] == r[j])
  {
    forall i | 0 <= i < |sizes| ensures FirstOfSize(rs, sizes[i]).Some? {
      var j :| 0 <= j < |rs| && rs[j].Size() == sizes[i];
    }
    RegionsForSizesPicksFirst(rs, sizes);
  }

  /** The sizes of a list of regions. */
  function SizesOf(rs: seq<GridRegion>): (r: seq<int>)
    ensures |r| == |rs| && forall i | 0 <= i < |rs| :: r[i] == rs[i].Size()
  {
    seq(|rs|, i requires 0 <= i < |rs| => rs[i].Size() as int)
  }

  /** `size_goal`: `percentage` percent of the grid's cells. The source's
      `int()` of a non-negative quotient is the floor. */
  function SizeGoal(g: TileGrid, percentage: int): int
    requires 0 <= percentage
  {
    g.width * g.height * percentage / 100
  }

  /** `get_regions_grid_percentage`: the regions whose sizes make up
      `percentage` percent of the grid, chosen from the ordered regions:
      an error for a percentage outside [0, 100] and, as the source's `min`
      of an empty list, for fewer than two regions; otherwise two to five
      of the ordered regions, picked as `PickMeetsGoal` states.

      The second component is the caller's `regions` list as the call
      leaves it. The ordering runs before the percentage is checked, so
      without edge filtering the list is emptied even when the call then
      fails. */
  function GetRegionsGridPercentage(g: TileGrid, regions: seq<GridRegion>, percentage: int,
                                    excludeEdgeRegions: bool): (r: (Result<seq<GridRegion>>, seq<GridRegion>))
    ensures r.0 == Err(InvalidParameter) <==> percentage < 0 || percentage > 100
    ensures 0 <= percentage <= 100 ==>
      (r.0.Err? <==> |OrderRegionsBySizeDescending(g, regions, excludeEdgeRegions).0| < 2)
    ensures r.0.Ok? ==> (2 <= |r.0.value| <= 5
      && forall x | x in r.0.value :: x in OrderRegionsBySizeDescending(g, regions, excludeEdgeRegions).0)
    ensures r.1 == if excludeEdgeRegions then regions else []
  {
    var (ordered, left) := OrderRegionsBySizeDescending(g, regions, excludeEdgeRegions);
    if percentage < 0 || percentage > 100 then (Err(InvalidParameter), left)
    else
      var goal := SizeGoal(g, percentage);
      ChooseFailsOnlyBelowTwo(SizesOf(ordered), goal);
      match ChooseCombination(SizesOf(ordered), goal)
      case None => (Err(NoCombination), left)
      case Some(c) =>
        ChosenRegionsHaveChosenSizes(ordered, goal);
        (Ok(RegionsForSizes(ordered, c)), left)
  }

  /** A chosen combination of sizes maps back to regions of exactly those
      sizes, taken from the ordered list. */
  lemma ChosenRegionsHaveChosenSizes(ordered: seq<GridRegion>, goal: int)
    requires ChooseCombination(SizesOf(ordered), goal).Some?
    ensures var c := ChooseCombination(SizesOf(ordered), goal).value;
      var r := RegionsForSizes(ordered, c);
      SizesOf(r) == c && 2 <= |r| <= 5 && |r| <= |ordered|
  {
    var sizes := SizesOf(ordered);
    var c := ChooseCombination(sizes, goal).value;
    ChooseIsCombination(sizes, goal);
    ComboElements(sizes, |c|, c);
    forall i | 0 <= i < |c| ensures exists j | 0 <= j < |ordered| :: ordered[j].Size() == c[i] {
      assert c[i] in sizes;
    }
    RepeatedSizeRepeatsRegion(ordered, c);
  }

  /** The regions picked from `ordered` for `goal`: two to five of them,
      whose sizes are a combination of the ordered sizes; they add up to
      the goal at the smallest depth where any combination does, and
      otherwise come as near the goal as any combination searched. */
  lemma PickMeetsGoal(ordered: seq<GridRegion>, goal: int)
    requires ChooseCombination(SizesOf(ordered), goal).Some?
    ensures var sizes := SizesOf(ordered);
      var picked := RegionsForSizes(ordered, ChooseCombination(sizes, goal).value);
      && 2 <= |picked| <= 5 && |picked| <= |ordered|
      && (forall x | x in picked :: x in ordered)
      && SizesOf(picked) in Combos(sizes, |picked|)
      && (ExactExists(sizes, goal) ==>
            Sum(SizesOf(picked)) == goal
            && forall d, c | 2 <= d < |picked| && c in Combos(sizes, d) :: Sum(c) != goal)
      && (!ExactExists(sizes, goal) ==>
            forall d, c | 2 <= d < MaxDepth(|ordered|) && c in Combos(sizes, d) ::
              Dist(Sum(SizesOf(picked)), goal) <= Dist(Sum(c), goal))
  {
    var sizes := SizesOf(ordered);
    ChosenRegionsHaveChosenSizes(ordered, goal);
    ChooseIsCombination(sizes, goal);
    if ExactExists(sizes, goal) {
      ChooseHitsGoal(sizes, goal);
    } else {
      ChooseFailsOnlyBelowTwo(sizes, goal);
      ExactSearchFindsAny(sizes, goal);
      ChooseIsNearest(sizes, goal);
    }
  }
}

=== FILE: shaping.dfy ===
/** The raster passes of level/grid_generator_helper.py that reshape a tile
    grid: `line_grid_edge`, `replace_type`, `scale_grid_up`, `trim_edges`,
    `add_rim_to_tile_type` and `add_tile_types_to_collision_grid`.

    `trim_edges` and `add_rim_to_tile_type` first collect the cells to
    rewrite against the grid as it was before the pass and only then write
    them; the methods below keep that two-phase shape and their contracts
    state the result against the pre-pass grid. */
module Shaping {
  import opened Outcomes
  import opened Grids
  import opened TileTypeEnums

  type TileGrid = Grid<TileTypeEnum>
  type CollisionGrid = Grid<bool>

  // ---------------------------------------------------------------------
  // line_grid_edge

  /** The border band `line_grid_edge` paints: within `thickness` cells of
      an edge (`x < t or width - x <= t or y < t or height - y <= t`). */
  predicate InBand(width: int, height: int, p: Pos, thickness: int) {
    p.x < thickness || width - p.x <= thickness || p.y < thickness || height - p.y <= thickness
  }

  function LineGridEdge(g: TileGrid, newType: TileTypeEnum, thickness: int): (r: TileGrid)
    requires g.Valid()
    ensures r.Valid() && SameShape(r, g)
    ensures forall p | r.In(p) && !InBand(g.width, g.height, p, thickness) :: r.At(p) == g.At(p)
  {
    Remap(g, (p: Pos, t: TileTypeEnum) => if InBand(g.width, g.height, p, thickness) then newType else t)
  }

  /** After lining, the band holds `newType` and every cell that holds
      anything else lies at least `thickness` cells from each edge. This is
      the border the maze carver relies on to keep its probes in the grid. */
  lemma LineGridEdgeBand(g: TileGrid, newType: TileTypeEnum, thickness: int)
    requires g.Valid()
    ensures var r := LineGridEdge(g, newType, thickness);
      && (forall p | r.In(p) && InBand(g.width, g.height, p, thickness) :: r.At(p) == newType)
      && (forall p | r.In(p) && r.At(p) != newType ::
            thickness <= p.x < g.width - thickness && thickness <= p.y < g.height - thickness)
  {
  }

  // ---------------------------------------------------------------------
  // replace_type

  function ReplaceType(g: TileGrid, oldType: TileTypeEnum, newType: TileTypeEnum): (r: TileGrid)
    requires g.Valid()
    ensures r.Valid() && SameShape(r, g)
    ensures forall p | r.In(p) && g.At(p) != oldType :: r.At(p) == g.At(p)
  {
    Remap(g, (p: Pos, t: TileTypeEnum) => if t == oldType then newType else t)
  }

  /** Replacing moves every `oldType` cell over to `newType`: none is left,
      and the `newType` cells are exactly the old and the former `newType`
      cells together. */
  lemma ReplaceTypeMovesCells(g: TileGrid, oldType: TileTypeEnum, newType: TileTypeEnum)
    requires g.Valid()
    requires oldType != newType
    ensures CellsOf(ReplaceType(g, oldType, newType), oldType) == {}
    ensures CellsOf(ReplaceType(g, oldType, newType), newType) == CellsOf(g, newType) + CellsOf(g, oldType)
  {
    var r := ReplaceType(g, oldType, newType);
    ReplacedCells(g, r, oldType, newType);
  }

  /** The cell sets of a grid `r` that is `g` with `oldType` rewritten. */
  lemma ReplacedCells(g: TileGrid, r: TileGrid, oldType: TileTypeEnum, newType: TileTypeEnum)
    requires g.Valid() && r.Valid() && SameShape(r, g) && oldType != newType
    requires forall p | r.In(p) :: r.At(p) == if g.At(p) == oldType then newType else g.At(p)
    ensures CellsOf(r, oldType) == {}
    ensures CellsOf(r, newType) == CellsOf(g, newType) + CellsOf(g, oldType)
  {
    forall p ensures p in CellsOf(r, newType) <==> p in CellsOf(g, newType) + CellsOf(g, oldType) {
      InCellsOf(r, newType, p);
      InCellsOf(g, newType, p);
      InCellsOf(g, oldType, p);
    }
    forall p ensures p !in CellsOf(r, oldType) {
      InCellsOf(r, oldType, p);
    }
  }

  // ---------------------------------------------------------------------
  // scale_grid_up

  /** Nearest-neighbour upscaling by `k`: output cell (x, y) is source cell
      (x div k, y div k); `int(x / k)` truncates, which for the source's
      non-negative coordinates is Dafny's division. */
  function Upscale<T>(g: Grid<T>, k: nat): (r: Grid<T>)
    requires g.Valid() && k >= 1
    ensures r.Valid() && r.width == g.width * k && r.height == g.height * k
  {
    Grid(g.width * k, g.height * k,
      seq(g.width * k, x requires 0 <= x < g.width * k =>
        DivBelow(x, k, g.width);
        seq(g.height * k, y requires 0 <= y < g.height * k =>
          DivBelow(y, k, g.height);
          g.cells[x / k][y / k])))
  }

  lemma DivBelow(x: int, k: int, n: int)
    requires 0 <= x < n * k && k >= 1
    ensures 0 <= x / k < n
  {
    var q, r := x / k, x % k;
    assert x == q * k + r && 0 <= r < k;
    MulBounds(q, k);
    MulBounds(q - n, k);
    MulSub(q, n, k);
  }

  /** A non-zero multiple of `k` is at least `k` away from zero. */
  lemma MulBounds(d: int, k: int)
    requires k >= 1
    ensures d >= 1 ==> d * k >= k
    ensures d <= -1 ==> d * k <= -k
    ensures d >= 0 ==> d * k >= 0
  {
    if d >= 1 {
      MulSub(d, 1, k);
      MulNonNegative(d - 1, k);
    } else if d <= -1 {
      MulSub(0, -d, k);
      MulSub(-d, 1, k);
      MulNonNegative(-d - 1, k);
    } else if d == 0 {
      assert d * k == 0;
    }
  }

  lemma MulNonNegative(a: int, b: int)
    requires a >= 0 && b >= 0
    ensures a * b >= 0
  {
  }

  lemma MulSub(a: int, b: int, k: int)
    ensures (a - b) * k == a * k - b * k
  {
  }

  /** `scale_grid_up`: ValueError for `k < 1`; otherwise both grids scaled. */
  function ScaleGridUp<T>(g: Grid<T>, collision: CollisionGrid, k: int): (r: Result<(Grid<T>, CollisionGrid)>)
    requires g.Valid() && collision.Valid() && SameShape(g, collision)
    ensures r.Err? <==> k < 1
    ensures r.Err? ==> r.failure == InvalidParameter
    ensures r.Ok? ==>
      && r.value.0.Valid() && r.value.1.Valid()
      && r.value.0.width == g.width * k && r.value.0.height == g.height * k
      && SameShape(r.value.1, r.value.0)
  {
    if k < 1 then Err(InvalidParameter)
    else Ok((Upscale(g, k), Upscale(collision, k)))
  }

  /** Every output cell copies the source cell its coordinates divide down to. */
  lemma UpscaleCopiesBlocks<T>(g: Grid<T>, k: nat, p: Pos)
    requires g.Valid() && k >= 1
    requires Upscale(g, k).In(p)
    ensures g.In(Pos(p.x / k, p.y / k))
    ensures Upscale(g, k).At(p) == g.At(Pos(p.x / k, p.y / k))
  {
    DivBelow(p.x, k, g.width);
    DivBelow(p.y, k, g.height);
  }

  /** Scaling up a grid that holds one value everywhere gives such a grid. */
  lemma UpscaleKeepsUniform<T>(g: Grid<T>, k: nat, v: T)
    requires g.Valid() && k >= 1
    requires forall p | g.In(p) :: g.At(p) == v
    ensures forall p | Upscale(g, k).In(p) :: Upscale(g, k).At(p) == v
  {
    forall p | Upscale(g, k).In(p) ensures Upscale(g, k).At(p) == v {
      UpscaleCopiesBlocks(g, k, p);
    }
  }

  lemma DivBelowUnit(x: int, k: int, n: int)
    requires k >= 1 && 0 <= x < n
    ensures x * k < n * k
  {
    MulBounds(n - x, k);
    MulSub(n, x, k);
  }

  lemma MulDivCancels(x: nat, k: nat)
    requires k >= 1
    ensures (x * k) / k == x
  {
    var q, r := (x * k) / k, (x * k) % k;
    assert x * k == q * k + r && 0 <= r < k;
    MulSub(x, q, k);
    MulBounds(x - q, k);
  }

  lemma UpscaleCell<T>(g: Grid<T>, k: nat, a: nat, b: nat)
    requires g.Valid() && k >= 1 && a < g.width * k && b < g.height * k
    ensures a / k < g.width && b / k < g.height
    ensures Upscale(g, k).cells[a][b] == g.cells[a / k][b / k]
  {
    DivBelow(a, k, g.width);
    DivBelow(b, k, g.height);
  }

  /** Upscaling loses nothing: sampling every `k`-th cell of the scaled grid
      gives back the source grid. */
  lemma UpscaleRoundTrip<T>(g: Grid<T>, k: nat)
    requires g.Valid() && k >= 1
    ensures forall p | g.In(p) ::
      && Upscale(g, k).In(Pos(p.x * k, p.y * k))
      && Upscale(g, k).At(Pos(p.x * k, p.y * k)) == g.At(p)
  {
    forall p | g.In(p)
      ensures Upscale(g, k).In(Pos(p.x * k, p.y * k))
      ensures Upscale(g, k).At(Pos(p.x * k, p.y * k)) == g.At(p)
    {
      var a, b := p.x * k, p.y * k;
      MulDivCancels(p.x, k);
      MulDivCancels(p.y, k);
      DivBelowUnit(p.x, k, g.width);
      DivBelowUnit(p.y, k, g.height);
      UpscaleCell(g, k, a, b);
    }
  }

  // ---------------------------------------------------------------------
  // trim_edges

  /** How many of `ps` lie inside the grid and hold `t`. */
  function CountHolding(g: TileGrid, ps: seq<Pos>, t: TileTypeEnum): nat
    requires g.Valid()
  {
    if |ps| == 0 then 0
    else (if g.In(ps[0]) && g.At(ps[0]) == t then 1 else 0) + CountHolding(g, ps[1..], t)
  }

  /** The in-grid 4-neighbours of `p` holding `edgeType`. */
  function EdgeCount(g: TileGrid, p: Pos, edgeType: TileTypeEnum): nat
    requires g.Valid()
  {
    CountHolding(g, Neighbours4(p), edgeType)
  }

  function Holds(g: TileGrid, q: Pos, t: TileTypeEnum): nat
    requires g.Valid()
  {
    if g.In(q) && g.At(q) == t then 1 else 0
  }

  lemma EdgeCountUnfolds(g: TileGrid, p: Pos, t: TileTypeEnum)
    requires g.Valid()
    ensures EdgeCount(g, p, t) ==
      Holds(g, Pos(p.x - 1, p.y), t) + Holds(g, Pos(p.x + 1, p.y), t) +
      Holds(g, Pos(p.x, p.y - 1), t) + Holds(g, Pos(p.x, p.y + 1), t)
  {
    var ns := Neighbours4(p);
    assert ns[1..][1..][1..][1..] == [];
    assert CountHolding(g, ns[1..][1..][1..], t) == Holds(g, ns[3], t);
    assert CountHolding(g, ns[1..][1..], t) == Holds(g, ns[2], t) + Holds(g, ns[3], t);
    assert CountHolding(g, ns[1..], t) == Holds(g, ns[1], t) + Holds(g, ns[2], t) + Holds(g, ns[3], t);
  }

  /** The four guarded probes of one `trim_edges` cell visit. */
  method CountEdges(g: TileGrid, p: Pos, edgeType: TileTypeEnum) returns (edgeCount: nat)
    requires g.Valid() && g.In(p)
    ensures edgeCount == EdgeCount(g, p, edgeType)
    ensures edgeCount <= 4
  {
    EdgeCountUnfolds(g, p, edgeType);
    edgeCount := 0;
    if !(p.x - 1 < 0) {
      if g.At(Pos(p.x - 1, p.y)) == edgeType {
        edgeCount := edgeCount + 1;
      }
    }
    if !(p.x + 1 > g.width - 1) {
      if g.At(Pos(p.x + 1, p.y)) == edgeType {
        edgeCount := edgeCount + 1;
      }
    }
    if !(p.y - 1 < 0) {
      if g.At(Pos(p.x, p.y - 1)) == edgeType {
        edgeCount := edgeCount + 1;
      }
    }
    if !(p.y + 1 > g.height - 1) {
      if g.At(Pos(p.x, p.y + 1)) == edgeType {
        edgeCount := edgeCount + 1;
      }
    }
  }

  /** `p` comes before column `x`, row `y` in the x-then-y sweep. */
  predicate Before(p: Pos, x: int, y: int) {
    p.x < x || (p.x == x && p.y < y)
  }

  /** One pass of `trim_edges`: every cell, whatever it holds, whose
      in-grid 4-neighbours of `edgeType` number at most `minimumEdges` in
      the pre-pass grid is rewritten to `replacement`. */
  method TrimPass(g: TileGrid, edgeType: TileTypeEnum, replacement: TileTypeEnum, minimumEdges: int)
    returns (r: TileGrid)
    requires g.Valid()
    ensures r.Valid() && SameShape(r, g)
    ensures forall p | r.In(p) ::
      r.At(p) == if EdgeCount(g, p, edgeType) <= minimumEdges then replacement else g.At(p)
  {
    var edgesFound: seq<Pos> := [];
    for x := 0 to g.width
      invariant forall i | 0 <= i < |edgesFound| :: g.In(edgesFound[i])
      invariant forall p | g.In(p) :: p in edgesFound <==> Before(p, x, 0) && EdgeCount(g, p, edgeType) <= minimumEdges
    {
      for y := 0 to g.height
        invariant forall i | 0 <= i < |edgesFound| :: g.In(edgesFound[i])
        invariant forall p | g.In(p) :: p in edgesFound <==> Before(p, x, y) && EdgeCount(g, p, edgeType) <= minimumEdges
      {
        var edgeCount := CountEdges(g, Pos(x, y), edgeType);
        if edgeCount <= minimumEdges {
          edgesFound := edgesFound + [Pos(x, y)];
        }
      }
    }
    r := WriteAll(g, edgesFound, replacement);
  }

  /** A pass rewrites cells only to `replacement`, so when that is not the
      edge type it never creates an edge-type cell. */
  lemma TrimPassKeepsEdgeCount(g: TileGrid, r: TileGrid, edgeType: TileTypeEnum, replacement: TileTypeEnum)
    requires g.Valid() && r.Valid() && SameShape(r, g)
    requires forall p | r.In(p) :: r.At(p) == g.At(p) || r.At(p) == replacement
    requires replacement != edgeType
    ensures |CellsOf(r, edgeType)| <= |CellsOf(g, edgeType)|
  {
    CellsOfShrink(g, r, edgeType);
  }

  /** `trim_edges`: `passCount` passes, each against the grid the previous
      pass left. */
  method TrimEdges(g: TileGrid, edgeType: TileTypeEnum, replacement: TileTypeEnum, minimumEdges: int, passCount: int)
    returns (r: TileGrid)
    requires g.Valid()
    ensures r.Valid() && SameShape(r, g)
    ensures forall p | r.In(p) :: r.At(p) == g.At(p) || r.At(p) == replacement
    ensures replacement != edgeType ==> |CellsOf(r, edgeType)| <= |CellsOf(g, edgeType)|
  {
    r := g;
    var i := 0;
    while i < passCount
      invariant r.Valid() && SameShape(r, g)
      invariant forall p | r.In(p) :: r.At(p) == g.At(p) || r.At(p) == replacement
      invariant replacement != edgeType ==> |CellsOf(r, edgeType)| <= |CellsOf(g, edgeType)|
    {
      var next := TrimPass(r, edgeType, replacement, minimumEdges);
      if replacement != edgeType {
        TrimPassKeepsEdgeCount(r, next, edgeType, replacement);
      }
      r := next;
      i := i + 1;
    }
  }

  // ---------------------------------------------------------------------
  // add_rim_to_tile_type

  /** The eight neighbours in the order `add_rim_to_tile_type` probes them. */
  function Neighbours8(p: Pos): seq<Pos> {
    [Pos(p.x - 1, p.y), Pos(p.x - 1, p.y - 1), Pos(p.x, p.y - 1), Pos(p.x + 1, p.y),
     Pos(p.x + 1, p.y + 1), Pos(p.x, p.y + 1), Pos(p.x + 1, p.y - 1), Pos(p.x - 1, p.y + 1)]
  }

  lemma Neighbours8AreAdjacent8(p: Pos, q: Pos)
    ensures q in Neighbours8(p) <==> Adjacent8(p, q)
  {
  }

  /** `tile_type_to_replace is None or tile == tile_type_to_replace` */
  predicate Replaceable(t: TileTypeEnum, toReplace: Option<TileTypeEnum>) {
    toReplace.None? || t == toReplace.value
  }

  /** Some 8-neighbour of `p` inside the grid holds `toRim`. */
  ghost predicate NextToRimSource(g: TileGrid, p: Pos, toRim: TileTypeEnum)
    requires g.Valid()
  {
    exists s :: Adjacent8(s, p) && g.In(s) && g.At(s) == toRim
  }

  /** The cells `add_rim_to_tile_type` rewrites, judged on the pre-call grid. */
  ghost predicate RimTarget(g: TileGrid, p: Pos, toRim: TileTypeEnum, toReplace: Option<TileTypeEnum>)
    requires g.Valid()
  {
    g.In(p) && Replaceable(g.At(p), toReplace) && NextToRimSource(g, p, toRim)
  }

  /** `add_rim_to_tile_type`: collect every replaceable 8-neighbour of every
      `toRim` cell, then write `rimType` over all of them. A cell rewritten
      in this call never seeds further rim in the same call. */
  method AddRim(g: TileGrid, toRim: TileTypeEnum, rimType: TileTypeEnum, toReplace: Option<TileTypeEnum>)
    returns (r: TileGrid)
    requires g.Valid()
    ensures r.Valid() && SameShape(r, g)
    ensures forall p | r.In(p) :: r.At(p) == if RimTarget(g, p, toRim, toReplace) then rimType else g.At(p)
  {
    var tilesToRim: seq<Pos> := [];
    for x := 0 to g.width
      invariant forall i | 0 <= i < |tilesToRim| :: RimTarget(g, tilesToRim[i], toRim, toReplace)
      invariant forall s, k | g.In(s) && Before(s, x, 0) && g.At(s) == toRim && 0 <= k < 8 ::
        g.In(Neighbours8(s)[k]) && Replaceable(g.At(Neighbours8(s)[k]), toReplace) ==> Neighbours8(s)[k] in tilesToRim
    {
      for y := 0 to g.height
        invariant forall i | 0 <= i < |tilesToRim| :: RimTarget(g, tilesToRim[i], toRim, toReplace)
        invariant forall s, k | g.In(s) && Before(s, x, y) && g.At(s) == toRim && 0 <= k < 8 ::
          g.In(Neighbours8(s)[k]) && Replaceable(g.At(Neighbours8(s)[k]), toReplace) ==> Neighbours8(s)[k] in tilesToRim
      {
        if g.At(Pos(x, y)) == toRim {
          tilesToRim := CollectRim(g, Pos(x, y), toRim, toReplace, tilesToRim);
        }
      }
    }
    RimTargetsCollected(g, toRim, toReplace, tilesToRim);
    r := WriteAll(g, tilesToRim, rimType);
  }

  /** The inner `for neighbour in ...` loop for one `toRim` cell `s`:
      append every replaceable neighbour inside the grid. */
  method CollectRim(g: TileGrid, s: Pos, toRim: TileTypeEnum, toReplace: Option<TileTypeEnum>, acc: seq<Pos>)
    returns (r: seq<Pos>)
    requires g.Valid() && g.In(s) && g.At(s) == toRim
    requires forall i | 0 <= i < |acc| :: RimTarget(g, acc[i], toRim, toReplace)
    ensures forall i | 0 <= i < |r| :: RimTarget(g, r[i], toRim, toReplace)
    ensures forall k | 0 <= k < 8 ::
      g.In(Neighbours8(s)[k]) && Replaceable(g.At(Neighbours8(s)[k]), toReplace) ==> Neighbours8(s)[k] in r
    ensures forall q | q in acc :: q in r
  {
    r := acc;
    for k := 0 to 8
      invariant forall i | 0 <= i < |r| :: RimTarget(g, r[i], toRim, toReplace)
      invariant forall j | 0 <= j < k ::
        g.In(Neighbours8(s)[j]) && Replaceable(g.At(Neighbours8(s)[j]), toReplace) ==> Neighbours8(s)[j] in r
      invariant forall q | q in acc :: q in r
    {
      var n := Neighbours8(s)[k];
      if g.In(n) && Replaceable(g.At(n), toReplace) {
        Neighbours8AreAdjacent8(s, n);
        assert Adjacent8(s, n);
        r := r + [n];
      }
    }
  }

  /** Once every `toRim` cell has been visited, every rim target has been
      collected. */
  lemma RimTargetsCollected(g: TileGrid, toRim: TileTypeEnum, toReplace: Option<TileTypeEnum>, collected: seq<Pos>)
    requires g.Valid()
    requires forall s, k | g.In(s) && Before(s, g.width, 0) && g.At(s) == toRim && 0 <= k < 8 ::
      g.In(Neighbours8(s)[k]) && Replaceable(g.At(Neighbours8(s)[k]), toReplace) ==> Neighbours8(s)[k] in collected
    ensures forall p | RimTarget(g, p, toRim, toReplace) :: p in collected
  {
    forall p | RimTarget(g, p, toRim, toReplace) ensures p in collected {
      var s :| Adjacent8(s, p) && g.In(s) && g.At(s) == toRim;
      Neighbours8AreAdjacent8(s, p);
      var k :| 0 <= k < 8 && Neighbours8(s)[k] == p;
      assert Before(s, g.width, 0);
    }
  }

  /** The rim grows by one ring per call: a cell that holds `rimType` after
      the call either already held it or touched a `toRim` cell before it. */
  lemma AddRimGrowsOneRing(g: TileGrid, r: TileGrid, toRim: TileTypeEnum, rimType: TileTypeEnum,
                           toReplace: Option<TileTypeEnum>, p: Pos)
    requires g.Valid() && r.Valid() && SameShape(r, g) && g.In(p)
    requires forall q | r.In(q) :: r.At(q) == if RimTarget(g, q, toRim, toReplace) then rimType else g.At(q)
    requires r.At(p) == rimType && g.At(p) != rimType
    ensures exists s :: Adjacent8(s, p) && g.In(s) && g.At(s) == toRim
  {
  }

  // ---------------------------------------------------------------------
  // add_tile_types_to_collision_grid

  /** Marks as blocking every cell whose tile is one of `tileTypes`; other
      cells keep their collision value. */
  function AddTileTypesToCollisionGrid(g: TileGrid, collision: CollisionGrid, tileTypes: seq<TileTypeEnum>)
    : (r: CollisionGrid)
    requires g.Valid() && collision.Valid() && SameShape(g, collision)
    ensures r.Valid() && SameShape(r, collision)
    ensures forall p | r.In(p) :: r.At(p) <==> collision.At(p) || g.At(p) in tileTypes
  {
    Remap(collision, (p: Pos, blocked: bool) => if g.In(p) && g.At(p) in tileTypes then true else blocked)
  }
}

=== FILE: tile_type_enum.dfy ===
/** The four enumerations of level/tile_type_enum.py and their
    `get_enum_for_value` parsers.

    Each parser walks the members in declaration order and returns the first
    one whose value equals the string, raising ValueError when none does.
    The walk is modelled once, generically, by `FirstWithValue`; the member
    lists below fix the declaration order. */
module TileTypeEnums {
  import opened Outcomes

  datatype TileTypeEnum =
    | Blank | PlainTile | RedTile | BlueTile | WallTile
    | StoneFloor | SnowFloor | StoneTile | StoneTiles | NeonTile

  datatype TileFormatEnum = Simple | Connectable

  datatype DecoratorEnum = Tree

  datatype DecoratorCollisionFormatEnum = Circle | Rectangle

  const TileTypeMembers: seq<TileTypeEnum> :=
    [Blank, PlainTile, RedTile, BlueTile, WallTile,
     StoneFloor, SnowFloor, StoneTile, StoneTiles, NeonTile]

  const TileFormatMembers: seq<TileFormatEnum> := [Simple, Connectable]

  const DecoratorMembers: seq<DecoratorEnum> := [Tree]

  const DecoratorCollisionFormatMembers: seq<DecoratorCollisionFormatEnum> := [Circle, Rectangle]

  function TileTypeValue(e: TileTypeEnum): string {
    match e
    case Blank => "BLANK"
    case PlainTile => "floor_tile"
    case RedTile => "red_tile"
    case BlueTile => "blue_tile"
    case WallTile => "WALL_TILE"
    case StoneFloor => "STONE_FLOOR"
    case SnowFloor => "SNOW_FLOOR"
    case StoneTile => "STONE_TILE"
    case StoneTiles => "STONE_TILES"
    case NeonTile => "NEON_TILE"
  }

  function TileFormatValue(e: TileFormatEnum): string {
    match e
    case Simple => "SIMPLE"
    case Connectable => "CONNECTABLE"
  }

  function DecoratorValue(e: DecoratorEnum): string {
    match e
    case Tree => "TREE"
  }

  function DecoratorCollisionFormatValue(e: DecoratorCollisionFormatEnum): string {
    match e
    case Circle => "CIRCLE"
    case Rectangle => "RECTANGLE"
  }

  /** No two members of `members` share a value. */
  ghost predicate DistinctValues<E>(members: seq<E>, valueOf: E -> string) {
    forall i, j | 0 <= i < j < |members| :: valueOf(members[i]) != valueOf(members[j])
  }

  /** The first member of `members` whose value is `v`, as the parsers'
      `for enum in ...: if enum.value == value_in: return enum` loop finds it. */
  function FirstWithValue<E>(members: seq<E>, valueOf: E -> string, v: string): (r: Option<E>)
    ensures r.Some? ==> r.value in members && valueOf(r.value) == v
    ensures r.None? <==> forall i | 0 <= i < |members| :: valueOf(members[i]) != v
  {
    if |members| == 0 then None
    else if valueOf(members[0]) == v then Some(members[0])
    else FirstWithValue(members[1..], valueOf, v)
  }

  /** With distinct values, looking up a member's own value finds that member. */
  lemma {:induction false} FirstWithValueFindsMember<E>(members: seq<E>, valueOf: E -> string, e: E)
    requires DistinctValues(members, valueOf)
    requires e in members
    ensures FirstWithValue(members, valueOf, valueOf(e)) == Some(e)
  {
    if members[0] != e {
      assert e in members[1..];
      assert valueOf(members[0]) != valueOf(e) by {
        var k :| 0 <= k < |members| && members[k] == e;
        assert k > 0;
      }
      assert DistinctValues(members[1..], valueOf) by {
        forall i, j | 0 <= i < j < |members[1..]|
          ensures valueOf(members[1..][i]) != valueOf(members[1..][j])
        {
          assert members[1..][i] == members[i + 1] && members[1..][j] == members[j + 1];
        }
      }
      FirstWithValueFindsMember(members[1..], valueOf, e);
    }
  }

  function TileTypeFromValue(v: string): (r: Result<TileTypeEnum>)
    ensures r.Ok? ==> TileTypeValue(r.value) == v
    ensures r.Err? ==> r.failure == UnrecognisedValue(v)
  {
    match FirstWithValue(TileTypeMembers, TileTypeValue, v)
    case Some(e) => Ok(e)
    case None => Err(UnrecognisedValue(v))
  }

  function TileFormatFromValue(v: string): (r: Result<TileFormatEnum>)
    ensures r.Ok? ==> TileFormatValue(r.value) == v
    ensures r.Err? ==> r.failure == UnrecognisedValue(v)
  {
    match FirstWithValue(TileFormatMembers, TileFormatValue, v)
    case Some(e) => Ok(e)
    case None => Err(UnrecognisedValue(v))
  }

  function DecoratorFromValue(v: string): (r: Result<DecoratorEnum>)
    ensures r.Ok? ==> DecoratorValue(r.value) == v
    ensures r.Err? ==> r.failure == UnrecognisedValue(v)
  {
    match FirstWithValue(DecoratorMembers, DecoratorValue, v)
    case Some(e) => Ok(e)
    case None => Err(UnrecognisedValue(v))
  }

  function DecoratorCollisionFormatFromValue(v: string): (r: Result<DecoratorCollisionFormatEnum>)
    ensures r.Ok? ==> DecoratorCollisionFormatValue(r.value) == v
    ensures r.Err? ==> r.failure == UnrecognisedValue(v)
  {
    match FirstWithValue(DecoratorCollisionFormatMembers, DecoratorCollisionFormatValue, v)
    case Some(e) => Ok(e)
    case None => Err(UnrecognisedValue(v))
  }

  /** Member values are pairwise distinct in every enumeration, so the
      first-match lookup never has to choose between two members. */
  lemma ValuesAreDistinct()
    ensures DistinctValues(TileTypeMembers, TileTypeValue)
    ensures DistinctValues(TileFormatMembers, TileFormatValue)
    ensures DistinctValues(DecoratorMembers, DecoratorValue)
    ensures DistinctValues(DecoratorCollisionFormatMembers, DecoratorCollisionFormatValue)
  {
  }

  /** Parsing a member's value gives the member back. */
  lemma TileTypeRoundTrip(e: TileTypeEnum)
    ensures TileTypeFromValue(TileTypeValue(e)) == Ok(e)
  {
    ValuesAreDistinct();
    assert TileTypeMembers[TileTypeIndex(e)] == e;
    FirstWithValueFindsMember(TileTypeMembers, TileTypeValue, e);
  }

  lemma TileFormatRoundTrip(e: TileFormatEnum)
    ensures TileFormatFromValue(TileFormatValue(e)) == Ok(e)
  {
    ValuesAreDistinct();
    assert e in TileFormatMembers by { match e case _ => }
    FirstWithValueFindsMember(TileFormatMembers, TileFormatValue, e);
  }

  lemma DecoratorRoundTrip(e: DecoratorEnum)
    ensures DecoratorFromValue(DecoratorValue(e)) == Ok(e)
  {
    ValuesAreDistinct();
    assert e in DecoratorMembers by { match e case _ => }
    FirstWithValueFindsMember(DecoratorMembers, DecoratorValue, e);
  }

  lemma DecoratorCollisionFormatRoundTrip(e: DecoratorCollisionFormatEnum)
    ensures DecoratorCollisionFormatFromValue(DecoratorCollisionFormatValue(e)) == Ok(e)
  {
    ValuesAreDistinct();
    assert e in DecoratorCollisionFormatMembers by { match e case _ => }
    FirstWithValueFindsMember(DecoratorCollisionFormatMembers, DecoratorCollisionFormatValue, e);
  }

  /** The position of `e` in the declaration order. */
  function TileTypeIndex(e: TileTypeEnum): (i: nat)
    ensures i < |TileTypeMembers| && TileTypeMembers[i] == e
  {
    match e
    case Blank => 0
    case PlainTile => 1
    case RedTile => 2
    case BlueTile => 3
    case WallTile => 4
    case StoneFloor => 5
    case SnowFloor => 6
    case StoneTile => 7
    case StoneTiles => 8
    case NeonTile => 9
  }

  /** A string is rejected exactly when it is no member's value. */
  lemma TileTypeRejectsUnknown(v: string)
    ensures TileTypeFromValue(v).Err? <==> forall e: TileTypeEnum :: TileTypeValue(e) != v
  {
    if TileTypeFromValue(v).Err? {
      forall e: TileTypeEnum ensures TileTypeValue(e) != v {
        var i := TileTypeIndex(e);
        assert TileTypeMembers[i] == e;
      }
    } else {
      TileTypeRoundTrip(TileTypeFromValue(v).value);
    }
  }

  lemma TileFormatRejectsUnknown(v: string)
    ensures TileFormatFromValue(v).Err? <==> forall e: TileFormatEnum :: TileFormatValue(e) != v
  {
    if TileFormatFromValue(v).Err? {
      forall e: TileFormatEnum ensures TileFormatValue(e) != v {
        match e
        case Simple => assert TileFormatMembers[0] == e;
        case Connectable => assert TileFormatMembers[1] == e;
      }
    }
  }

  lemma DecoratorRejectsUnknown(v: string)
    ensures DecoratorFromValue(v).Err? <==> forall e: DecoratorEnum :: DecoratorValue(e) != v
  {
    if DecoratorFromValue(v).Err? {
      forall e: DecoratorEnum ensures DecoratorValue(e) != v {
        assert DecoratorMembers[0] == e;
      }
    }
  }

  lemma DecoratorCollisionFormatRejectsUnknown(v: string)
    ensures DecoratorCollisionFormatFromValue(v).Err? <==>
            forall e: DecoratorCollisionFormatEnum :: DecoratorCollisionFormatValue(e) != v
  {
    if DecoratorCollisionFormatFromValue(v).Err? {
      forall e: DecoratorCollisionFormatEnum ensures DecoratorCollisionFormatValue(e) != v {
        match e
        case Circle => assert DecoratorCollisionFormatMembers[0] == e;
        case Rectangle => assert DecoratorCollisionFormatMembers[1] == e;
      }
    }
  }
}

=== FILE: tileset_loader.dfy ===
/** The tileset: connectable-tile sprite selection and the tile and
    decorator dictionaries.

    A connectable tile is drawn from a 5 by 9 sprite sheet of 40-pixel
    cells. Which cell is chosen depends on the nine-cell neighbourhood
    around the tile (row-major, centre at index 4, `true` where the
    neighbour connects): the first table entry with exactly that pattern
    wins; failing that, the four corners are cleared and the table is
    searched again; failing that, a fixed default cell is used. */
module Tilesets {
  import opened Outcomes
  import opened TileTypeEnums

  /** A source rectangle on the sprite sheet, in pixels. */
  datatype Rect = Rect(x: int, y: int, w: int, h: int)

  /** One entry of `complex_format_image_definitions`. */
  datatype Section = Section(pattern: seq<bool>, rect: Rect)

  /** Entry `i` of `complex_format_image_definitions`, in source order:
      43 sheet cells followed by 12 extra patterns that reuse earlier
      cells. */
  function SpriteEntry(i: nat): Section
    requires i < SpriteCount
  {
    if i == 0 then Section([false, false, false, false, true, false, false, false, false], Rect(0, 0, 40, 40))
    else if i == 1 then Section([false, false, false, true, true, false, false, false, false], Rect(40, 0, 40, 40))
    else if i == 2 then Section([false, true, false, false, true, false, false, false, false], Rect(80, 0, 40, 40))
    else if i == 3 then Section([false, false, false, false, true, false, false, true, false], Rect(120, 0, 40, 40))
    else if i == 4 then Section([false, false, false, false, true, true, false, false, false], Rect(160, 0, 40, 40))
    else if i == 5 then Section([false, true, false, false, true, false, false, true, false], Rect(0, 40, 40, 40))
    else if i == 6 then Section([false, false, false, true, true, true, false, false, false], Rect(40, 40, 40, 40))
    else if i == 7 then Section([false, false, false, true, true, false, false, true, false], Rect(80, 40, 40, 40))
    else if i == 8 then Section([false, true, false, false, true, true, false, false, false], Rect(120, 40, 40, 40))
    else if i == 9 then Section([false, true, false, true, true, true, false, false, false], Rect(160, 40, 40, 40))
    else if i == 10 then Section([false, true, false, true, true, false, false, true, false], Rect(0, 80, 40, 40))
    else if i == 11 then Section([false, false, false, true, true, true, false, true, false], Rect(40, 80, 40, 40))
    else if i == 12 then Section([false, true, false, false, true, true, false, true, false], Rect(80, 80, 40, 40))
    else if i == 13 then Section([false, true, false, true, true, true, false, true, false], Rect(120, 80, 40, 40))
    else if i == 14 then Section([true, true, false, true, true, false, false, false, false], Rect(160, 80, 40, 40))
    else if i == 15 then Section([false, true, true, false, true, true, false, false, false], Rect(0, 120, 40, 40))
    else if i == 16 then Section([false, false, false, true, true, false, true, true, false], Rect(40, 120, 40, 40))
    else if i == 17 then Section([false, false, false, false, true, true, false, true, true], Rect(80, 120, 40, 40))
    else if i == 18 then Section([false, true, true, false, true, true, false, true, true], Rect(120, 120, 40, 40))
    else if i == 19 then Section([false, false, false, true, true, true, true, true, true], Rect(160, 120, 40, 40))
    else if i == 20 then Section([true, true, false, true, true, false, true, true, false], Rect(0, 160, 40, 40))
    else if i == 21 then Section([true, true, true, true, true, true, false, false, false], Rect(40, 160, 40, 40))
    else if i == 22 then Section([true, true, true, true, true, true, false, true, true], Rect(80, 160, 40, 40))
    else if i == 23 then Section([true, true, false, true, true, true, true, true, true], Rect(120, 160, 40, 40))
    else if i == 24 then Section([false, true, true, true, true, true, true, true, true], Rect(160, 160, 40, 40))
    else if i == 25 then Section([true, true, true, true, true, true, true, true, false], Rect(0, 200, 40, 40))
    else if i == 26 then Section([false, true, true, true, true, true, true, true, false], Rect(40, 200, 40, 40))
    else if i == 27 then Section([true, true, false, true, true, true, false, true, true], Rect(80, 200, 40, 40))
    else if i == 28 then Section([true, true, false, true, true, true, true, true, false], Rect(120, 200, 40, 40))
    else if i == 29 then Section([false, true, true, true, true, true, false, true, true], Rect(160, 200, 40, 40))
    else if i == 30 then Section([false, true, false, true, true, true, true, true, true], Rect(0, 240, 40, 40))
    else if i == 31 then Section([true, true, true, true, true, true, false, true, false], Rect(40, 240, 40, 40))
    else if i == 32 then Section([true, true, false, true, true, false, false, true, false], Rect(80, 240, 40, 40))
    else if i == 33 then Section([false, true, true, true, true, true, false, false, false], Rect(120, 240, 40, 40))
    else if i == 34 then Section([false, true, false, false, true, true, false, true, true], Rect(160, 240, 40, 40))
    else if i == 35 then Section([false, false, false, true, true, true, true, true, false], Rect(0, 280, 40, 40))
    else if i == 36 then Section([true, true, false, true, true, true, false, false, false], Rect(40, 280, 40, 40))
    else if i == 37 then Section([false, true, true, false, true, true, false, true, false], Rect(80, 280, 40, 40))
    else if i == 38 then Section([false, false, false, true, true, true, false, true, true], Rect(120, 280, 40, 40))
    else if i == 39 then Section([false, true, false, true, true, false, true, true, false], Rect(160, 280, 40, 40))
    else if i == 40 then Section([true, true, true, true, true, true, true, true, true], Rect(0, 320, 40, 40))
    else if i == 41 then Section([false, true, false, true, true, false, false, false, false], Rect(40, 320, 40, 40))
    else if i == 42 then Section([false, false, false, false, true, true, false, true, false], Rect(80, 320, 40, 40))
    else if i == 43 then Section([true, true, false, true, true, false, true, true, true], Rect(0, 160, 40, 40))
    else if i == 44 then Section([true, true, true, true, true, false, true, true, false], Rect(0, 160, 40, 40))
    else if i == 45 then Section([false, true, true, false, true, true, true, true, true], Rect(120, 120, 40, 40))
    else if i == 46 then Section([true, true, true, false, true, true, false, true, true], Rect(120, 120, 40, 40))
    else if i == 47 then Section([false, false, true, true, true, true, true, true, true], Rect(160, 120, 40, 40))
    else if i == 48 then Section([true, false, false, true, true, true, true, true, true], Rect(160, 120, 40, 40))
    else if i == 49 then Section([true, true, true, true, true, true, true, false, false], Rect(40, 160, 40, 40))
    else if i == 50 then Section([true, true, true, true, true, true, false, false, true], Rect(40, 160, 40, 40))
    else if i == 51 then Section([false, false, true, true, true, false, true, true, false], Rect(40, 120, 40, 40))
    else if i == 52 then Section([true, false, false, false, true, true, false, true, true], Rect(80, 120, 40, 40))
    else if i == 53 then Section([true, true, false, true, true, false, false, false, true], Rect(160, 80, 40, 40))
    else Section([false, true, true, false, true, true, true, false, false], Rect(0, 120, 40, 40))
  }

  const SpriteCount: nat := 55

  /** The cell used when neither search finds the pattern. */
  const DefaultRect: Rect := Rect(160, 320, 40, 40)

  /** The first entry at index `from` or later whose pattern equals `s`:
      the `for section in ...: if surroundings == section[0]` scan. */
  function FindSection(s: seq<bool>, from: nat): (r: Option<nat>)
    requires from <= SpriteCount
    ensures r.Some? ==> from <= r.value < SpriteCount && SpriteEntry(r.value).pattern == s
    ensures r.Some? ==> forall j | from <= j < r.value :: SpriteEntry(j).pattern != s
    ensures r.None? ==> forall j | from <= j < SpriteCount :: SpriteEntry(j).pattern != s
    decreases SpriteCount - from
  {
    if from == SpriteCount then None
    else if SpriteEntry(from).pattern == s then Some(from)
    else FindSection(s, from + 1)
  }

  /** The four corner assignments `surroundings[0] = surroundings[2] =
      surroundings[6] = surroundings[8] = False`, which fail with an
      IndexError on a list shorter than nine. */
  function ClearCorners(s: seq<bool>): (r: seq<bool>)
    requires |s| >= 9
    ensures |r| == |s|
    ensures forall i | 0 <= i < |s| :: r[i] == if i == 0 || i == 2 || i == 6 || i == 8 then false else s[i]
  {
    s[0 := false][2 := false][6 := false][8 := false]
  }

  /** The chosen sheet cell, and the caller's neighbourhood list as the call
      leaves it: the fallback clears the corners in place. */
  datatype Positionals = Positionals(rect: Rect, surroundings: seq<bool>)

  /** `get_image_positionals_for_surroundings`. */
  function GetImagePositionalsForSurroundings(s: seq<bool>): (r: Positionals)
    requires |s| >= 9
    ensures FindSection(s, 0).Some? ==> r == Positionals(SpriteEntry(FindSection(s, 0).value).rect, s)
    ensures FindSection(s, 0).None? ==> r.surroundings == ClearCorners(s)
    ensures FindSection(s, 0).None? && FindSection(ClearCorners(s), 0).Some? ==>
      r.rect == SpriteEntry(FindSection(ClearCorners(s), 0).value).rect
    ensures FindSection(s, 0).None? && FindSection(ClearCorners(s), 0).None? ==> r.rect == DefaultRect
    ensures r.rect == DefaultRect || exists i | 0 <= i < SpriteCount :: r.rect == SpriteEntry(i).rect
  {
    var exact := FindSection(s, 0);
    if exact.Some? then Positionals(SpriteEntry(exact.value).rect, s)
    else
      var cleared := ClearCorners(s);
      var fallback := FindSection(cleared, 0);
      if fallback.Some? then Positionals(SpriteEntry(fallback.value).rect, cleared)
      else Positionals(DefaultRect, cleared)
  }

  /** Every pattern is a full neighbourhood whose centre is set. */
  lemma SpriteTableCentred()
    ensures forall i | 0 <= i < SpriteCount :: |SpriteEntry(i).pattern| == 9 && SpriteEntry(i).pattern[4]
  {
  }

  /** Every table rectangle is one 40-pixel cell of the 5 by 9 sheet, and
      none is the default cell. */
  lemma SpriteTableCells()
    ensures forall i | 0 <= i < SpriteCount :: SheetCell(SpriteEntry(i).rect) && SpriteEntry(i).rect != DefaultRect
  {
  }

  /** The last extra pattern has its own entry: it is found by the exact
      search and the caller's list is left as it was, rather than falling
      back to the corner-cleared cell at (120, 40). */
  lemma LastExtraPatternFound(s: seq<bool>)
    requires s == [false, true, true, false, true, true, true, false, false]
    ensures GetImagePositionalsForSurroundings(s) == Positionals(Rect(0, 120, 40, 40), s)
  {
    LastEntryIsPattern(s);
    EarlierEntriesDiffer();
    forall j | 0 <= j < SpriteCount - 1 ensures SpriteEntry(j).pattern != s {
      var p := SpriteEntry(j).pattern;
      assert p[0] != s[0] || p[6] != s[6] || p[7] != s[7];
    }
    assert FindSection(s, 0).Some?;
  }

  /** A pattern with no entry of its own falls back to the entry of its
      corner-cleared pattern: an upward arm with the top-left corner set is
      drawn with the plain upward arm at (80, 0). */
  lemma FallbackUsesClearedEntry(s: seq<bool>)
    requires s == [true, true, false, false, true, false, false, false, false]
    ensures GetImagePositionalsForSurroundings(s) == Positionals(Rect(80, 0, 40, 40), ClearCorners(s))
  {
    UpArmWithCornerHasNoEntry(s);
    var cleared := [false, true, false, false, true, false, false, false, false];
    assert ClearCorners(s) == cleared;
    UpArmEntry(cleared);
  }

  /** The plain upward arm is entry 2, at (80, 0). */
  lemma UpArmEntry(s: seq<bool>)
    requires s == [false, true, false, false, true, false, false, false, false]
    ensures FindSection(s, 0) == Some(2) && SpriteEntry(2).rect == Rect(80, 0, 40, 40)
  {
    assert SpriteEntry(0).pattern[1] != s[1] && SpriteEntry(1).pattern[1] != s[1];
  }

  /** No entry is the upward arm with the top-left corner set. */
  lemma UpArmWithCornerHasNoEntry(s: seq<bool>)
    requires s == [true, true, false, false, true, false, false, false, false]
    ensures forall j | 0 <= j < SpriteCount :: SpriteEntry(j).pattern != s
  {
    CornerEntriesHaveMore();
    forall j | 0 <= j < SpriteCount ensures SpriteEntry(j).pattern != s {
      var p := SpriteEntry(j).pattern;
      assert p[0] != s[0] || p[2] != s[2] || p[3] != s[3] || p[5] != s[5] || p[6] != s[6] || p[7] != s[7];
    }
  }

  /** Every entry with a set top-left corner also has the top-right corner,
      the left or right arm, the bottom-left corner or the lower arm set. */
  lemma CornerEntriesHaveMore()
    ensures forall j | 0 <= j < SpriteCount ::
      && |SpriteEntry(j).pattern| == 9
      && (var p := SpriteEntry(j).pattern; !p[0] || p[2] || p[3] || p[5] || p[6] || p[7])
  {
  }

  /** The last entry is that pattern at the cell (0, 120). */
  lemma LastEntryIsPattern(s: seq<bool>)
    requires s == [false, true, true, false, true, true, true, false, false]
    ensures SpriteEntry(SpriteCount - 1) == Section(s, Rect(0, 120, 40, 40))
  {
  }

  /** Every entry before the last has a set top-left corner, a clear
      bottom-left corner or a set bottom edge. */
  lemma EarlierEntriesDiffer()
    ensures forall j | 0 <= j < SpriteCount - 1 ::
      |SpriteEntry(j).pattern| == 9 &&
      (SpriteEntry(j).pattern[0] || !SpriteEntry(j).pattern[6] || SpriteEntry(j).pattern[7])
  {
  }

  /** A 40 by 40 cell at a multiple of 40 inside the 200 by 360 sheet. */
  predicate SheetCell(r: Rect) {
    r.w == 40 && r.h == 40 && r.x % 40 == 0 && r.y % 40 == 0 && 0 <= r.x <= 160 && 0 <= r.y <= 320
  }

  /** The table index of the corner-free pattern with the given edge
      neighbours (indices 1, 3, 5 and 7 of the neighbourhood). */
  function CornerFreeIndex(up: bool, left: bool, right: bool, down: bool): (i: nat)
    ensures i < SpriteCount
    ensures SpriteEntry(i).pattern == [false, up, false, left, true, right, false, down, false]
  {
    match (up, left, right, down)
    case (false, false, false, false) => 0
    case (false, false, false, true) => 3
    case (false, false, true, false) => 4
    case (false, false, true, true) => 42
    case (false, true, false, false) => 1
    case (false, true, false, true) => 7
    case (false, true, true, false) => 6
    case (false, true, true, true) => 11
    case (true, false, false, false) => 2
    case (true, false, false, true) => 5
    case (true, false, true, false) => 8
    case (true, false, true, true) => 12
    case (true, true, false, false) => 41
    case (true, true, false, true) => 10
    case (true, true, true, false) => 9
    case (true, true, true, true) => 13
  }

  /** The table covers all sixteen corner-free neighbourhoods, so the
      fallback search succeeds for every full neighbourhood whose centre is
      set. */
  lemma FallbackFindsCentred(s: seq<bool>)
    requires |s| == 9 && s[4]
    ensures FindSection(ClearCorners(s), 0).Some?
  {
    var i := CornerFreeIndex(s[1], s[3], s[5], s[7]);
    assert SpriteEntry(i).pattern == ClearCorners(s);
  }

  /** No entry matches a neighbourhood that is not nine long or whose
      centre is clear, before or after the corners are cleared. */
  lemma UncentredMatchesNothing(s: seq<bool>)
    requires |s| >= 9 && (|s| != 9 || !s[4])
    ensures FindSection(s, 0).None? && FindSection(ClearCorners(s), 0).None?
  {
    SpriteTableCentred();
    var cleared := ClearCorners(s);
    assert cleared[4] == s[4];
    assert forall j | 0 <= j < SpriteCount :: SpriteEntry(j).pattern != s;
    assert forall j | 0 <= j < SpriteCount :: SpriteEntry(j).pattern != cleared;
  }

  /** The default cell is drawn exactly when the neighbourhood is not nine
      long or its centre is clear. */
  lemma DefaultExactlyWhenCentreClear(s: seq<bool>)
    requires |s| >= 9
    ensures GetImagePositionalsForSurroundings(s).rect == DefaultRect <==> |s| != 9 || !s[4]
  {
    SpriteTableCells();
    if |s| == 9 && s[4] {
      FallbackFindsCentred(s);
    } else {
      UncentredMatchesNothing(s);
    }
  }

  /** Whatever the neighbourhood, the chosen rectangle is a sheet cell. */
  lemma PositionalsAreSheetCells(s: seq<bool>)
    requires |s| >= 9
    ensures SheetCell(GetImagePositionalsForSurroundings(s).rect)
  {
    SpriteTableCells();
  }

  /** A tile type of the tileset; images and animation are not modelled. */
  datatype TileType = TileType(tileType: TileTypeEnum, format: TileFormatEnum,
                               allowedConnections: seq<TileTypeEnum>) {

    /** `is_tile_type_allowed_for_connection`: the list scan of `in`. */
    function IsTileTypeAllowedForConnection(t: TileTypeEnum): (r: bool)
      ensures r <==> t in allowedConnections
    {
      Scan(allowedConnections, t)
    }
  }

  /** Python's `x in xs` on a list: a left-to-right equality scan. */
  function Scan<T(==)>(xs: seq<T>, x: T): (r: bool)
    ensures r <==> exists i | 0 <= i < |xs| :: xs[i] == x
  {
    if |xs| == 0 then false
    else if xs[0] == x then true
    else
      var rest := Scan(xs[1..], x);
      assert rest ==> exists i | 0 <= i < |xs| :: xs[i] == x by {
        if rest {
          var i :| 0 <= i < |xs| - 1 && xs[1..][i] == x;
          assert xs[i + 1] == x;
        }
      }
      rest
  }

  /** A decorator type of the tileset; images, animation and collision
      shapes are not modelled. */
  datatype DecoratorType = DecoratorType(decoratorType: DecoratorEnum, width: int, height: int, center: bool)

  /** The Python values the tileset constructor's duplicate check compares:
      type tags, and the tile and decorator objects it records. */
  datatype Value =
    | TileTag(tileTag: TileTypeEnum)
    | DecoratorTag(decoratorTag: DecoratorEnum)
    | TileObject(tile: TileType)
    | DecoratorObject(decorator: DecoratorType)

  /** The duplicate check of one constructor loop: entry `k` is rejected
      when `probes[k]` is among the values recorded before it, namely
      `identified` followed by `records[..k]`. */
  function Rejects(probes: seq<Value>, records: seq<Value>, identified: seq<Value>): (r: bool)
    requires |probes| == |records|
    ensures r <==> exists k | 0 <= k < |probes| :: Scan(identified + records[..k], probes[k])
    decreases |probes|
  {
    if |probes| == 0 then false
    else if Scan(identified, probes[0]) then
      assert identified + records[..0] == identified;
      true
    else
      var rest := Rejects(probes[1..], records[1..], identified + [records[0]]);
      RejectsShift(probes, records, identified);
      rest
  }

  lemma RejectsShift(probes: seq<Value>, records: seq<Value>, identified: seq<Value>)
    requires |probes| == |records| > 0
    ensures forall k | 1 <= k < |probes| ::
      identified + records[..k] == (identified + [records[0]]) + records[1..][..k - 1]
  {
    forall k | 1 <= k < |probes|
      ensures identified + records[..k] == (identified + [records[0]]) + records[1..][..k - 1]
    {
      assert records[..k] == [records[0]] + records[1..][..k - 1];
    }
  }

  /** The dictionary a constructor loop builds: each entry is stored under
      its key, a later entry replacing an earlier one. */
  function Register<K, V>(vs: seq<V>, key: V -> K, acc: map<K, V>): (r: map<K, V>)
    decreases |vs|
  {
    if |vs| == 0 then acc else Register(vs[1..], key, acc[key(vs[0]) := vs[0]])
  }

  /** Entry `i` is the last one of `vs` with its key. */
  ghost predicate LastWithKey<K, V>(vs: seq<V>, key: V -> K, i: nat)
    requires i < |vs|
  {
    forall j | i < j < |vs| :: key(vs[j]) != key(vs[i])
  }

  /** What `Register` builds: the keys of `acc` and of the entries, each
      entry's key mapped to the last entry with that key, and the keys
      no entry has left as `acc` held them. */
  lemma RegisterContents<K, V>(vs: seq<V>, key: V -> K, acc: map<K, V>)
    ensures var r := Register(vs, key, acc);
      && (forall k :: k in r <==> k in acc || exists i | 0 <= i < |vs| :: key(vs[i]) == k)
      && (forall i | 0 <= i < |vs| && LastWithKey(vs, key, i) :: key(vs[i]) in r && r[key(vs[i])] == vs[i])
      && (forall k | k in acc && forall i | 0 <= i < |vs| :: key(vs[i]) != k :: r[k] == acc[k])
  {
    RegisterKeys(vs, key, acc);
    RegisterLast(vs, key, acc);
    RegisterKeeps(vs, key, acc);
  }

  lemma {:induction false} RegisterKeys<K, V>(vs: seq<V>, key: V -> K, acc: map<K, V>)
    ensures forall k :: k in Register(vs, key, acc) <==> k in acc || exists i | 0 <= i < |vs| :: key(vs[i]) == k
    decreases |vs|
  {
    if |vs| > 0 {
      var acc1 := acc[key(vs[0]) := vs[0]];
      RegisterKeys(vs[1..], key, acc1);
      var r := Register(vs, key, acc);
      assert r == Register(vs[1..], key, acc1);
      forall k ensures k in r <==> k in acc || exists i | 0 <= i < |vs| :: key(vs[i]) == k {
        if exists i | 0 <= i < |vs| - 1 :: key(vs[1..][i]) == k {
          var i :| 0 <= i < |vs| - 1 && key(vs[1..][i]) == k;
          assert key(vs[i + 1]) == k;
        }
        if exists i | 0 <= i < |vs| :: key(vs[i]) == k {
          var i :| 0 <= i < |vs| && key(vs[i]) == k;
          if i > 0 {
            assert key(vs[1..][i - 1]) == k;
          }
        }
      }
    }
  }

  /** A key no entry carries keeps the value `acc` gave it. */
  lemma {:induction false} RegisterKeeps<K, V>(vs: seq<V>, key: V -> K, acc: map<K, V>)
    ensures forall k | k in acc && forall i | 0 <= i < |vs| :: key(vs[i]) != k ::
      k in Register(vs, key, acc) && Register(vs, key, acc)[k] == acc[k]
    decreases |vs|
  {
    if |vs| > 0 {
      var acc1 := acc[key(vs[0]) := vs[0]];
      RegisterKeeps(vs[1..], key, acc1);
      assert Register(vs, key, acc) == Register(vs[1..], key, acc1);
      forall k | k in acc && forall i | 0 <= i < |vs| :: key(vs[i]) != k
        ensures k in Register(vs[1..], key, acc1) && Register(vs[1..], key, acc1)[k] == acc[k]
      {
        assert key(vs[0]) != k;
        forall i | 0 <= i < |vs| - 1 ensures key(vs[1..][i]) != k {
          assert key(vs[i + 1]) != k;
        }
      }
    }
  }

  /** The last entry with a key is the one stored under it. */
  lemma {:induction false} RegisterLast<K, V>(vs: seq<V>, key: V -> K, acc: map<K, V>)
    ensures forall i | 0 <= i < |vs| && LastWithKey(vs, key, i) ::
      key(vs[i]) in Register(vs, key, acc) && Register(vs, key, acc)[key(vs[i])] == vs[i]
    decreases |vs|
  {
    if |vs| > 0 {
      var acc1 := acc[key(vs[0]) := vs[0]];
      var r := Register(vs[1..], key, acc1);
      assert Register(vs, key, acc) == r;
      RegisterLast(vs[1..], key, acc1);
      RegisterKeeps(vs[1..], key, acc1);
      forall i | 0 <= i < |vs| && LastWithKey(vs, key, i) ensures key(vs[i]) in r && r[key(vs[i])] == vs[i] {
        if i > 0 {
          assert LastWithKey(vs[1..], key, i - 1);
        } else {
          forall j | 0 <= j < |vs| - 1 ensures key(vs[1..][j]) != key(vs[0]) {
            assert key(vs[j + 1]) != key(vs[0]);
          }
        }
      }
    }
  }

  datatype TileSet = TileSet(tiles: map<TileTypeEnum, TileType>, decorators: map<DecoratorEnum, DecoratorType>)

  function TileKey(t: TileType): TileTypeEnum { t.tileType }

  function DecoratorKey(d: DecoratorType): DecoratorEnum { d.decoratorType }

  function TileTags(tiles: seq<TileType>): (r: seq<Value>)
    ensures |r| == |tiles| && forall i | 0 <= i < |tiles| :: r[i] == TileTag(tiles[i].tileType)
  {
    seq(|tiles|, i requires 0 <= i < |tiles| => TileTag(tiles[i].tileType))
  }

  function DecoratorTags(decorators: seq<DecoratorType>): (r: seq<Value>)
    ensures |r| == |decorators| && forall i | 0 <= i < |decorators| :: r[i] == DecoratorTag(decorators[i].decoratorType)
  {
    seq(|decorators|, i requires 0 <= i < |decorators| => DecoratorTag(decorators[i].decoratorType))
  }

  /** `TileSet.__init__` as written: the duplicate checks look for a type
      tag among the recorded tile and decorator objects. */
  function NewTileSet(tiles: seq<TileType>, decorators: seq<DecoratorType>): (r: Result<TileSet>)
    ensures r.Err? ==> r.failure == AlreadyDefined
  {
    var tileTags := TileTags(tiles);
    var tileObjects := seq(|tiles|, i requires 0 <= i < |tiles| => TileObject(tiles[i]));
    var decoratorTags := DecoratorTags(decorators);
    var decoratorObjects := seq(|decorators|, i requires 0 <= i < |decorators| => DecoratorObject(decorators[i]));
    if Rejects(tileTags, tileObjects, []) then Err(AlreadyDefined)
    else if Rejects(decoratorTags, decoratorObjects, tileObjects) then Err(AlreadyDefined)
    else Ok(TileSet(Register(tiles, TileKey, map[]), Register(decorators, DecoratorKey, map[])))
  }

  /** Tags are never equal to objects, so the as-written check never
      rejects: any lists are accepted, duplicates included, and the maps
      are registered from them. */
  lemma NewTileSetNeverRejects(tiles: seq<TileType>, decorators: seq<DecoratorType>)
    ensures NewTileSet(tiles, decorators) ==
      Ok(TileSet(Register(tiles, TileKey, map[]), Register(decorators, DecoratorKey, map[])))
  {
    var tileObjects := seq(|tiles|, i requires 0 <= i < |tiles| => TileObject(tiles[i]));
    var decoratorObjects := seq(|decorators|, i requires 0 <= i < |decorators| => DecoratorObject(decorators[i]));
    ObjectsNeverMatchTags(TileTags(tiles), tileObjects, []);
    ObjectsNeverMatchTags(DecoratorTags(decorators), decoratorObjects, tileObjects);
  }

  predicate IsTag(v: Value) {
    v.TileTag? || v.DecoratorTag?
  }

  lemma ObjectsNeverMatchTags(probes: seq<Value>, records: seq<Value>, identified: seq<Value>)
    requires |probes| == |records|
    requires forall k | 0 <= k < |probes| :: IsTag(probes[k])
    requires forall k | 0 <= k < |records| :: !IsTag(records[k])
    requires forall k | 0 <= k < |identified| :: !IsTag(identified[k])
    ensures !Rejects(probes, records, identified)
  {
    forall k | 0 <= k < |probes| ensures !Scan(identified + records[..k], probes[k]) {
      var seen := identified + records[..k];
      assert forall m | 0 <= m < |seen| :: !IsTag(seen[m]);
    }
  }

  /** A two-tile witness: the same tile type defined twice is accepted and
      the second definition is the one stored. */
  lemma DuplicateTileAccepted(a: TileType, b: TileType)
    requires a.tileType == b.tileType && a != b
    ensures NewTileSet([a, b], []).Ok?
    ensures a.tileType in NewTileSet([a, b], []).value.tiles
    ensures NewTileSet([a, b], []).value.tiles[a.tileType] == b
  {
    NewTileSetNeverRejects([a, b], []);
    RegisterContents([a, b], TileKey, map[]);
    assert LastWithKey([a, b], TileKey, 1);
  }

  /** `TileSet.__init__` with the duplicate check comparing type tags with
      type tags, as its error message describes. */
  function NewTileSetChecked(tiles: seq<TileType>, decorators: seq<DecoratorType>): (r: Result<TileSet>)
    ensures r.Err? ==> r.failure == AlreadyDefined
  {
    var tileTags := TileTags(tiles);
    var decoratorTags := DecoratorTags(decorators);
    if Rejects(tileTags, tileTags, []) then Err(AlreadyDefined)
    else if Rejects(decoratorTags, decoratorTags, tileTags) then Err(AlreadyDefined)
    else Ok(TileSet(Register(tiles, TileKey, map[]), Register(decorators, DecoratorKey, map[])))
  }

  /** The corrected check rejects exactly the lists that define some tile
      type or some decorator type twice. */
  lemma NewTileSetCheckedRejectsDuplicates(tiles: seq<TileType>, decorators: seq<DecoratorType>)
    ensures NewTileSetChecked(tiles, decorators).Err? <==>
      (exists i, j | 0 <= i < j < |tiles| :: tiles[i].tileType == tiles[j].tileType) ||
      (exists i, j | 0 <= i < j < |decorators| :: decorators[i].decoratorType == decorators[j].decoratorType)
  {
    var tileTags := TileTags(tiles);
    var decoratorTags := DecoratorTags(decorators);
    RejectsItself(tileTags, []);
    RejectsItself(decoratorTags, tileTags);
    TileTagsRepeat(tiles);
    DecoratorTagsRepeat(decorators);
    forall k | 0 <= k < |decoratorTags| ensures !Scan(tileTags, decoratorTags[k]) {
      assert forall m | 0 <= m < |tileTags| :: tileTags[m].TileTag?;
    }
  }

  lemma TileTagsRepeat(tiles: seq<TileType>)
    ensures (exists i, j | 0 <= i < j < |tiles| :: tiles[i].tileType == tiles[j].tileType) <==>
      (exists i, j | 0 <= i < j < |tiles| :: TileTags(tiles)[i] == TileTags(tiles)[j])
  {
    var tags := TileTags(tiles);
    if exists i, j | 0 <= i < j < |tags| :: tags[i] == tags[j] {
      var i, j :| 0 <= i < j < |tags| && tags[i] == tags[j];
      assert tiles[i].tileType == tiles[j].tileType;
    }
    if exists i, j | 0 <= i < j < |tiles| :: tiles[i].tileType == tiles[j].tileType {
      var i, j :| 0 <= i < j < |tiles| && tiles[i].tileType == tiles[j].tileType;
      assert tags[i] == tags[j];
    }
  }

  lemma DecoratorTagsRepeat(decorators: seq<DecoratorType>)
    ensures (exists i, j | 0 <= i < j < |decorators| :: decorators[i].decoratorType == decorators[j].decoratorType) <==>
      (exists i, j | 0 <= i < j < |decorators| :: DecoratorTags(decorators)[i] == DecoratorTags(decorators)[j])
  {
    var tags := DecoratorTags(decorators);
    if exists i, j | 0 <= i < j < |tags| :: tags[i] == tags[j] {
      var i, j :| 0 <= i < j < |tags| && tags[i] == tags[j];
      assert decorators[i].decoratorType == decorators[j].decoratorType;
    }
    if exists i, j | 0 <= i < j < |decorators| :: decorators[i].decoratorType == decorators[j].decoratorType {
      var i, j :| 0 <= i < j < |decorators| && decorators[i].decoratorType == decorators[j].decoratorType;
      assert tags[i] == tags[j];
    }
  }

  /** Checking a list of tags against itself finds exactly a repeated tag,
      or a tag already in `identified`. */
  lemma RejectsItself(tags: seq<Value>, identified: seq<Value>)
    ensures Rejects(tags, tags, identified) <==>
      (exists i, j | 0 <= i < j < |tags| :: tags[i] == tags[j]) ||
      (exists k | 0 <= k < |tags| :: Scan(identified, tags[k]))
  {
    if Rejects(tags, tags, identified) {
      var k :| 0 <= k < |tags| && Scan(identified + tags[..k], tags[k]);
      var m :| 0 <= m < |identified + tags[..k]| && (identified + tags[..k])[m] == tags[k];
      if m < |identified| {
        assert Scan(identified, tags[k]);
      } else {
        assert tags[m - |identified|] == tags[k];
      }
    }
    if exists i, j | 0 <= i < j < |tags| :: tags[i] == tags[j] {
      var i, j :| 0 <= i < j < |tags| && tags[i] == tags[j];
      assert (identified + tags[..j])[|identified| + i] == tags[j];
    }
    if exists k | 0 <= k < |tags| :: Scan(identified, tags[k]) {
      var k :| 0 <= k < |tags| && Scan(identified, tags[k]);
      var m :| 0 <= m < |identified| && identified[m] == tags[k];
      assert (identified + tags[..k])[m] == tags[k];
    }
  }

  /** `get_tile_for_type`: a KeyError when the type has no entry. */
  function GetTileForType(ts: TileSet, t: TileTypeEnum): (r: Result<TileType>)
    ensures r.Ok? <==> t in ts.tiles
    ensures r.Err? ==> r.failure == MissingTag
  {
    if t in ts.tiles then Ok(ts.tiles[t]) else Err(MissingTag)
  }

  /** `get_decorator_for_type`: a KeyError when the type has no entry. */
  function GetDecoratorForType(ts: TileSet, d: DecoratorEnum): (r: Result<DecoratorType>)
    ensures r.Ok? <==> d in ts.decorators
    ensures r.Err? ==> r.failure == MissingTag
  {
    if d in ts.decorators then Ok(ts.decorators[d]) else Err(MissingTag)
  }

  /** On a constructed tileset the lookup finds a type exactly when some
      tile defines it, and returns the last such definition. */
  lemma TileLookupFindsLastDefinition(tiles: seq<TileType>, decorators: seq<DecoratorType>, i: nat)
    requires i < |tiles| && LastWithKey(tiles, TileKey, i)
    ensures NewTileSet(tiles, decorators).Ok?
    ensures GetTileForType(NewTileSet(tiles, decorators).value, tiles[i].tileType) == Ok(tiles[i])
  {
    NewTileSetNeverRejects(tiles, decorators);
    RegisterLast(tiles, TileKey, map[]);
  }

  lemma TileLookupMissesUndefined(tiles: seq<TileType>, decorators: seq<DecoratorType>, t: TileTypeEnum)
    ensures NewTileSet(tiles, decorators).Ok?
    ensures GetTileForType(NewTileSet(tiles, decorators).value, t).Err? <==>
      forall i | 0 <= i < |tiles| :: tiles[i].tileType != t
  {
    NewTileSetNeverRejects(tiles, decorators);
    RegisterKeys(tiles, TileKey, map[]);
  }

  lemma DecoratorLookupFindsLastDefinition(tiles: seq<TileType>, decorators: seq<DecoratorType>, i: nat)
    requires i < |decorators| && LastWithKey(decorators, DecoratorKey, i)
    ensures NewTileSet(tiles, decorators).Ok?
    ensures GetDecoratorForType(NewTileSet(tiles, decorators).value, decorators[i].decoratorType) == Ok(decorators[i])
  {
    NewTileSetNeverRejects(tiles, decorators);
    RegisterLast(decorators, DecoratorKey, map[]);
  }

  lemma DecoratorLookupMissesUndefined(tiles: seq<TileType>, decorators: seq<DecoratorType>, d: DecoratorEnum)
    ensures NewTileSet(tiles, decorators).Ok?
    ensures GetDecoratorForType(NewTileSet(tiles, decorators).value, d).Err? <==>
      forall i | 0 <= i < |decorators| :: decorators[i].decoratorType != d
  {
    NewTileSetNeverRejects(tiles, decorators);
    RegisterKeys(decorators, DecoratorKey, map[]);
  }
}
